=== FILE: README.md ===
# Kaleidoscope front end in Dafny

A model of the front end of a Kaleidoscope compiler (the toy language of
the LLVM tutorial): the hand-written lexer `GetTok`, the `Token` it
returns, the abstract syntax tree, and the recursive-descent parser with
operator-precedence climbing that builds function definitions, `extern`
declarations and top-level expressions from the tokens.

The model is written as pure functions.

- **Lexer** (`lexer.dfy`). The static `LastChar` and the calls of
  `getchar` become an explicit state `LexState(last, rest)`: the lookahead
  character (or EOF) and the input not yet read. `GetTok` takes a state and
  returns the token, the characters it was read from, and the next state.
  The first call starts from the lookahead `' '`, as the static initialiser
  does. `Tokenize` calls `GetTok` until it returns EOF.
- **Tokens** (`tokens.dfy`). `Token(kind, value)` with the constructor's
  defaults, and the two setters. The lexer's side channels
  `IdentifierStr` and `NumVal` become the `text` of a `Lexeme`, the pair of
  a token and the characters it was read from.
- **AST** (`ast.dfy`). Number, variable, binary and call expressions,
  prototypes and functions as immutable datatypes. A number keeps its
  digit-and-dot text rather than the `double` it denotes.
- **Parser** (`parser.dfy`). The static `CurTok` becomes a position in the
  sequence of lexemes; past the end the current token is EOF, as the lexer
  returns EOF forever once its input is exhausted. Every production returns
  `Some(Parsed(node, next))` or `None` where the source logs an error and
  returns `nullptr`. The switch of `ParsePrimary` comes in two variants,
  `AsWritten` and `Corrected`, and every expression production carries the
  variant down to it (see the finding below).
- **Properties** (`lexer_lemmas.dfy`, `parser_lemmas.dfy`, `variants.dfy`,
  `climbing.dfy`, `front_end.dfy`):
  - lexing is inverse to printing lexemes separated by blanks;
  - every parser production reads back the printed form of its node;
  - precedence climbing builds, for any chain of operands joined by
    operators of the table, the tree of an independent reference: the
    operator applied last is the rightmost one of lowest precedence, and
    each side of it is the tree of its own part of the chain;
  - an argument list that the input ends inside, or whose argument is
    followed by anything but `,`, `)`, `(` or an operator of the table,
    is an error;
  - no partial trees: a chain whose operand after an operator cannot be
    read, a parenthesised expression left open, and a call with an
    argument that is not an expression are all errors;
  - the composed front end (text, then lexer, then parser) returns the
    expression, definition or declaration that was printed;
  - the parser as written and the corrected parser agree wherever the one
    as written succeeds, and on all input whose only parentheses are those
    of calls.

Notes on how the code is read:

- A token carries no name or number. Identifiers and numbers have value
  -1, and their text travels beside the token, as `IdentifierStr` and
  `NumVal` do. Only operator tokens carry a character code.
- toy.cpp:98 and toy.cpp:114 return `Token::tok_number` and
  `Token::tok_eof`, names that class `Token` does not declare. They are
  read as `Token(TokenType::tok_number)` and `Token(TokenType::tok_eof)`:
  tokens of that kind with the constructor's default value -1, like the
  other returns of `GetTok`.
- `(` reaches the parser as an operator token, and `ParsePrimary` as
  written (parser.cpp:121) looks for a `tok_lp` token instead, so as
  written no parenthesised expression is ever parsed. This is the one
  finding below. The parser lemmas, the round trips and the front-end
  theorems are stated for the `Corrected` variant, which also takes the
  operator token `(`; the `AsWritten` variant is kept beside it, with
  lemmas showing where the two differ and where they agree.
- `/` has no precedence, so it ends an expression instead of joining two.

Automatic induction is switched off on every lemma, so each proof is
spelled out in its body.

## Model

| member | source | states |
|---|---|---|
| Tokens.SettersBuildToken | lexer.h:63-68 | A token built without arguments has kind `tok_undef` and value -1. Setting the kind and the value of any token, in either order, gives the token the two-argument constructor builds: each setter changes only its own field. |
| Lexer.SkipSpace | toy.cpp:61-62 | The whitespace loop stops at EOF or a non-space lookahead. Everything it consumed is whitespace, and it consumes at least one character when the lookahead is a space. |
| Lexer.SkipComment | toy.cpp:102-106 | The comment loop stops at EOF or at a `\n` or `\r` lookahead. Everything it consumed lies on the comment's line. |
| Lexer.ReadRun | toy.cpp:66-68 | The loop shared by identifiers and numbers reads a non-empty run of its class, starting with the lookahead. The characters it read followed by what is left are the input it started from, and the new lookahead cannot extend the run. |
| Lexer.LexIdentifier | toy.cpp:65-76 | An identifier token is the maximal alphanumeric run at a letter. It is `tok_def` exactly for `def`, `tok_extern` for `extern`, and `tok_identifier` otherwise, with value -1. |
| Lexer.LexNumber | toy.cpp:79-99 | A number token is the maximal run of digits and dots at a digit or dot, with kind `tok_number` and value -1. |
| Lexer.LexOperator | toy.cpp:116-119 | Any other character is returned alone as a `tok_op` token whose value is its code, and the next character is read. |
| Lexer.LexAt | toy.cpp:64-119 | Once whitespace and comments are dealt with, the token is a well-formed lexeme that the next character cannot extend, or EOF with nothing left. The token's text is exactly the input it consumed. |
| Lexer.GetTok | toy.cpp:57-120 | Every call returns a well-formed, maximal lexeme or EOF. EOF is returned only when the input is exhausted. A call that does not return EOF consumes at least one character, and leading whitespace is always consumed. |
| Lexer.LookaheadInvariant | toy.cpp:57-120 | The token's text followed by the unread input is a suffix of the input before the call: the lexer never re-reads or invents characters. |
| Lexer.DropsOnlyIgnorable | toy.cpp:60-110 | What a call skips before its token is whitespace and `#` comments, each comment ending at a line break, or at end of input when EOF is returned. |
| Lexer.TokenizeFrom | toy.cpp:57-120 | Every token the lexer returns before EOF is well-formed: kind, value and text agree. |
| LexerLemmas.LeadingSpaceIgnored | toy.cpp:61-62 | Any amount of leading whitespace does not change the next token. |
| LexerLemmas.SkipCommentOver | toy.cpp:102-106 | A comment body without line breaks is skipped up to the `\n` or `\r` that ends it, or to end of input. |
| LexerLemmas.ReadRunExact | toy.cpp:66-68 | The run loop reads exactly a given run followed by a character outside its class. |
| LexerLemmas.LexAfterBlanks | toy.cpp:57-120 | After blanks, the lexer returns any well-formed lexeme from its own text when the following character cannot extend it. |
| LexerLemmas.TokenizeUnlex | toy.cpp:57-120 | Printing well-formed lexemes with a blank after each and lexing the text gives the same lexemes back. |
| LexerLemmas.TokenizeText | toy.cpp:57-120 | More generally, the lexer reads back lexemes laid out with any whitespace gaps. A gap may be empty only where the next lexeme cannot extend the previous one. |
| LexerLemmas.TokenizeIdempotent | toy.cpp:57-120 | Lexing the printed form of a token stream gives the same stream: re-lexing is idempotent. |
| LexerLemmas.TokenizeSingle | toy.cpp:57-120 | The text of a single well-formed lexeme lexes to that lexeme alone. |
| LexerLemmas.LexIdentifierRun | toy.cpp:65-76 | A letter followed by letters and digits is one identifier token, or the `def` or `extern` keyword. |
| LexerLemmas.LexNumberRun | toy.cpp:79-99 | A run of digits and dots is one number token, including runs with several dots or with no digit at all. |
| LexerLemmas.CommentTransparent | toy.cpp:102-110 | A comment up to a line break returns the same token as the line break alone. |
| LexerLemmas.CommentAtEndIsEof | toy.cpp:102-114 | A comment that runs to the end of input yields EOF. |
| LexerLemmas.CommentOnlyInput | toy.cpp:102-114 | Input of blanks and one unterminated comment has no tokens. |
| LexerLemmas.EofIsSticky | toy.cpp:113-114 | Once the input is exhausted, every call returns EOF and leaves the state unchanged. |
| Parser.Advance | parser.cpp:42-44 | Moving to the next token stays within the lexemes, and past the end the current token remains EOF. |
| Parser.GetTokPrecedence | parser.cpp:130-142 | The precedence is -1 exactly when the token's value is not an ASCII operator of the table (`<` 10, `+` 20, `-` 20, `*` 40). Otherwise it is that operator's positive table entry. |
| Parser.Dispatch | parser.cpp:115-127 | The switch picks the identifier production exactly for a `tok_identifier` token and the number production exactly for a `tok_number` token. It picks the parenthesised production exactly for a `tok_lp` token, or, in the corrected variant only, for a `tok_op` token whose value is `(`. |
| Parser.ParseNumberExpr | parser.cpp:52-56 | A number consumes exactly its own token. |
| Parser.ParseParenExpr | parser.cpp:60-70 | A successful parenthesised expression consumes its `(`, and the last token it consumes is a `)`. When the inner expression fails, so does the parenthesised one. |
| Parser.ParseIdentifierExpr | parser.cpp:77-108 | An identifier is a plain variable, consuming one token, exactly when no `(` follows it. Otherwise the result is a call or an error. |
| Parser.ParseArgs | parser.cpp:86-107 | A successful argument loop returns at least one argument and stops at a `)` inside the input. |
| Parser.ParsePrimary | parser.cpp:115-127 | A token no production starts with is an error, and as written so is every operator token. A successful primary consumes at least one token, and all its operators are in the table. |
| Parser.ParseExpression | parser.cpp:144-149 | A successful expression is followed by a token that is not an operator of the table. |
| Parser.ParseBinOpRHS | parser.cpp:153-186 | The climbing loop stops at a token whose precedence is below its threshold, and it keeps every operator in the tree inside the table. When it consumes an operator and no primary can be read after it, the loop fails instead of returning the tree built so far. |
| Parser.ParseParams | parser.cpp:203-206 | The parameter loop reads the maximal run of identifier tokens, their names in order, and stops at the first token that is not an identifier. |
| Parser.ParsePrototype | parser.cpp:192-213 | A successful prototype is a name, `(`, the maximal run of identifiers as its parameters, then `)`. It consumes exactly those tokens. |
| Parser.ParseDefinition | parser.cpp:217-227 | A definition succeeds exactly when a prototype follows the keyword and an expression follows the prototype. |
| Parser.ParseExtern | parser.cpp:231-234 | A successful extern consumes the keyword and a prototype ending in `)`. |
| Parser.ParseTopLevelExpr | parser.cpp:237-244 | A top-level expression succeeds exactly when the expression does. It is wrapped in a prototype with an empty name and no parameters. |
| ParserLemmas.PrimaryRoundTrip | parser.cpp:115-127 | ParsePrimary reads back the printed form of any expression whose operators are in the table, wherever it stands and whatever follows it, short of a `(`. |
| ParserLemmas.ExpressionRoundTrip | parser.cpp:144-186 | ParseExpression reads back the printed form of any such expression when a lexeme that closes an expression follows it. |
| ParserLemmas.ArgsRoundTrip | parser.cpp:86-107 | The argument loop reads back a printed, comma-separated argument list up to its `)`, in source order. |
| ParserLemmas.ParamsRoundTrip | parser.cpp:203-206 | The parameter loop reads back a run of parameter names that a non-identifier ends. |
| ParserLemmas.PrototypeRoundTrip | parser.cpp:192-213 | ParsePrototype reads back any printed prototype. |
| ParserLemmas.DefinitionRoundTrip | parser.cpp:217-227 | ParseDefinition reads back `def`, a printed prototype and a printed body. |
| ParserLemmas.ExternRoundTrip | parser.cpp:231-234 | ParseExtern reads back `extern` and a printed prototype. |
| ParserLemmas.TopLevelRoundTrip | parser.cpp:237-244 | A printed expression reads back as the anonymous function whose body it is. |
| ParserLemmas.LeftAssociative | parser.cpp:153-186 | A chain of numbers joined by operators of one precedence parses as the left-nested tree. |
| ParserLemmas.ThreeOperands | parser.cpp:153-186 | For `x o1 y o2 z`, the first operator takes `y` exactly when it binds at least as tightly as the second. Otherwise `y o2 z` is grouped first. |
| ParserLemmas.BrokenArgs | parser.cpp:89-100 | An argument list whose last printed argument is followed by a lexeme other than `,`, `)`, `(` and the operators of the table is an error. This covers the end of input. |
| ParserLemmas.BrokenCall | parser.cpp:77-108 | A call whose printed arguments are followed by such a lexeme, for example `f(1, 2 3`, is an error. |
| ParserLemmas.UnclosedCall | parser.cpp:77-108 | A call whose `)` never comes before the input ends, such as `foo(1, 2`, is an error. |
| ParserLemmas.UnclosedParen | parser.cpp:60-70 | A `(` and a printed expression followed by a lexeme that neither continues the expression nor is `)` (including the end of input) is an error under either variant. |
| ParserLemmas.BadArgument | parser.cpp:86-94 | A call whose first argument is not an expression and not `)`, such as `f(+)`, is an error: the argument loop, the primary and the expression all fail. |
| ParserLemmas.BadNextArgument | parser.cpp:90-101 | An argument followed by `,` and then something that is not an expression makes the whole argument list an error. |
| ParserLemmas.CallOfOperator | parser.cpp:86-94 | `f(+)` is an error under either variant. |
| FrontEnd.TopLevelFrontEnd | parser.cpp:237-244 | Lexing the text of a printed expression and parsing it as a top-level expression gives back that expression as the anonymous function. |
| FrontEnd.DefinitionFrontEnd | parser.cpp:217-227 | Lexing and parsing the text of a printed definition gives back the definition. |
| FrontEnd.ExternFrontEnd | parser.cpp:231-234 | Lexing and parsing the text of a printed `extern` gives back the prototype. |
| FrontEnd.LexedTokensAreNeverLp | toy.cpp:116-119 | The lexer never returns a `tok_lp` token: every lexed token whose value is `(` is the `tok_op` token with text `(`. |
| FrontEnd.ParenUnreachableAsWritten | parser.cpp:121 | On lexed input, the switch as written never chooses the parenthesised production, and ParsePrimary as written fails at every `(`. |
| FrontEnd.ParenthesisedFrontEnd | parser.cpp:60-70 | For the text of `( e )`, ParsePrimary as written fails, while the corrected parser returns `e` for the whole text. |
| FrontEnd.ParenNameExample | parser.cpp:115-127 | For the text `(x)` with no blanks, ParsePrimary as written fails. The corrected parser returns the variable `x`. |
| FrontEnd.ParenthesisedExpression | parser.cpp:60-70 | For the lexemes of `( e )` followed by a closing lexeme, the parser as written fails, and the corrected parser returns `e` and steps over the `)`. |
| FrontEnd.ParenthesisedArgument | parser.cpp:77-108 | For the lexemes of `f((e))`, the parser as written fails at the `(` that starts the argument. The corrected parser returns the call of `f` with the single argument `e`. |
| FrontEnd.ParenthesisedArgumentFrontEnd | parser.cpp:121 | The same through the lexer: for any name `f` and printable `e`, the text of `f((e))` is rejected as written and read as the call by the corrected parser. |
| FrontEnd.CallParensAgree | parser.cpp:115-127 | On lexed input in which every `(` directly follows a name, so that every parenthesis belongs to a call, the parser as written and the corrected parser return the same top-level expression and the same definition. |
| Variants.PrimaryRefines | parser.cpp:115-127 | Wherever ParsePrimary with the switch as written succeeds, the corrected one returns the same node at the same position. |
| Variants.ArgsRefines | parser.cpp:86-107 | Wherever the argument loop as written succeeds, the corrected one returns the same arguments. |
| Variants.BinOpRHSRefines | parser.cpp:153-186 | Wherever the climbing loop as written succeeds, the corrected one returns the same tree. |
| Variants.ExpressionRefines | parser.cpp:144-149 | Wherever ParseExpression as written succeeds, the corrected one returns the same expression. |
| Variants.DefinitionRefines | parser.cpp:217-227 | Wherever a definition as written parses, the corrected parser reads the same definition. |
| Variants.TopLevelRefines | parser.cpp:237-244 | Wherever a top-level expression as written parses, the corrected parser reads the same one. |
| Variants.PrimaryAgrees | parser.cpp:115-127 | When no operator `(` stands at the position, and every later one directly follows a name, the two switches give the same primary, success or failure alike. |
| Variants.ArgsAgrees | parser.cpp:86-107 | Under the same condition the two argument loops give the same result. |
| Variants.BinOpRHSAgrees | parser.cpp:153-186 | When every operator `(` from the position on directly follows a name, the two climbing loops give the same result. |
| Variants.ExpressionAgrees | parser.cpp:144-149 | Under the same condition the two variants of ParseExpression give the same result. |
| Variants.DefinitionAgrees | parser.cpp:217-227 | When every operator `(` follows a name, the two variants read the same definition or fail alike. |
| Variants.TopLevelAgrees | parser.cpp:237-244 | At any position where no operator `(` stands, and every later operator `(` follows a name, the two variants read the same top-level expression or fail alike. |
| Climbing.TreeSplit | parser.cpp:153-186 | The reference tree of a stretch with operators splits at its root: the root operator joins the tree of the part to its left and the tree of the part to its right. |
| Climbing.Regroup | parser.cpp:173-184 | When the operators after the first one bind more tightly than it up to one that does not, grouping the first operator with the tree of that tighter stretch, as the recursive call does, and continuing with the rest gives the reference tree. |
| Climbing.FirstBelow | parser.cpp:156-162 | The loop with threshold `m` stops at the first operator that binds more loosely than `m`, or after the chain: every operator before it binds at least as tightly as `m`. |
| Climbing.Climb | parser.cpp:153-186 | The loop with threshold `m`, started with any left operand before an operator of a chain, consumes the chain up to the first operator below `m`, and returns the reference tree of that stretch with the given left operand first. |
| Climbing.ChainExpression | parser.cpp:144-186 | For lexemes holding any chain of operands ParsePrimary reads, joined by operators of the table and followed by a lexeme that is no operator, ParseExpression returns the reference tree of the chain and stops after the last operand, under either variant. |
| Climbing.FlatChain | parser.cpp:144-186 | A chain of numbers joined by any operators of the table parses as its reference tree. |
| Climbing.BrokenClimb | parser.cpp:153-186 | In a chain where no primary can be read after the last operator, the loop with threshold `m` started before an operator stops where Climb stops when the first operator below `m` comes before the break, and otherwise fails: no partial tree is returned, from a nested call or from the loop itself. |
| Climbing.BrokenExpression | parser.cpp:144-186 | The failure partner of ChainExpression: when operands are read and joined by operators of the table but no primary can be read after the last operator, ParseExpression fails, under either variant. |
| Climbing.FlatBroken | parser.cpp:144-186 | A chain of numbers followed by one more operator of the table and then anything that starts no primary, such as `1 + 2 * -`, is an error. |
| Climbing.TrailingOperator | parser.cpp:144-186 | An expression that ends with an operator at the end of the input, such as `1 + 2 *`, is an error. |
| Climbing.MixedChain | parser.cpp:144-186 | `1 < 2 + 3 * 4 - 5` parses as `1 < ((2 + (3 * 4)) - 5)`. |

## Left out

- Code generation (codegen.cpp, codegen.h), the `print` methods of the
  AST (ast.cpp) and `LogError`'s messages are not part of this model. An
  error is the result `None`. No driver that calls the productions in a
  loop is among the files modelled, so each production is stated at any
  position of the lexemes.
- Input is a string given as a parameter rather than read with `getchar`.
  The static `LastChar`, `CurTok`, `IdentifierStr` and `NumVal` are
  explicit state or part of a lexeme.
- `isspace`, `isalpha`, `isdigit` and `isalnum` follow the C locale on
  ASCII. Other locales and non-ASCII input are not modelled.
- Lexer.LexNumber: the conversion with `std::stod` and its two exceptions
  (toy.cpp:87-97) are not modelled, because floating point is not. A
  number keeps the text of its whole digit-and-dot run. So `.`, on which
  the conversion throws, is a number token here, and so is `1.2.3`, of
  which the conversion would keep only the prefix `1.2`.
- Parser.ParseNumberExpr: the node holds the literal text rather than the
  value `getNumVal()` returns, for the same reason.
- The token kinds `tok_undef` and `tok_sc` are declared but never produced
  by the lexer. The parser treats them like any other non-primary token.
- `/` is not in the precedence table (parser.cpp:130-142), so it is never
  a binary operator. The model keeps the table as written.
- Recovery after an error and the handling of `;` are up to a caller of
  the productions, which is not among the files modelled. The productions
  stop at the error.
- The `std::unique_ptr` ownership and moves of the AST are not modelled:
  nodes are values.
- Parser.ParsePrimary: the model deviates from parser.cpp:121 on purpose.
  The parser lemmas, round trips and front-end theorems use the corrected
  switch, which also starts a parenthesised expression at the operator
  token `(`. The switch as written is kept as the `AsWritten` variant and
  is related to the corrected one by the lemmas of `variants.dfy` and
  `front_end.dfy`.

## Findings

| source | as written | input that shows it | evidently intended | confidence | as-written member | corrected member |
|---|---|---|---|---|---|---|
| parser.cpp:121 | ParsePrimary enters the parenthesised production only on a token of kind `tok_lp`. The lexer (toy.cpp:116-119) returns `(` as a `tok_op` token whose value is `(`, and never produces `tok_lp`. | `(x)`, `(1+2)*3`, or `f((x))` | A `(` token starts a parenthesised expression, as the grammar comment `parenexpr ::= '(' expression ')'` says. | not executed | FrontEnd.ParenthesisedArgumentFrontEnd | Parser.ParsePrimary |

=== FILE: ast.dfy ===
/** The syntax tree (ast.h). Each node exclusively owns its children, so a
    tree is an inductive datatype value: finite, acyclic and never shared. */
module Ast {

  /** The ExprAST hierarchy. A numeric literal keeps the digit and `.` run it
      was lexed from; the conversion to a double is not modelled. */
  datatype Expr =
    | NumberExpr(literal: string)
    | VariableExpr(name: string)
    | BinaryExpr(op: char, lhs: Expr, rhs: Expr)
    | CallExpr(callee: string, args: seq<Expr>)

  /** A function's name and its parameter names, in declaration order. */
  datatype Prototype = Prototype(name: string, args: seq<string>)

  /** A function definition: exactly one prototype and one body. */
  datatype Function = Function(proto: Prototype, body: Expr)

  /** The prototype a bare top-level expression is wrapped in. */
  const Anonymous: Prototype := Prototype("", [])
}

=== FILE: climbing.dfy ===
/** Precedence climbing against an independent account of precedence. A
    chain `x0 c0 x1 c1 ... xn` of operands and operators of the table has
    one tree the operators should build: the operator applied last is the
    rightmost one of lowest precedence, and each side of it is a chain of its
    own. Whatever the operands are, so long as ParsePrimary reads each of
    them, ParseExpression builds exactly that tree. */
module Climbing {
  import opened Wrappers
  import opened Tokens
  import opened Ast
  import opened Parser
  import opened ParserLemmas

  /** The operators of a chain, all in the table. */
  predicate Ops(c: seq<char>) {
    forall i :: 0 <= i < |c| ==> c[i] in BinopPrecedence
  }

  function Prec(c: char): int
    requires c in BinopPrecedence
  {
    BinopPrecedence[c]
  }

  /** `r` is the index of the operator that the part of the chain with
      operators `c[lo..hi]` applies last: the rightmost operator of lowest
      precedence there, since operators of equal precedence group to the
      left. */
  predicate IsRoot(c: seq<char>, lo: nat, hi: nat, r: nat)
    requires Ops(c) && hi <= |c|
  {
    && lo <= r < hi
    && (forall i :: lo <= i < hi ==> Prec(c[r]) <= Prec(c[i]))
    && (forall i :: r < i < hi ==> Prec(c[r]) < Prec(c[i]))
  }

  /** The root, found by a scan from the left that keeps the last operator
      of lowest precedence seen so far. */
  function Root(c: seq<char>, lo: nat, hi: nat): (r: nat)
    requires Ops(c) && lo < hi <= |c|
    ensures IsRoot(c, lo, hi, r)
    decreases hi
  {
    if hi == lo + 1 then lo
    else
      var r := Root(c, lo, hi - 1);
      if Prec(c[hi - 1]) <= Prec(c[r]) then hi - 1 else r
  }

  /** Only one index is the root. */
  lemma {:induction false} RootUnique(c: seq<char>, lo: nat, hi: nat, r: nat, r': nat)
    requires Ops(c) && hi <= |c| && IsRoot(c, lo, hi, r) && IsRoot(c, lo, hi, r')
    ensures r == r'
  {
    assert Prec(c[r]) <= Prec(c[r']) && Prec(c[r']) <= Prec(c[r]);
  }

  /** The tree of a part with at least one operator splits at its root. */
  lemma {:induction false} TreeSplit(first: Expr, x: seq<Expr>, c: seq<char>, lo: nat, hi: nat, r: nat)
    requires |x| == |c| + 1 && Ops(c) && hi <= |c| && IsRoot(c, lo, hi, r)
    ensures TreeOf(first, x, c, lo, hi) ==
              BinaryExpr(c[r], TreeOf(first, x, c, lo, r), TreeOf(x[r + 1], x, c, r + 1, hi))
  {
    forall r' | IsRoot(c, lo, hi, r')
      ensures r' == r
    {
      RootUnique(c, lo, hi, r, r');
    }
  }

  /** The tree of the part of a chain whose first operand is `first`, whose
      operators are `c[lo..hi]`, and whose other operands are
      `x[lo + 1..hi + 1]`: its root is the operator that part applies last,
      and each side of it is the tree of the part on that side. */
  ghost function TreeOf(first: Expr, x: seq<Expr>, c: seq<char>, lo: nat, hi: nat): Expr
    requires |x| == |c| + 1 && Ops(c) && lo <= hi <= |c|
    decreases hi - lo
  {
    if lo == hi then first
    else
      assert IsRoot(c, lo, hi, Root(c, lo, hi));
      var r: nat :| IsRoot(c, lo, hi, r);
      BinaryExpr(c[r], TreeOf(first, x, c, lo, r), TreeOf(x[r + 1], x, c, r + 1, hi))
  }

  /** The tree of the whole chain with operands `x` and operators `c`. */
  ghost function Tree(x: seq<Expr>, c: seq<char>): Expr
    requires |x| == |c| + 1 && Ops(c)
  {
    TreeOf(x[0], x, c, 0, |c|)
  }

  /** Regrouping a chain: when the operators right after the first one,
      `c[lo]`, bind more tightly than it, up to an operator `c[k]` that does
      not, the first operator with its right operand grouped from
      `x[lo + 1]` to `x[k]` is a single operand of the rest of the chain. */
  lemma {:induction false} Regroup(first: Expr, x: seq<Expr>, c: seq<char>, lo: nat, hi: nat, k: nat)
    requires |x| == |c| + 1 && Ops(c) && lo < k <= hi <= |c|
    requires forall t :: lo < t < k ==> Prec(c[lo]) < Prec(c[t])
    requires k < hi ==> Prec(c[k]) <= Prec(c[lo])
    ensures TreeOf(first, x, c, lo, hi) ==
              TreeOf(BinaryExpr(c[lo], first, TreeOf(x[lo + 1], x, c, lo + 1, k)), x, c, k, hi)
    decreases hi - lo
  {
    var b := BinaryExpr(c[lo], first, TreeOf(x[lo + 1], x, c, lo + 1, k));
    if k == hi {
      TreeSplit(first, x, c, lo, hi, lo);
    } else {
      var r := Root(c, lo, hi);
      assert Prec(c[r]) <= Prec(c[k]) <= Prec(c[lo]);
      TreeSplit(first, x, c, lo, hi, r);
      TreeSplit(b, x, c, k, hi, r);
      Regroup(first, x, c, lo, r, k);
    }
  }

  /** Where the operator loop with threshold `m`, started before operator
      `c[i]`, stops: at the first operator from there on that binds more
      loosely than `m`, or after the chain. */
  function FirstBelow(c: seq<char>, i: nat, m: int): (j: nat)
    requires Ops(c) && i <= |c|
    ensures i <= j <= |c|
    ensures forall t :: i <= t < j ==> m <= Prec(c[t])
    ensures j < |c| ==> Prec(c[j]) < m
    decreases |c| - i
  {
    if i == |c| || Prec(c[i]) < m then i else FirstBelow(c, i + 1, m)
  }

  /** Only one index has the properties of FirstBelow. */
  lemma {:induction false} FirstBelowUnique(c: seq<char>, i: nat, m: int, j: nat)
    requires Ops(c) && i <= j <= |c|
    requires forall t :: i <= t < j ==> m <= Prec(c[t])
    requires j < |c| ==> Prec(c[j]) < m
    ensures FirstBelow(c, i, m) == j
  {
  }

  /** Where operand `i` of a chain starts, given where each operand ends. */
  function OperandStart(pos: nat, ends: seq<nat>, i: nat): nat
    requires i <= |ends|
  {
    if i == 0 then pos else ends[i - 1] + 1
  }

  /** The lexemes from `pos` hold a chain: ParsePrimary of variant `v` reads
      operand `x[i]` from its start up to `ends[i]`, where operator `c[i]`
      stands, and the last operand is followed by a lexeme that is not an
      operator of the table. */
  predicate ChainAt(v: Variant, toks: seq<Lexeme>, pos: nat, x: seq<Expr>, c: seq<char>, ends: seq<nat>) {
    && |x| == |c| + 1 && |ends| == |x| && Ops(c)
    && (forall i {:trigger OperandStart(pos, ends, i)} :: 0 <= i < |x| ==>
          OperandStart(pos, ends, i) <= |toks| &&
          ParsePrimary(v, toks, OperandStart(pos, ends, i)) == Some(Parsed(x[i], ends[i])))
    && (forall i :: 0 <= i < |c| ==> ends[i] < |toks| && toks[ends[i]].tok.value == c[i] as int)
    && GetTokPrecedence(Cur(toks, ends[|c|]).tok) < 0
  }

  /** The precedence the parser sees at the end of operand `i`. */
  lemma {:induction false} PrecedenceAt(v: Variant, toks: seq<Lexeme>, pos: nat, x: seq<Expr>, c: seq<char>, ends: seq<nat>, i: nat)
    requires ChainAt(v, toks, pos, x, c, ends) && i <= |c|
    ensures ends[i] <= |toks|
    ensures i < |c| ==> ends[i] < |toks| && GetTokPrecedence(toks[ends[i]].tok) == Prec(c[i])
    ensures i < |c| ==> toks[ends[i]].tok.value as char == c[i]
    ensures i == |c| ==> GetTokPrecedence(Cur(toks, ends[i]).tok) < 0
  {
    assert ParsePrimary(v, toks, OperandStart(pos, ends, i)) == Some(Parsed(x[i], ends[i]));
    if i < |c| {
      assert c[i] in BinopPrecedence;
      assert IsBinop(toks[ends[i]].tok.value);
    }
  }

  /** What the parser sees around operator `c[i]`: the operator itself,
      then the operand after it, then the precedence after that operand. */
  lemma {:induction false} OperandAt(v: Variant, toks: seq<Lexeme>, pos: nat, x: seq<Expr>, c: seq<char>, ends: seq<nat>, i: nat)
    requires ChainAt(v, toks, pos, x, c, ends) && i < |c|
    ensures ends[i] < |toks| && GetTokPrecedence(toks[ends[i]].tok) == Prec(c[i]) && toks[ends[i]].tok.value as char == c[i]
    ensures ParsePrimary(v, toks, ends[i] + 1) == Some(Parsed(x[i + 1], ends[i + 1]))
    ensures i + 1 < |c| ==> GetTokPrecedence(Cur(toks, ends[i + 1]).tok) == Prec(c[i + 1])
    ensures i + 1 == |c| ==> GetTokPrecedence(Cur(toks, ends[i + 1]).tok) < 0
  {
    PrecedenceAt(v, toks, pos, x, c, ends, i);
    PrecedenceAt(v, toks, pos, x, c, ends, i + 1);
    assert OperandStart(pos, ends, i + 1) == ends[i] + 1;
  }

  /** The operator loop with threshold `m`, started with left operand `lhs`
      before operator `c[i]`, consumes the chain up to FirstBelow and builds
      the tree of that part of the chain, with `lhs` as its first operand. */
  lemma {:induction false} Climb(v: Variant, toks: seq<Lexeme>, pos: nat, x: seq<Expr>, c: seq<char>, ends: seq<nat>, i: nat, m: nat, lhs: Expr)
    requires ChainAt(v, toks, pos, x, c, ends) && i <= |c|
    ensures ends[i] <= |toks|
    ensures var j := FirstBelow(c, i, m);
      ParseBinOpRHS(v, toks, m, lhs, ends[i]) == Some(Parsed(TreeOf(lhs, x, c, i, j), ends[j]))
    decreases |c| - i, 2
  {
    PrecedenceAt(v, toks, pos, x, c, ends, i);
    var j := FirstBelow(c, i, m);
    if i == |c| || Prec(c[i]) < m {
      StopAt(v, toks, m, lhs, ends[i]);
    } else {
      ClimbTurn(v, toks, pos, x, c, ends, i, m, lhs);
    }
  }

  /** One turn of the loop in Climb, when operator `c[i]` is consumed. */
  lemma {:induction false} ClimbTurn(v: Variant, toks: seq<Lexeme>, pos: nat, x: seq<Expr>, c: seq<char>, ends: seq<nat>, i: nat, m: nat, lhs: Expr)
    requires ChainAt(v, toks, pos, x, c, ends) && i < |c| && m <= Prec(c[i])
    ensures var j := FirstBelow(c, i, m);
      ParseBinOpRHS(v, toks, m, lhs, ends[i]) == Some(Parsed(TreeOf(lhs, x, c, i, j), ends[j]))
    decreases |c| - i, 1
  {
    if i + 1 < |c| && Prec(c[i]) < Prec(c[i + 1]) {
      ClimbBranch(v, toks, pos, x, c, ends, i, m, lhs);
    } else {
      FoldBranch(v, toks, pos, x, c, ends, i, m, lhs);
    }
  }

  /** The turn where the operator after the right operand binds more
      tightly: the right operand first absorbs the operators that do. */
  lemma {:induction false} ClimbBranch(v: Variant, toks: seq<Lexeme>, pos: nat, x: seq<Expr>, c: seq<char>, ends: seq<nat>, i: nat, m: nat, lhs: Expr)
    requires ChainAt(v, toks, pos, x, c, ends) && i + 1 < |c| && m <= Prec(c[i]) < Prec(c[i + 1])
    ensures var j := FirstBelow(c, i, m);
      ParseBinOpRHS(v, toks, m, lhs, ends[i]) == Some(Parsed(TreeOf(lhs, x, c, i, j), ends[j]))
    decreases |c| - i, 0
  {
    OperandAt(v, toks, pos, x, c, ends, i);
    var p := Prec(c[i]);
    var k := Nested(c, i, m);
    Climb(v, toks, pos, x, c, ends, i + 1, p + 1, x[i + 1]);
    var inner := TreeOf(x[i + 1], x, c, i + 1, k);
    ClimbStep(v, toks, m, lhs, ends[i], x[i + 1], ends[i + 1], inner, ends[k]);
    Climb(v, toks, pos, x, c, ends, k, m, BinaryExpr(c[i], lhs, inner));
    Regroup(lhs, x, c, i, FirstBelow(c, i, m), k);
  }

  /** The turn where the operator after the right operand binds no more
      tightly: the operands are combined at once. */
  lemma {:induction false} FoldBranch(v: Variant, toks: seq<Lexeme>, pos: nat, x: seq<Expr>, c: seq<char>, ends: seq<nat>, i: nat, m: nat, lhs: Expr)
    requires ChainAt(v, toks, pos, x, c, ends) && i < |c| && m <= Prec(c[i])
    requires i + 1 < |c| ==> Prec(c[i + 1]) <= Prec(c[i])
    ensures var j := FirstBelow(c, i, m);
      ParseBinOpRHS(v, toks, m, lhs, ends[i]) == Some(Parsed(TreeOf(lhs, x, c, i, j), ends[j]))
    decreases |c| - i, 0
  {
    OperandAt(v, toks, pos, x, c, ends, i);
    var j := FirstBelow(c, i, m);
    FoldStep(v, toks, m, lhs, ends[i], x[i + 1], ends[i + 1]);
    FirstBelowUnique(c, i + 1, m, j);
    Climb(v, toks, pos, x, c, ends, i + 1, m, BinaryExpr(c[i], lhs, x[i + 1]));
    Regroup(lhs, x, c, i, j, i + 1);
  }

  /** Where the inner loop of a climbing turn stops: after operator `c[i]`,
      the loop with threshold one above its precedence stops at `k`, no
      later than the outer loop, which then goes on from `k` to the same
      place. */
  lemma {:induction false} Nested(c: seq<char>, i: nat, m: int) returns (k: nat)
    requires Ops(c) && i + 1 < |c| && m <= Prec(c[i])
    ensures k == FirstBelow(c, i + 1, Prec(c[i]) + 1)
    ensures i < k <= FirstBelow(c, i, m)
    ensures FirstBelow(c, k, m) == FirstBelow(c, i, m)
  {
    var j := FirstBelow(c, i, m);
    k := FirstBelow(c, i + 1, Prec(c[i]) + 1);
    assert i < j;
    assert j < |c| ==> Prec(c[j]) < m;
    FirstBelowUnique(c, k, m, j);
  }

  /** Every precedence of the table is positive. */
  lemma {:induction false} PrecPositive(c: seq<char>)
    requires Ops(c)
    ensures forall t :: 0 <= t < |c| ==> 0 < Prec(c[t])
  {
    forall t | 0 <= t < |c|
      ensures 0 < Prec(c[t])
    {
      assert c[t] in BinopPrecedence;
    }
  }

  /** Precedence climbing builds the tree of the chain: ParseExpression reads
      a chain of any operands ParsePrimary reads, joined by any operators of
      the table, as the tree whose root is the rightmost operator of lowest
      precedence, and stops after the last operand. */
  lemma {:induction false} ChainExpression(v: Variant, toks: seq<Lexeme>, pos: nat, x: seq<Expr>, c: seq<char>, ends: seq<nat>)
    requires pos <= |toks| && ChainAt(v, toks, pos, x, c, ends)
    ensures ParseExpression(v, toks, pos) == Some(Parsed(Tree(x, c), ends[|c|]))
  {
    assert ParsePrimary(v, toks, pos) == Some(Parsed(x[0], ends[0])) by {
      assert OperandStart(pos, ends, 0) == pos;
    }
    PrecPositive(c);
    FirstBelowUnique(c, 0, 0, |c|);
    Climb(v, toks, pos, x, c, ends, 0, 0, x[0]);
  }

  // No partial trees: a chain whose operand after an operator fails.

  /** The lexemes from `pos` hold a broken chain: operands `x[i]` read as
      in ChainAt, each followed by operator `c[i]`, but no primary can be
      read after the last operator, be it because the input ends there,
      because an operator other than `(` stands there, or because the
      operand there goes wrong itself. */
  predicate BrokenChainAt(v: Variant, toks: seq<Lexeme>, pos: nat, x: seq<Expr>, c: seq<char>, ends: seq<nat>) {
    && 0 < |c| && |x| == |c| && |ends| == |x| && Ops(c)
    && (forall i {:trigger OperandStart(pos, ends, i)} :: 0 <= i < |x| ==>
          OperandStart(pos, ends, i) <= |toks| &&
          ParsePrimary(v, toks, OperandStart(pos, ends, i)) == Some(Parsed(x[i], ends[i])))
    && (forall i :: 0 <= i < |c| ==> ends[i] < |toks| && toks[ends[i]].tok.value == c[i] as int)
    && ParsePrimary(v, toks, ends[|c| - 1] + 1) == None
  }

  /** What the parser sees at operator `c[i]` of a broken chain, and at the
      operand after it when that operand is read. */
  lemma {:induction false} BrokenOperandAt(v: Variant, toks: seq<Lexeme>, pos: nat, x: seq<Expr>, c: seq<char>, ends: seq<nat>, i: nat)
    requires BrokenChainAt(v, toks, pos, x, c, ends) && i < |c|
    ensures ends[i] < |toks| && GetTokPrecedence(toks[ends[i]].tok) == Prec(c[i]) && toks[ends[i]].tok.value as char == c[i]
    ensures i + 1 < |c| ==> ParsePrimary(v, toks, ends[i] + 1) == Some(Parsed(x[i + 1], ends[i + 1]))
    ensures i + 1 < |c| ==> ends[i + 1] < |toks| && GetTokPrecedence(toks[ends[i + 1]].tok) == Prec(c[i + 1])
  {
    assert c[i] in BinopPrecedence;
    assert IsBinop(toks[ends[i]].tok.value);
    if i + 1 < |c| {
      assert OperandStart(pos, ends, i + 1) == ends[i] + 1;
      assert ParsePrimary(v, toks, OperandStart(pos, ends, i + 1)) == Some(Parsed(x[i + 1], ends[i + 1]));
      assert c[i + 1] in BinopPrecedence;
      assert IsBinop(toks[ends[i + 1]].tok.value);
    }
  }

  /** The operator loop with threshold `m`, started before operator `c[i]`
      of a broken chain, stops at FirstBelow as in Climb when that comes
      before the break, and fails as a whole when it does not. */
  lemma {:induction false} BrokenClimb(v: Variant, toks: seq<Lexeme>, pos: nat, x: seq<Expr>, c: seq<char>, ends: seq<nat>, i: nat, m: nat, lhs: Expr)
    requires BrokenChainAt(v, toks, pos, x, c, ends) && i < |c|
    ensures ends[i] < |toks|
    ensures var j := FirstBelow(c, i, m);
      && (j < |c| ==> ParseBinOpRHS(v, toks, m, lhs, ends[i]).Some? && ParseBinOpRHS(v, toks, m, lhs, ends[i]).value.next == ends[j])
      && (j == |c| ==> ParseBinOpRHS(v, toks, m, lhs, ends[i]) == None)
    decreases |c| - i, 3
  {
    BrokenOperandAt(v, toks, pos, x, c, ends, i);
    if Prec(c[i]) < m {
      StopAt(v, toks, m, lhs, ends[i]);
    } else {
      BrokenTurn(v, toks, pos, x, c, ends, i, m, lhs);
    }
  }

  /** One turn of the loop in BrokenClimb, when operator `c[i]` is consumed. */
  lemma {:induction false} BrokenTurn(v: Variant, toks: seq<Lexeme>, pos: nat, x: seq<Expr>, c: seq<char>, ends: seq<nat>, i: nat, m: nat, lhs: Expr)
    requires BrokenChainAt(v, toks, pos, x, c, ends) && i < |c| && m <= Prec(c[i])
    ensures var j := FirstBelow(c, i, m);
      && (j < |c| ==> ParseBinOpRHS(v, toks, m, lhs, ends[i]).Some? && ParseBinOpRHS(v, toks, m, lhs, ends[i]).value.next == ends[j])
      && (j == |c| ==> ParseBinOpRHS(v, toks, m, lhs, ends[i]) == None)
    decreases |c| - i, 2
  {
    if i + 1 == |c| {
      BrokenLast(v, toks, pos, x, c, ends, m, lhs);
    } else if Prec(c[i]) < Prec(c[i + 1]) {
      BrokenBranch(v, toks, pos, x, c, ends, i, m, lhs);
    } else {
      BrokenFold(v, toks, pos, x, c, ends, i, m, lhs);
    }
  }

  /** The turn at the last operator: the operand after it cannot be read,
      so the loop fails. */
  lemma {:induction false} BrokenLast(v: Variant, toks: seq<Lexeme>, pos: nat, x: seq<Expr>, c: seq<char>, ends: seq<nat>, m: nat, lhs: Expr)
    requires BrokenChainAt(v, toks, pos, x, c, ends) && m <= Prec(c[|c| - 1])
    ensures FirstBelow(c, |c| - 1, m) == |c|
    ensures ParseBinOpRHS(v, toks, m, lhs, ends[|c| - 1]) == None
  {
    BrokenOperandAt(v, toks, pos, x, c, ends, |c| - 1);
    FirstBelowUnique(c, |c| - 1, m, |c|);
  }

  /** The turn where the operator after the right operand binds no more
      tightly: the operands are combined and the loop goes on. */
  lemma {:induction false} BrokenFold(v: Variant, toks: seq<Lexeme>, pos: nat, x: seq<Expr>, c: seq<char>, ends: seq<nat>, i: nat, m: nat, lhs: Expr)
    requires BrokenChainAt(v, toks, pos, x, c, ends) && i + 1 < |c| && m <= Prec(c[i]) && Prec(c[i + 1]) <= Prec(c[i])
    ensures var j := FirstBelow(c, i, m);
      && (j < |c| ==> ParseBinOpRHS(v, toks, m, lhs, ends[i]).Some? && ParseBinOpRHS(v, toks, m, lhs, ends[i]).value.next == ends[j])
      && (j == |c| ==> ParseBinOpRHS(v, toks, m, lhs, ends[i]) == None)
    decreases |c| - i, 0
  {
    BrokenOperandAt(v, toks, pos, x, c, ends, i);
    FoldStep(v, toks, m, lhs, ends[i], x[i + 1], ends[i + 1]);
    FirstBelowUnique(c, i + 1, m, FirstBelow(c, i, m));
    BrokenClimb(v, toks, pos, x, c, ends, i + 1, m, BinaryExpr(c[i], lhs, x[i + 1]));
  }

  /** The turn where the right operand first absorbs the operators that bind
      more tightly: when that nested loop reaches the break, the whole loop
      fails; otherwise the outer loop goes on from where it stopped. */
  lemma {:induction false} BrokenBranch(v: Variant, toks: seq<Lexeme>, pos: nat, x: seq<Expr>, c: seq<char>, ends: seq<nat>, i: nat, m: nat, lhs: Expr)
    requires BrokenChainAt(v, toks, pos, x, c, ends) && i + 1 < |c| && m <= Prec(c[i]) < Prec(c[i + 1])
    ensures var j := FirstBelow(c, i, m);
      && (j < |c| ==> ParseBinOpRHS(v, toks, m, lhs, ends[i]).Some? && ParseBinOpRHS(v, toks, m, lhs, ends[i]).value.next == ends[j])
      && (j == |c| ==> ParseBinOpRHS(v, toks, m, lhs, ends[i]) == None)
    decreases |c| - i, 1
  {
    BrokenOperandAt(v, toks, pos, x, c, ends, i);
    var p := Prec(c[i]);
    var k := Nested(c, i, m);
    BrokenClimb(v, toks, pos, x, c, ends, i + 1, p + 1, x[i + 1]);
    if k == |c| {
      ClimbFailStep(v, toks, m, lhs, ends[i], x[i + 1], ends[i + 1]);
    } else {
      var Parsed(inner, q) := ParseBinOpRHS(v, toks, p + 1, x[i + 1], ends[i + 1]).value;
      BrokenResume(v, toks, pos, x, c, ends, i, m, lhs, inner, k);
    }
  }

  /** The nested loop of BrokenBranch stopped at operator `c[k]` with tree
      `inner`: the outer loop goes on from there. */
  lemma {:induction false} BrokenResume(v: Variant, toks: seq<Lexeme>, pos: nat, x: seq<Expr>, c: seq<char>, ends: seq<nat>, i: nat, m: nat, lhs: Expr, inner: Expr, k: nat)
    requires BrokenChainAt(v, toks, pos, x, c, ends) && i + 1 < |c| && m <= Prec(c[i]) < Prec(c[i + 1])
    requires i < k < |c| && FirstBelow(c, k, m) == FirstBelow(c, i, m)
    requires ParseBinOpRHS(v, toks, Prec(c[i]) + 1, x[i + 1], ends[i + 1]) == Some(Parsed(inner, ends[k]))
    ensures var j := FirstBelow(c, i, m);
      && (j < |c| ==> ParseBinOpRHS(v, toks, m, lhs, ends[i]).Some? && ParseBinOpRHS(v, toks, m, lhs, ends[i]).value.next == ends[j])
      && (j == |c| ==> ParseBinOpRHS(v, toks, m, lhs, ends[i]) == None)
    decreases |c| - i, 0
  {
    BrokenOperandAt(v, toks, pos, x, c, ends, i);
    ClimbStep(v, toks, m, lhs, ends[i], x[i + 1], ends[i + 1], inner, ends[k]);
    BrokenClimb(v, toks, pos, x, c, ends, k, m, BinaryExpr(c[i], lhs, inner));
  }

  /** The failure partner of ChainExpression: a chain whose operand after
      some operator cannot be read is no expression at all. ParseExpression
      returns no tree for the operands before the break, under either
      variant of the primary switch. */
  lemma {:induction false} BrokenExpression(v: Variant, toks: seq<Lexeme>, pos: nat, x: seq<Expr>, c: seq<char>, ends: seq<nat>)
    requires pos <= |toks| && BrokenChainAt(v, toks, pos, x, c, ends)
    ensures ParseExpression(v, toks, pos) == None
  {
    assert ParsePrimary(v, toks, pos) == Some(Parsed(x[0], ends[0])) by {
      assert OperandStart(pos, ends, 0) == pos;
    }
    PrecPositive(c);
    FirstBelowUnique(c, 0, 0, |c|);
    BrokenClimb(v, toks, pos, x, c, ends, 0, 0, x[0]);
  }

  /** A flat chain of numbers as the lexer returns it: `ns[0] c[0] ns[1] ...
      c[n - 1] ns[n]`, numbers at the even places and operators at the odd
      ones. */
  function FlatLexemes(ns: seq<string>, c: seq<char>): (w: seq<Lexeme>)
    requires |ns| == |c| + 1
    ensures |w| == 2 * |c| + 1
  {
    seq(2 * |c| + 1, k requires 0 <= k < 2 * |c| + 1 =>
      if k % 2 == 0 then NumberLexeme(ns[k / 2]) else Punct(c[k / 2]))
  }

  /** The operands of a flat chain. */
  function Numbers(ns: seq<string>): (x: seq<Expr>)
    ensures |x| == |ns|
    ensures forall i :: 0 <= i < |ns| ==> x[i] == NumberExpr(ns[i])
  {
    seq(|ns|, i requires 0 <= i < |ns| => NumberExpr(ns[i]))
  }

  /** A flat chain of numbers lies in the lexemes as a chain: operand `i`
      is the number at `pos + 2 * i`, and operator `c[i]` follows it. */
  lemma {:induction false} FlatChainAt(v: Variant, ns: seq<string>, c: seq<char>, toks: seq<Lexeme>, pos: nat) returns (ends: seq<nat>)
    requires |ns| == |c| + 1 && Ops(c)
    requires Matches(toks, pos, FlatLexemes(ns, c))
    requires GetTokPrecedence(Cur(toks, pos + 2 * |c| + 1).tok) < 0
    ensures |ends| == |ns| && ends[|c|] == pos + 2 * |c| + 1
    ensures ChainAt(v, toks, pos, Numbers(ns), c, ends)
  {
    ends := seq(|ns|, i requires 0 <= i < |ns| => pos + 2 * i + 1);
    FlatOperands(v, ns, c, toks, pos, ends);
    FlatOperators(ns, c, toks, pos, ends);
  }

  /** Each operand of a flat chain is read from its place. */
  lemma {:induction false} FlatOperands(v: Variant, ns: seq<string>, c: seq<char>, toks: seq<Lexeme>, pos: nat, ends: seq<nat>)
    requires |ns| == |c| + 1 && |ends| == |ns|
    requires forall i :: 0 <= i < |ends| ==> ends[i] == pos + 2 * i + 1
    requires Matches(toks, pos, FlatLexemes(ns, c))
    ensures forall i {:trigger OperandStart(pos, ends, i)} :: 0 <= i < |ns| ==>
              OperandStart(pos, ends, i) <= |toks| &&
              ParsePrimary(v, toks, OperandStart(pos, ends, i)) == Some(Parsed(Numbers(ns)[i], ends[i]))
  {
    forall i {:trigger OperandStart(pos, ends, i)} | 0 <= i < |ns|
      ensures OperandStart(pos, ends, i) <= |toks|
      ensures ParsePrimary(v, toks, OperandStart(pos, ends, i)) == Some(Parsed(Numbers(ns)[i], ends[i]))
    {
      FlatPlace(v, ns, c, toks, pos, i);
    }
  }

  /** Each operator of a flat chain follows its left operand. */
  lemma {:induction false} FlatOperators(ns: seq<string>, c: seq<char>, toks: seq<Lexeme>, pos: nat, ends: seq<nat>)
    requires |ns| == |c| + 1 && |ends| == |ns|
    requires forall i :: 0 <= i < |ends| ==> ends[i] == pos + 2 * i + 1
    requires Matches(toks, pos, FlatLexemes(ns, c))
    ensures forall i :: 0 <= i < |c| ==> ends[i] < |toks| && toks[ends[i]].tok.value == c[i] as int
  {
    forall i | 0 <= i < |c|
      ensures ends[i] < |toks| && toks[ends[i]].tok.value == c[i] as int
    {
      FlatOperator(ns, c, toks, pos, i);
    }
  }

  /** The number at place `2 * i` of a flat chain. */
  lemma {:induction false} FlatPlace(v: Variant, ns: seq<string>, c: seq<char>, toks: seq<Lexeme>, pos: nat, i: nat)
    requires |ns| == |c| + 1 && i < |ns|
    requires Matches(toks, pos, FlatLexemes(ns, c))
    ensures ParsePrimary(v, toks, pos + 2 * i) == Some(Parsed(NumberExpr(ns[i]), pos + 2 * i + 1))
  {
    var w := FlatLexemes(ns, c);
    MatchesAt(toks, pos, w, 2 * i);
    assert w[2 * i] == NumberLexeme(ns[i]);
  }

  /** The operator at place `2 * i + 1` of a flat chain. */
  lemma {:induction false} FlatOperator(ns: seq<string>, c: seq<char>, toks: seq<Lexeme>, pos: nat, i: nat)
    requires |ns| == |c| + 1 && i < |c|
    requires Matches(toks, pos, FlatLexemes(ns, c))
    ensures pos + 2 * i + 1 < |toks| && toks[pos + 2 * i + 1].tok.value == c[i] as int
  {
    var w := FlatLexemes(ns, c);
    MatchesAt(toks, pos, w, 2 * i + 1);
    assert w[2 * i + 1] == Punct(c[i]);
  }

  /** A flat chain of numbers joined by operators of the table parses, under
      either variant of the primary switch, as the tree whose root is the
      rightmost operator of lowest precedence, each side a tree of its own. */
  lemma {:induction false} FlatChain(v: Variant, ns: seq<string>, c: seq<char>, toks: seq<Lexeme>, pos: nat)
    requires |ns| == |c| + 1 && Ops(c)
    requires Matches(toks, pos, FlatLexemes(ns, c))
    requires GetTokPrecedence(Cur(toks, pos + 2 * |c| + 1).tok) < 0
    ensures ParseExpression(v, toks, pos) == Some(Parsed(Tree(Numbers(ns), c), pos + 2 * |c| + 1))
  {
    var ends := FlatChainAt(v, ns, c, toks, pos);
    ChainExpression(v, toks, pos, Numbers(ns), c, ends);
  }

  /** A flat chain of numbers followed by one more operator `op` of the
      table, after which no primary can be read (`1 + 2 *` at the end of
      the input, `1 + 2 * -`, `1 + 2 * (3`), is an error under either
      variant: no tree is returned for `1 + 2`. */
  lemma {:induction false} FlatBroken(v: Variant, ns: seq<string>, c: seq<char>, op: char, toks: seq<Lexeme>, pos: nat)
    requires |ns| == |c| + 1 && Ops(c) && op in BinopPrecedence
    requires Matches(toks, pos, FlatLexemes(ns, c) + [Punct(op)])
    requires ParsePrimary(v, toks, pos + 2 * |c| + 2) == None
    ensures ParseExpression(v, toks, pos) == None
  {
    var c' := c + [op];
    var ends := seq(|ns|, i requires 0 <= i < |ns| => pos + 2 * i + 1);
    MatchesSplit(toks, pos, FlatLexemes(ns, c), [Punct(op)]);
    MatchesAt(toks, pos + 2 * |c| + 1, [Punct(op)], 0);
    FlatOperands(v, ns, c, toks, pos, ends);
    FlatOperators(ns, c, toks, pos, ends);
    forall i | 0 <= i < |c'|
      ensures ends[i] < |toks| && toks[ends[i]].tok.value == c'[i] as int
    {
      if i < |c| {
        assert c'[i] == c[i];
      }
    }
    assert Ops(c') by {
      forall t | 0 <= t < |c'|
        ensures c'[t] in BinopPrecedence
      {
        if t < |c| {
          assert c'[t] == c[t];
        }
      }
    }
    BrokenExpression(v, toks, pos, Numbers(ns), c', ends);
  }

  /** In particular an expression that ends with an operator, such as
      `1 + 2 *` at the end of the input, is an error. */
  lemma {:induction false} TrailingOperator(v: Variant, ns: seq<string>, c: seq<char>, op: char, toks: seq<Lexeme>, pos: nat)
    requires |ns| == |c| + 1 && Ops(c) && op in BinopPrecedence
    requires Matches(toks, pos, FlatLexemes(ns, c) + [Punct(op)]) && pos + 2 * |c| + 2 == |toks|
    ensures ParseExpression(v, toks, pos) == None
  {
    assert Dispatch(v, Cur(toks, pos + 2 * |c| + 2).tok) == NoPrimary;
    FlatBroken(v, ns, c, op, toks, pos);
  }

  /** An instance: `1 < 2 + 3 * 4 - 5` reads as `1 < ((2 + (3 * 4)) - 5)`.
      The comparison binds most loosely, `*` most tightly, and `+` and `-`,
      of equal precedence, group to the left. */
  lemma {:induction false} MixedChain(v: Variant, toks: seq<Lexeme>, pos: nat)
    requires Matches(toks, pos, FlatLexemes(["1", "2", "3", "4", "5"], "<+*-"))
    requires GetTokPrecedence(Cur(toks, pos + 9).tok) < 0
    ensures ParseExpression(v, toks, pos) == Some(Parsed(
      BinaryExpr('<', NumberExpr("1"),
        BinaryExpr('-',
          BinaryExpr('+', NumberExpr("2"), BinaryExpr('*', NumberExpr("3"), NumberExpr("4"))),
          NumberExpr("5"))),
      pos + 9))
  {
    assert Ops("<+*-");
    FlatChain(v, ["1", "2", "3", "4", "5"], "<+*-", toks, pos);
    MixedTree();
  }

  /** The tree of that chain, split at each root in turn. */
  lemma {:induction false} MixedTree()
    ensures Ops("<+*-")
    ensures Tree(Numbers(["1", "2", "3", "4", "5"]), "<+*-") ==
      BinaryExpr('<', NumberExpr("1"),
        BinaryExpr('-',
          BinaryExpr('+', NumberExpr("2"), BinaryExpr('*', NumberExpr("3"), NumberExpr("4"))),
          NumberExpr("5")))
  {
    var x, c := Numbers(["1", "2", "3", "4", "5"]), "<+*-";
    assert Ops(c);
    assert Prec(c[0]) == 10 && Prec(c[1]) == 20 && Prec(c[2]) == 40 && Prec(c[3]) == 20;
    TreeSplit(x[0], x, c, 0, 4, 0);
    MixedRight();
  }

  /** The right operand of the comparison: `2 + 3 * 4 - 5`. */
  lemma {:induction false} MixedRight()
    ensures Ops("<+*-")
    ensures TreeOf(NumberExpr("2"), Numbers(["1", "2", "3", "4", "5"]), "<+*-", 1, 4) ==
      BinaryExpr('-',
        BinaryExpr('+', NumberExpr("2"), BinaryExpr('*', NumberExpr("3"), NumberExpr("4"))),
        NumberExpr("5"))
  {
    var x, c := Numbers(["1", "2", "3", "4", "5"]), "<+*-";
    assert Ops(c);
    assert Prec(c[1]) == 20 && Prec(c[2]) == 40 && Prec(c[3]) == 20;
    TreeSplit(x[1], x, c, 1, 4, 3);
    TreeSplit(x[1], x, c, 1, 3, 1);
    TreeSplit(x[2], x, c, 2, 3, 2);
  }
}

=== FILE: front_end.dfy ===
/** The lexer and the parser together: the parser's input is what
    `Tokenize` returns. This is where the way `(` reaches ParsePrimary is
    settled, and where printed programs are read back from their text. */
module FrontEnd {
  import opened Wrappers
  import opened Tokens
  import opened Ast
  import opened Lexer
  import opened LexerLemmas
  import opened Parser
  import opened ParserLemmas
  import opened Variants

  /** A name the lexer returns as an identifier: a letter, then letters and
      digits, and not one of the keywords. */
  predicate IsName(s: string) {
    IsIdentText(s) && KeywordKind(s) == TokIdentifier
  }

  /** An expression whose printed form the lexer reads back unchanged. */
  predicate Printable(e: Expr) {
    match e
    case NumberExpr(literal) => IsNumberText(literal)
    case VariableExpr(name) => IsName(name)
    case BinaryExpr(op, lhs, rhs) => op in BinopPrecedence && Printable(lhs) && Printable(rhs)
    case CallExpr(callee, args) => IsName(callee) && forall a :: a in args ==> Printable(a)
  }

  predicate PrintablePrototype(p: Prototype) {
    IsName(p.name) && forall i :: 0 <= i < |p.args| ==> IsName(p.args[i])
  }

  predicate AllWellFormed(ls: seq<Lexeme>) {
    forall i :: 0 <= i < |ls| ==> WellFormed(ls[i])
  }

  lemma {:induction false} AllWellFormedConcat(a: seq<Lexeme>, b: seq<Lexeme>)
    requires AllWellFormed(a) && AllWellFormed(b)
    ensures AllWellFormed(a + b)
  {
    forall i | 0 <= i < |a + b|
      ensures WellFormed((a + b)[i])
    {
      if i >= |a| {
        assert (a + b)[i] == b[i - |a|];
      }
    }
  }

  /** The punctuation the printer uses is made of operator characters. */
  lemma {:induction false} PunctWellFormed(c: char)
    requires c in BinopPrecedence || c == '(' || c == ')' || c == ','
    ensures WellFormed(Punct(c))
  {
  }

  /** The printed form of a printable expression is made of lexemes the
      lexer can return, and its operators are those of the table. */
  lemma {:induction false} PrintableUnparse(e: Expr)
    requires Printable(e)
    ensures ValidOps(e) && AllWellFormed(Unparse(e))
    decreases e, 1
  {
    match e
    case NumberExpr(literal) =>
    case VariableExpr(name) =>
    case BinaryExpr(op, l, r) =>
      PrintableUnparse(l);
      PrintableUnparse(r);
      PunctWellFormed('(');
      PunctWellFormed(op);
      PunctWellFormed(')');
      AllWellFormedConcat([Punct('(')], Unparse(l));
      AllWellFormedConcat([Punct('(')] + Unparse(l), [Punct(op)]);
      AllWellFormedConcat([Punct('(')] + Unparse(l) + [Punct(op)], Unparse(r));
      AllWellFormedConcat([Punct('(')] + Unparse(l) + [Punct(op)] + Unparse(r), [Punct(')')]);
    case CallExpr(callee, args) =>
      PrintableUnparseArgs(args);
      PunctWellFormed('(');
      PunctWellFormed(')');
      AllWellFormedConcat([NameLexeme(callee), Punct('(')], UnparseArgs(args));
      AllWellFormedConcat([NameLexeme(callee), Punct('(')] + UnparseArgs(args), [Punct(')')]);
  }

  lemma {:induction false} PrintableUnparseArgs(args: seq<Expr>)
    requires forall a :: a in args ==> Printable(a)
    ensures (forall a :: a in args ==> ValidOps(a)) && AllWellFormed(UnparseArgs(args))
    decreases args, 0
  {
    if |args| == 1 {
      PrintableUnparse(args[0]);
    } else if |args| > 1 {
      PrintableUnparse(args[0]);
      assert forall a :: a in args[1..] ==> a in args;
      PrintableUnparseArgs(args[1..]);
      PunctWellFormed(',');
      AllWellFormedConcat(Unparse(args[0]), [Punct(',')]);
      AllWellFormedConcat(Unparse(args[0]) + [Punct(',')], UnparseArgs(args[1..]));
      forall a | a in args
        ensures ValidOps(a)
      {
        if a != args[0] {
          assert a in args[1..];
        }
      }
    }
  }

  lemma {:induction false} PrintablePrototypeLexemes(p: Prototype)
    requires PrintablePrototype(p)
    ensures AllWellFormed(UnparsePrototype(p))
  {
    PunctWellFormed('(');
    PunctWellFormed(')');
    AllWellFormedConcat([NameLexeme(p.name), Punct('(')], NameLexemes(p.args));
    AllWellFormedConcat([NameLexeme(p.name), Punct('(')] + NameLexemes(p.args), [Punct(')')]);
  }

  /** The end of the lexemes closes any expression. */
  lemma {:induction false} EndCloses(ls: seq<Lexeme>)
    ensures Closes(Cur(ls, |ls|))
  {
  }

  /** The lexer reads back the text of well-formed lexemes. */
  lemma {:induction false} Relex(ls: seq<Lexeme>)
    requires AllWellFormed(ls)
    ensures Tokenize(Unlex(ls)) == ls
  {
    TokenizeUnlex(ls);
  }

  /** Lexing the text of a printed expression and parsing the lexemes as a
      top-level expression gives back the expression, wrapped in the
      anonymous prototype: parentheses, calls and operators survive both
      halves of the front end. */
  lemma {:induction false} TopLevelFrontEnd(e: Expr)
    requires Printable(e)
    ensures ParseTopLevelExpr(Corrected, Tokenize(Unlex(Unparse(e))), 0) == Some(Parsed(Function(Anonymous, e), |Unparse(e)|))
  {
    PrintableUnparse(e);
    Relex(Unparse(e));
    ParseOwnLexemes(e);
  }

  lemma {:induction false} ParseOwnLexemes(e: Expr)
    requires ValidOps(e)
    ensures ParseTopLevelExpr(Corrected, Unparse(e), 0) == Some(Parsed(Function(Anonymous, e), |Unparse(e)|))
  {
    MatchesWhole(Unparse(e));
    EndCloses(Unparse(e));
    TopLevelRoundTrip(e, Unparse(e), 0);
  }

  /** The same for a definition `def name(params) body`. */
  lemma {:induction false} DefinitionFrontEnd(f: Function)
    requires PrintablePrototype(f.proto) && Printable(f.body)
    ensures ParseDefinition(Corrected, Tokenize(Unlex(UnparseDefinition(f))), 0) == Some(Parsed(f, |UnparseDefinition(f)|))
  {
    PrintableDefinition(f);
    Relex(UnparseDefinition(f));
    ParseOwnDefinition(f);
  }

  lemma {:induction false} ParseOwnDefinition(f: Function)
    requires ValidOps(f.body)
    ensures ParseDefinition(Corrected, UnparseDefinition(f), 0) == Some(Parsed(f, |UnparseDefinition(f)|))
  {
    MatchesWhole(UnparseDefinition(f));
    EndCloses(UnparseDefinition(f));
    DefinitionRoundTrip(f, UnparseDefinition(f), 0);
  }

  lemma {:induction false} PrintableDefinition(f: Function)
    requires PrintablePrototype(f.proto) && Printable(f.body)
    ensures ValidOps(f.body) && AllWellFormed(UnparseDefinition(f))
  {
    PrintableUnparse(f.body);
    PrintablePrototypeLexemes(f.proto);
    AllWellFormedConcat([KeywordLexeme(TokDef, "def")], UnparsePrototype(f.proto));
    AllWellFormedConcat([KeywordLexeme(TokDef, "def")] + UnparsePrototype(f.proto), Unparse(f.body));
  }

  /** The same for a declaration `extern name(params)`. */
  lemma {:induction false} ExternFrontEnd(p: Prototype)
    requires PrintablePrototype(p)
    ensures ParseExtern(Tokenize(Unlex(UnparseExtern(p))), 0) == Some(Parsed(p, |UnparseExtern(p)|))
  {
    PrintableExtern(p);
    Relex(UnparseExtern(p));
    ParseOwnExtern(p);
  }

  lemma {:induction false} PrintableExtern(p: Prototype)
    requires PrintablePrototype(p)
    ensures AllWellFormed(UnparseExtern(p))
  {
    PrintablePrototypeLexemes(p);
    AllWellFormedConcat([KeywordLexeme(TokExtern, "extern")], UnparsePrototype(p));
  }

  lemma {:induction false} ParseOwnExtern(p: Prototype)
    ensures ParseExtern(UnparseExtern(p), 0) == Some(Parsed(p, |UnparseExtern(p)|))
  {
    MatchesWhole(UnparseExtern(p));
    ExternRoundTrip(p, UnparseExtern(p), 0);
  }

  // How `(` reaches the parser.

  /** The lexer never returns a token of kind TokLp: `(` comes back as an
      operator token whose payload is `(`. */
  lemma {:induction false} LexedTokensAreNeverLp(s: string)
    ensures forall l :: l in Tokenize(s) ==> l.tok.kind != TokLp
    ensures forall l :: l in Tokenize(s) && l.tok.value == '(' as int ==> l == Punct('(')
  {
    WellFormedNeverLp(Tokenize(s));
  }

  lemma {:induction false} WellFormedNeverLp(ls: seq<Lexeme>)
    requires forall l :: l in ls ==> WellFormed(l)
    ensures forall l :: l in ls ==> l.tok.kind != TokLp
    ensures forall l :: l in ls && l.tok.value == '(' as int ==> l == Punct('(')
  {
    forall l | l in ls && l.tok.value == '(' as int
      ensures l == Punct('(')
    {
      assert WellFormed(l);
      assert l.tok.kind == TokOp;
      assert l.text == [l.text[0]];
    }
  }

  /** So, as written, ParsePrimary never reaches the parenthesised
      production on lexed input: at every `(` it reports an error. */
  lemma {:induction false} ParenUnreachableAsWritten(s: string, pos: nat)
    requires pos <= |Tokenize(s)|
    ensures Dispatch(AsWritten, Cur(Tokenize(s), pos).tok) != ParenForm
    ensures Is(Tokenize(s), pos, '(') ==> ParsePrimary(AsWritten, Tokenize(s), pos) == None
  {
    LexedTokensAreNeverLp(s);
    ParenUnreachableIn(Tokenize(s), pos);
  }

  lemma {:induction false} ParenUnreachableIn(ls: seq<Lexeme>, pos: nat)
    requires pos <= |ls|
    requires forall l :: l in ls ==> l.tok.kind != TokLp
    requires forall l :: l in ls && l.tok.value == '(' as int ==> l == Punct('(')
    ensures Dispatch(AsWritten, Cur(ls, pos).tok) != ParenForm
    ensures Is(ls, pos, '(') ==> ParsePrimary(AsWritten, ls, pos) == None
  {
    if pos < |ls| {
      assert ls[pos] in ls;
    }
  }

  /** `(name)` as lexed: three lexemes with nothing between them. */
  lemma {:induction false} LexParenName(name: string)
    requires IsName(name)
    ensures Tokenize("(" + name + ")") == [Punct('('), NameLexeme(name), Punct(')')]
  {
    var ls := [Punct('('), NameLexeme(name), Punct(')')];
    var gaps := ["", "", ""];
    PunctWellFormed('(');
    PunctWellFormed(')');
    assert Separated(gaps, ls) by {
      assert Maximal(ls[1], ls[2].text);
    }
    ThreeLexemes(gaps, ls);
    TokenizeText("(" + name + ")", gaps, ls, "");
  }

  /** The text laid out for three lexemes. */
  lemma {:induction false} ThreeLexemes(gaps: seq<string>, ls: seq<Lexeme>)
    requires |gaps| == |ls| == 3
    ensures Layout(gaps, ls) == gaps[0] + ls[0].text + gaps[1] + ls[1].text + gaps[2] + ls[2].text
  {
    assert Layout(gaps[2..], ls[2..]) == gaps[2] + ls[2].text + Layout(gaps[3..], ls[3..]);
  }

  /** A parenthesised expression `( e )` standing in the lexemes: the parser
      as written rejects it at its `(`, while the parser with the corrected
      dispatch reads `e` and steps over the `)`. */
  lemma {:induction false} ParenthesisedExpression(e: Expr, toks: seq<Lexeme>, pos: nat)
    requires ValidOps(e) && Matches(toks, pos, [Punct('(')] + Unparse(e) + [Punct(')')])
    requires Closes(Cur(toks, pos + |Unparse(e)| + 2))
    ensures ParseExpression(AsWritten, toks, pos) == None
    ensures ParseExpression(Corrected, toks, pos) == Some(Parsed(e, pos + |Unparse(e)| + 2))
  {
    var q := pos + |Unparse(e)| + 1;
    ParenInner(e, toks, pos);
    ParenStep(toks, pos, e, q);
    PrimaryThenClose(toks, pos, e, q + 1);
  }

  /** Inside `( e )`: the expression, then the `)`. */
  lemma {:induction false} ParenInner(e: Expr, toks: seq<Lexeme>, pos: nat)
    requires ValidOps(e) && Matches(toks, pos, [Punct('(')] + Unparse(e) + [Punct(')')])
    ensures pos + |Unparse(e)| + 2 <= |toks| && toks[pos] == Punct('(')
    ensures ParseExpression(Corrected, toks, pos + 1) == Some(Parsed(e, pos + |Unparse(e)| + 1))
    ensures Is(toks, pos + |Unparse(e)| + 1, ')')
  {
    ParenLayout(e, toks, pos);
    ParenCloses(toks, pos + |Unparse(e)| + 1);
    ExpressionRoundTrip(e, toks, pos + 1);
  }

  /** A `)` ends an expression. */
  lemma {:induction false} ParenCloses(toks: seq<Lexeme>, p: nat)
    requires p < |toks| && toks[p] == Punct(')')
    ensures Closes(Cur(toks, p)) && Is(toks, p, ')')
  {
  }

  /** Where the pieces of `( e )` lie. */
  lemma {:induction false} ParenLayout(e: Expr, toks: seq<Lexeme>, pos: nat)
    requires Matches(toks, pos, [Punct('(')] + Unparse(e) + [Punct(')')])
    ensures pos + |Unparse(e)| + 2 <= |toks|
    ensures toks[pos] == Punct('(') && toks[pos + |Unparse(e)| + 1] == Punct(')')
    ensures Matches(toks, pos + 1, Unparse(e))
  {
    MatchesSplit(toks, pos, [Punct('(')] + Unparse(e), [Punct(')')]);
    MatchesSplit(toks, pos, [Punct('(')], Unparse(e));
    MatchesAt(toks, pos, [Punct('(')], 0);
    MatchesAt(toks, pos + |Unparse(e)| + 1, [Punct(')')], 0);
  }

  /** The same through the lexer: the text of `( e )` for any printable
      expression `e`. */
  lemma {:induction false} ParenthesisedFrontEnd(e: Expr)
    requires Printable(e)
    ensures var toks := Tokenize(Unlex(Parenthesised(e)));
      ParseTopLevelExpr(AsWritten, toks, 0) == None &&
      ParseTopLevelExpr(Corrected, toks, 0) == Some(Parsed(Function(Anonymous, e), |Unparse(e)| + 2))
  {
    PrintableParenthesised(e);
    Relex(Parenthesised(e));
    ParenthesisedAlone(e);
  }

  function Parenthesised(e: Expr): seq<Lexeme> {
    [Punct('(')] + Unparse(e) + [Punct(')')]
  }

  lemma {:induction false} PrintableParenthesised(e: Expr)
    requires Printable(e)
    ensures ValidOps(e) && AllWellFormed(Parenthesised(e))
  {
    PrintableUnparse(e);
    PunctWellFormed('(');
    PunctWellFormed(')');
    AllWellFormedConcat([Punct('(')], Unparse(e));
    AllWellFormedConcat([Punct('(')] + Unparse(e), [Punct(')')]);
  }

  lemma {:induction false} ParenthesisedAlone(e: Expr)
    requires ValidOps(e)
    ensures ParseTopLevelExpr(AsWritten, Parenthesised(e), 0) == None
    ensures ParseTopLevelExpr(Corrected, Parenthesised(e), 0) == Some(Parsed(Function(Anonymous, e), |Unparse(e)| + 2))
  {
    MatchesWhole(Parenthesised(e));
    EndCloses(Parenthesised(e));
    ParenthesisedExpression(e, Parenthesised(e), 0);
  }

  /** The input `(x)` for any name `x`, with no blanks: the parser as
      written rejects it, the parser with the corrected dispatch reads the
      variable `x`. */
  lemma {:induction false} ParenNameExample(name: string)
    requires IsName(name)
    ensures ParseTopLevelExpr(AsWritten, Tokenize("(" + name + ")"), 0) == None
    ensures ParseTopLevelExpr(Corrected, Tokenize("(" + name + ")"), 0) == Some(Parsed(Function(Anonymous, VariableExpr(name)), 3))
  {
    LexParenName(name);
    ParenNameParse(name);
  }

  lemma {:induction false} ParenNameParse(name: string)
    ensures var toks := [Punct('('), NameLexeme(name), Punct(')')];
      ParseTopLevelExpr(AsWritten, toks, 0) == None &&
      ParseTopLevelExpr(Corrected, toks, 0) == Some(Parsed(Function(Anonymous, VariableExpr(name)), 3))
  {
    var toks := [Punct('('), NameLexeme(name), Punct(')')];
    assert toks == [Punct('(')] + Unparse(VariableExpr(name)) + [Punct(')')];
    MatchesWhole(toks);
    EndCloses(toks);
    ParenthesisedExpression(VariableExpr(name), toks, 0);
  }

  /** The parentheses of a call's arguments do not hide a `(` in primary
      position: for `f((e))` the parser as written fails at the inner `(`,
      which starts the first argument, while the corrected parser reads a
      call of `f` with argument `e`. */
  lemma {:induction false} ParenthesisedArgument(f: string, e: Expr, toks: seq<Lexeme>, pos: nat)
    requires ValidOps(e) && Matches(toks, pos, CallOfParenthesised(f, e))
    requires Closes(Cur(toks, pos + |CallOfParenthesised(f, e)|))
    ensures ParseExpression(AsWritten, toks, pos) == None
    ensures ParseExpression(Corrected, toks, pos) ==
              Some(Parsed(CallExpr(f, [e]), pos + |CallOfParenthesised(f, e)|))
  {
    var n := |Unparse(e)| + 2;
    var q := pos + 2 + n;
    ArgumentLayout(f, e, toks, pos);
    ParenthesisedExpression(e, toks, pos + 2);
    assert ParsePrimary(AsWritten, toks, pos + 2) == None;
    assert ParseArgs(AsWritten, toks, pos + 2) == None;
    assert ParsePrimary(AsWritten, toks, pos) == None;
    assert ParseArgs(Corrected, toks, pos + 2) == Some(Parsed([e], q));
    CallStep(toks, pos, f, [e], q);
    PrimaryThenClose(toks, pos, CallExpr(f, [e]), q + 1);
  }

  /** The lexemes of `f((e))`. */
  function CallOfParenthesised(f: string, e: Expr): seq<Lexeme> {
    [NameLexeme(f), Punct('(')] + Parenthesised(e) + [Punct(')')]
  }

  /** Where the pieces of `f((e))` lie. */
  lemma {:induction false} ArgumentLayout(f: string, e: Expr, toks: seq<Lexeme>, pos: nat)
    requires Matches(toks, pos, CallOfParenthesised(f, e))
    ensures |CallOfParenthesised(f, e)| == |Unparse(e)| + 5
    ensures toks[pos] == NameLexeme(f) && toks[pos + 1] == Punct('(') && toks[pos + 2] == Punct('(')
    ensures Matches(toks, pos + 2, Parenthesised(e))
    ensures toks[pos + |Unparse(e)| + 4] == Punct(')')
  {
    var w := CallOfParenthesised(f, e);
    var head := [NameLexeme(f), Punct('(')];
    MatchesSplit(toks, pos, head + Parenthesised(e), [Punct(')')]);
    MatchesSplit(toks, pos, head, Parenthesised(e));
    MatchesAt(toks, pos, head, 0);
    MatchesAt(toks, pos, head, 1);
    MatchesAt(toks, pos + |head + Parenthesised(e)|, [Punct(')')], 0);
    MatchesAt(toks, pos + 2, Parenthesised(e), 0);
  }

  /** The same through the lexer, for a name `f` and a printable `e`: the
      parser as written rejects the text of `f((e))`. */
  lemma {:induction false} ParenthesisedArgumentFrontEnd(f: string, e: Expr)
    requires IsName(f) && Printable(e)
    ensures var toks := Tokenize(Unlex(CallOfParenthesised(f, e)));
      ParseTopLevelExpr(AsWritten, toks, 0) == None &&
      ParseTopLevelExpr(Corrected, toks, 0) ==
        Some(Parsed(Function(Anonymous, CallExpr(f, [e])), |Unparse(e)| + 5))
  {
    PrintableCallOfParenthesised(f, e);
    Relex(CallOfParenthesised(f, e));
    ParenthesisedArgumentAlone(f, e);
  }

  lemma {:induction false} PrintableCallOfParenthesised(f: string, e: Expr)
    requires IsName(f) && Printable(e)
    ensures ValidOps(e) && AllWellFormed(CallOfParenthesised(f, e))
  {
    PrintableParenthesised(e);
    assert WellFormed(NameLexeme(f));
    PunctWellFormed('(');
    PunctWellFormed(')');
    AllWellFormedConcat([NameLexeme(f), Punct('(')], Parenthesised(e));
    AllWellFormedConcat([NameLexeme(f), Punct('(')] + Parenthesised(e), [Punct(')')]);
  }

  lemma {:induction false} ParenthesisedArgumentAlone(f: string, e: Expr)
    requires ValidOps(e)
    ensures var toks := CallOfParenthesised(f, e);
      ParseTopLevelExpr(AsWritten, toks, 0) == None &&
      ParseTopLevelExpr(Corrected, toks, 0) ==
        Some(Parsed(Function(Anonymous, CallExpr(f, [e])), |Unparse(e)| + 5))
  {
    var w := CallOfParenthesised(f, e);
    MatchesWhole(w);
    EndCloses(w);
    ParenthesisedArgument(f, e, w, 0);
  }

  /** On lexed input whose every `(` directly follows a name, that is, whose
      only parentheses open the arguments of calls, the parser as written and
      the corrected parser read the same top-level expressions and the same
      definitions. */
  lemma {:induction false} CallParensAgree(s: string)
    requires forall i :: 0 <= i < |Tokenize(s)| && Is(Tokenize(s), i, '(') ==>
               0 < i && Tokenize(s)[i - 1].tok.kind == TokIdentifier
    ensures ParseTopLevelExpr(AsWritten, Tokenize(s), 0) == ParseTopLevelExpr(Corrected, Tokenize(s), 0)
    ensures ParseDefinition(AsWritten, Tokenize(s), 0) == ParseDefinition(Corrected, Tokenize(s), 0)
  {
    var ls := Tokenize(s);
    forall i | 0 <= i < |ls|
      ensures CallParenAt(ls, i)
    {
      if OpensParen(ls[i]) {
        assert Is(ls, i, '(');
        assert WellFormed(ls[i - 1]);
      }
    }
    if 0 < |ls| {
      assert CallParenAt(ls, 0);
    }
    TopLevelAgrees(ls, 0);
    DefinitionAgrees(ls, 0);
  }
}

=== FILE: lexer.dfy ===
/** The lexer (GetTok in toy.cpp). The static `LastChar` becomes an explicit
    state: the lookahead character, or end of input, together with the part
    of the input getchar() has not returned yet. */
module Lexer {
  import opened Tokens

  // Character classes of the C locale, for isspace, isalpha, isdigit, isalnum.

  predicate IsSpace(c: char) {
    c == ' ' || c == '\t' || c == '\n' || c == '\r' || c as int == 11 || c as int == 12
  }

  predicate IsAlpha(c: char) {
    ('a' <= c <= 'z') || ('A' <= c <= 'Z')
  }

  predicate IsDigit(c: char) {
    '0' <= c <= '9'
  }

  predicate IsAlnum(c: char) {
    IsAlpha(c) || IsDigit(c)
  }

  /** A character a numeric literal may contain. */
  predicate IsNumChar(c: char) {
    IsDigit(c) || c == '.'
  }

  /** A character that ends a comment. */
  predicate IsNewline(c: char) {
    c == '\n' || c == '\r'
  }

  /** A character the lexer returns as a one-character operator token. */
  predicate IsOpChar(c: char) {
    !IsSpace(c) && !IsAlpha(c) && !IsNumChar(c) && c != '#'
  }

  /** The text of an identifier or keyword: a letter, then letters and digits. */
  predicate IsIdentText(t: string) {
    |t| > 0 && IsAlpha(t[0]) && forall i :: 0 <= i < |t| ==> IsAlnum(t[i])
  }

  /** The text of a numeric literal: a non-empty run of digits and dots. */
  predicate IsNumberText(t: string) {
    |t| > 0 && forall i :: 0 <= i < |t| ==> IsNumChar(t[i])
  }

  /** The kind an identifier run is classified as. */
  function KeywordKind(t: string): TokenType {
    if t == "def" then TokDef
    else if t == "extern" then TokExtern
    else TokIdentifier
  }

  /** A lexeme the lexer can return before end of input: its kind agrees with
      the shape of its text, and its payload is the operator's code or -1. */
  predicate WellFormed(l: Lexeme) {
    match l.tok.kind
    case TokDef | TokExtern | TokIdentifier =>
      IsIdentText(l.text) && l.tok == MakeToken(KeywordKind(l.text))
    case TokNumber =>
      IsNumberText(l.text) && l.tok == MakeToken(TokNumber)
    case TokOp =>
      |l.text| == 1 && IsOpChar(l.text[0]) && l.tok == MakeToken(TokOp, l.text[0] as int)
    case _ => false
  }

  /** The value of `LastChar`: a character, or EOF. */
  datatype Lookahead = Char(c: char) | Eof

  /** The lexer's state between calls: the lookahead and the characters that
      getchar() will return next. Once EOF is seen nothing is left to read. */
  datatype LexState = LexState(last: Lookahead, rest: string)

  predicate Valid(st: LexState) {
    st.last.Eof? ==> st.rest == []
  }

  /** The input that is not yet part of any returned token: the lookahead
      followed by the characters not yet read. */
  function Unread(st: LexState): string {
    if st.last.Char? then [st.last.c] + st.rest else []
  }

  /** The state whose unread input is `u`. */
  function StateOf(u: string): (st: LexState)
    ensures Valid(st) && Unread(st) == u
  {
    if u == [] then LexState(Eof, []) else LexState(Char(u[0]), u[1..])
  }

  /** The state before the first call: `LastChar` starts as a blank. */
  function Start(s: string): (st: LexState)
    ensures Valid(st) && Unread(st) == " " + s
  {
    LexState(Char(' '), s)
  }

  /** A valid state is determined by its unread input. */
  lemma {:induction false} StateOfUnread(st: LexState)
    requires Valid(st)
    ensures StateOf(Unread(st)) == st
  {
  }

  /** `LastChar = getchar()`: the next character becomes the lookahead, and
      the old lookahead is no longer unread. */
  function GetChar(st: LexState): (r: LexState)
    requires Valid(st)
    ensures Valid(r)
    ensures st.last.Char? ==> Unread(r) == Unread(st)[1..]
  {
    if st.rest == [] then LexState(Eof, []) else LexState(Char(st.rest[0]), st.rest[1..])
  }

  /** `v` is what is left of `u` after some prefix is taken off. */
  predicate SuffixOf(v: string, u: string) {
    |v| <= |u| && u[|u| - |v|..] == v
  }

  /** The prefix of `u` that was taken off to leave its suffix `v`. */
  function Consumed(u: string, v: string): string
    requires |v| <= |u|
  {
    u[..|u| - |v|]
  }

  /** The characters a token call drops: whitespace and `#` comments. A
      comment runs to a newline, or to end of input when `atEnd` says that
      nothing follows the dropped text. */
  predicate Ignorable(w: string, atEnd: bool)
    decreases |w|
  {
    if w == [] then true
    else if IsSpace(w[0]) then Ignorable(w[1..], atEnd)
    else w[0] == '#' && InComment(w[1..], atEnd)
  }

  /** The rest of a comment, then whatever is dropped after it. */
  predicate InComment(w: string, atEnd: bool)
    decreases |w|
  {
    if w == [] then atEnd
    else if IsNewline(w[0]) then Ignorable(w[1..], atEnd)
    else InComment(w[1..], atEnd)
  }

  /** The whitespace skip at the top of GetTok (toy.cpp:61-62): characters are
      read while the lookahead is a blank, so the result is the first
      non-blank lookahead, or end of input. */
  function SkipSpace(st: LexState): (r: LexState)
    requires Valid(st)
    ensures Valid(r)
    ensures r.last.Char? ==> !IsSpace(r.last.c)
    ensures SuffixOf(Unread(r), Unread(st))
    ensures forall i :: 0 <= i < |Unread(st)| - |Unread(r)| ==> IsSpace(Unread(st)[i])
    ensures st.last.Char? && IsSpace(st.last.c) ==> |Unread(r)| < |Unread(st)|
    decreases |Unread(st)|
  {
    if st.last.Char? && IsSpace(st.last.c) then SkipSpace(GetChar(st)) else st
  }

  /** The comment loop (toy.cpp:103-106), entered once the `#` has been read
      past: characters are read until the lookahead is a newline, which stays
      the lookahead, or until end of input. */
  function SkipComment(st: LexState): (r: LexState)
    requires Valid(st)
    ensures Valid(r)
    ensures r.last.Char? ==> IsNewline(r.last.c)
    ensures SuffixOf(Unread(r), Unread(st))
    ensures forall i :: 0 <= i < |Unread(st)| - |Unread(r)| ==> !IsNewline(Unread(st)[i])
    decreases |Unread(st)|
  {
    if st.last.Char? && !IsNewline(st.last.c) then SkipComment(GetChar(st)) else st
  }

  /** The two character classes a token run is made of. */
  datatype RunClass = AlnumRun | NumberRun

  predicate InClass(k: RunClass, c: char) {
    match k
    case AlnumRun => IsAlnum(c)
    case NumberRun => IsNumChar(c)
  }

  /** The identifier loop (toy.cpp:66-68) and the number loop
      (toy.cpp:82-85) both collect the lookahead and the characters after it
      while they stay in class `k`: the maximal run of class `k` that starts
      at the lookahead. */
  function ReadRun(k: RunClass, st: LexState): (r: (string, LexState))
    requires Valid(st) && st.last.Char? && InClass(k, st.last.c)
    ensures Valid(r.1)
    ensures |r.0| > 0 && r.0[0] == st.last.c
    ensures forall i :: 0 <= i < |r.0| ==> InClass(k, r.0[i])
    ensures Unread(st) == r.0 + Unread(r.1)
    ensures r.1.last.Char? ==> !InClass(k, r.1.last.c)
    decreases |Unread(st)|
  {
    var next := GetChar(st);
    if next.last.Char? && InClass(k, next.last.c) then
      var tail := ReadRun(k, next);
      var run := [st.last.c] + tail.0;
      assert forall i :: 1 <= i < |run| ==> run[i] == tail.0[i - 1];
      UnreadStep(st);
      ConsAppend(st.last.c, tail.0, Unread(tail.1));
      (run, tail.1)
    else
      ([st.last.c], next)
  }

  /** Reading a character moves the lookahead out of the unread input. */
  lemma {:induction false} UnreadStep(st: LexState)
    requires Valid(st) && st.last.Char?
    ensures Unread(st) == [st.last.c] + Unread(GetChar(st))
  {
  }

  lemma {:induction false} ConsAppend(c: char, t: string, u: string)
    ensures [c] + t + u == [c] + (t + u)
  {
  }

  /** What one call of GetTok returns: the token, the text it was read from
      (the identifier buffer or the numeric buffer; the operator character;
      empty at end of input) and the state for the next call. */
  datatype LexResult = LexResult(tok: Token, text: string, next: LexState)

  /** The lexeme the parser sees for a lexer result. */
  function LexemeOf(r: LexResult): Lexeme {
    Lexeme(r.tok, r.text)
  }

  /** The token is followed by a character that could not extend it. */
  predicate Maximal(l: Lexeme, after: string) {
    after != [] ==>
      match l.tok.kind
      case TokDef | TokExtern | TokIdentifier => !IsAlnum(after[0])
      case TokNumber => !IsNumChar(after[0])
      case _ => true
  }

  /** The identifier branch: the maximal alphanumeric run at the lookahead,
      classified as `def`, `extern` or an identifier. */
  function LexIdentifier(st: LexState): (r: LexResult)
    requires Valid(st) && st.last.Char? && IsAlpha(st.last.c)
    ensures Valid(r.next)
    ensures WellFormed(LexemeOf(r)) && r.tok.kind in {TokDef, TokExtern, TokIdentifier}
    ensures Maximal(LexemeOf(r), Unread(r.next))
    ensures Unread(st) == r.text + Unread(r.next)
  {
    var (ident, after) := ReadRun(AlnumRun, st);
    LexResult(MakeToken(KeywordKind(ident)), ident, after)
  }

  /** The number branch: the maximal run of digits and dots at the lookahead. */
  function LexNumber(st: LexState): (r: LexResult)
    requires Valid(st) && st.last.Char? && IsNumChar(st.last.c)
    ensures Valid(r.next)
    ensures WellFormed(LexemeOf(r)) && r.tok.kind == TokNumber
    ensures Maximal(LexemeOf(r), Unread(r.next))
    ensures Unread(st) == r.text + Unread(r.next)
  {
    var (num, after) := ReadRun(NumberRun, st);
    LexResult(MakeToken(TokNumber), num, after)
  }

  /** The fallback branch: the lookahead itself is the token, and its code is
      the payload; exactly that one character is consumed. */
  function LexOperator(st: LexState): (r: LexResult)
    requires Valid(st) && st.last.Char? && IsOpChar(st.last.c)
    ensures Valid(r.next)
    ensures WellFormed(LexemeOf(r)) && r.tok.kind == TokOp
    ensures r.text == [st.last.c] && r.tok.value == st.last.c as int
    ensures Unread(st) == r.text + Unread(r.next)
  {
    LexResult(MakeToken(TokOp, st.last.c as int), [st.last.c], GetChar(st))
  }

  /** What a call of GetTok promises about the token alone. Before end of
      input the result is a well-formed lexeme followed by a character that
      could not extend it; at end of input it is EOF and nothing is left. */
  predicate TokenSpec(r: LexResult) {
    && Valid(r.next)
    && (r.tok.kind == TokEof <==> r.text == [])
    && (r.tok.kind == TokEof ==> r.tok == MakeToken(TokEof) && Unread(r.next) == [])
    && (r.tok.kind != TokEof ==> WellFormed(LexemeOf(r)) && Maximal(LexemeOf(r), Unread(r.next)))
  }

  /** The branches of GetTok that return a token read at the lookahead:
      identifier or keyword, number, end of input, operator. The lookahead is
      neither whitespace nor `#`, which the other branches have dealt with. */
  function LexAt(st: LexState): (r: LexResult)
    requires Valid(st)
    requires st.last.Char? ==> !IsSpace(st.last.c) && st.last.c != '#'
    ensures TokenSpec(r)
    ensures Unread(st) == r.text + Unread(r.next)
  {
    if st.last.Char? && IsAlpha(st.last.c) then
      LexIdentifier(st)
    else if st.last.Char? && IsNumChar(st.last.c) then
      LexNumber(st)
    else if st.last == Eof then
      LexResult(MakeToken(TokEof), [], st)
    else
      LexOperator(st)
  }

  /** One call of GetTok. The token satisfies TokenSpec (LookaheadInvariant
      and DropsOnlyIgnorable say where its text lies in the input). Every
      call that does not return EOF consumes at least one character, and
      leading whitespace is always consumed. */
  function GetTok(st: LexState): (r: LexResult)
    requires Valid(st)
    ensures TokenSpec(r)
    ensures |r.text| + |Unread(r.next)| <= |Unread(st)|
    ensures r.tok.kind != TokEof ==> |Unread(r.next)| < |Unread(st)|
    ensures st.last.Char? && IsSpace(st.last.c) ==> |r.text + Unread(r.next)| < |Unread(st)|
    decreases |Unread(st)|, 1
  {
    LexAfterSpace(SkipSpace(st))
  }

  /** GetTok once whitespace is skipped: a comment is skipped through its
      newline and GetTok starts over; at end of input inside a comment the
      result is EOF; anything else is lexed at the lookahead. The comment
      test comes third in the source, after the identifier and number tests;
      `#` passes neither, so testing it first is the same. */
  function LexAfterSpace(st: LexState): (r: LexResult)
    requires Valid(st) && (st.last.Char? ==> !IsSpace(st.last.c))
    ensures TokenSpec(r)
    ensures |r.text| + |Unread(r.next)| <= |Unread(st)|
    decreases |Unread(st)|, 0
  {
    if st.last == Char('#') then
      var st2 := SkipComment(GetChar(st));
      if st2.last != Eof then GetTok(st2) else LexResult(MakeToken(TokEof), [], st2)
    else
      LexAt(st)
  }

  /** The lookahead invariant: the returned text is immediately followed by
      the new lookahead, so after each call the lookahead is the first
      character not yet part of any token. */
  lemma {:induction false} LookaheadInvariant(st: LexState)
    requires Valid(st)
    ensures var r := GetTok(st); SuffixOf(r.text + Unread(r.next), Unread(st))
    decreases |Unread(st)|, 1
  {
    var st1 := SkipSpace(st);
    LookaheadInvariantAfterSpace(st1);
    var r := LexAfterSpace(st1);
    ConsumedSplit(Unread(st), Unread(st1), r.text + Unread(r.next));
  }

  lemma {:induction false} LookaheadInvariantAfterSpace(st: LexState)
    requires Valid(st) && (st.last.Char? ==> !IsSpace(st.last.c))
    ensures var r := LexAfterSpace(st); SuffixOf(r.text + Unread(r.next), Unread(st))
    decreases |Unread(st)|, 0
  {
    if st.last == Char('#') {
      var st1 := GetChar(st);
      var st2 := SkipComment(st1);
      ConsumedSplit(Unread(st), Unread(st1), Unread(st2));
      if st2.last != Eof {
        LookaheadInvariant(st2);
        var r := GetTok(st2);
        ConsumedSplit(Unread(st), Unread(st2), r.text + Unread(r.next));
      }
    }
  }

  /** Only whitespace and comments are dropped in front of a token: the
      input GetTok consumes but does not return is ignorable, and a comment
      may run to end of input only when the token is EOF. */
  lemma {:induction false} DropsOnlyIgnorable(st: LexState)
    requires Valid(st)
    ensures var r := GetTok(st);
      Ignorable(Consumed(Unread(st), r.text + Unread(r.next)), r.text == [])
    decreases |Unread(st)|, 3
  {
    var st1 := SkipSpace(st);
    var r := LexAfterSpace(st1);
    DropsOnlyIgnorableAfterSpace(st1);
    LookaheadInvariantAfterSpace(st1);
    SpacesIgnorable(Unread(st), Unread(st1), r.text + Unread(r.next), r.text == []);
  }

  lemma {:induction false} DropsOnlyIgnorableAfterSpace(st: LexState)
    requires Valid(st) && (st.last.Char? ==> !IsSpace(st.last.c))
    ensures var r := LexAfterSpace(st);
      Ignorable(Consumed(Unread(st), r.text + Unread(r.next)), r.text == [])
    decreases |Unread(st)|, 2
  {
    if st.last == Char('#') {
      DropsOnlyIgnorableComment(st);
    } else {
      NothingDroppedBeforeToken(st);
    }
  }

  lemma {:induction false} DropsOnlyIgnorableComment(st: LexState)
    requires Valid(st) && st.last == Char('#')
    ensures var r := LexAfterSpace(st);
      Ignorable(Consumed(Unread(st), r.text + Unread(r.next)), r.text == [])
    decreases |Unread(st)|, 1
  {
    var st2 := SkipComment(GetChar(st));
    if st2.last != Eof {
      DropsOnlyIgnorableBeforeToken(st, st2);
    } else {
      CommentToEndIgnorable(Unread(st));
    }
  }

  /** A comment ended by a newline, then the next token. */
  lemma {:induction false} DropsOnlyIgnorableBeforeToken(st: LexState, st2: LexState)
    requires Valid(st) && st.last == Char('#')
    requires st2 == SkipComment(GetChar(st)) && st2.last != Eof
    ensures var r := LexAfterSpace(st);
      Ignorable(Consumed(Unread(st), r.text + Unread(r.next)), r.text == [])
    decreases |Unread(st)|, 0
  {
    var r := LexAfterSpace(st);
    assert r == GetTok(st2);
    DropsOnlyIgnorable(st2);
    LookaheadInvariant(st2);
    CommentThenToken(st, st2, r);
  }

  /** Outside a comment, the token starts at the lookahead. */
  lemma {:induction false} NothingDroppedBeforeToken(st: LexState)
    requires Valid(st) && (st.last.Char? ==> !IsSpace(st.last.c)) && st.last != Char('#')
    ensures var r := LexAfterSpace(st);
      Consumed(Unread(st), r.text + Unread(r.next)) == []
  {
  }

  /** The comment branch of LexAfterSpace: the comment and what the
      recursive call dropped are ignorable together. */
  lemma {:induction false} CommentThenToken(st: LexState, st2: LexState, r: LexResult)
    requires Valid(st) && st.last == Char('#')
    requires st2 == SkipComment(GetChar(st)) && st2.last != Eof
    requires SuffixOf(r.text + Unread(r.next), Unread(st2))
    requires Ignorable(Consumed(Unread(st2), r.text + Unread(r.next)), r.text == [])
    requires |r.text + Unread(r.next)| < |Unread(st2)|
    ensures SuffixOf(r.text + Unread(r.next), Unread(st))
    ensures Ignorable(Consumed(Unread(st), r.text + Unread(r.next)), r.text == [])
  {
    var u, u2, t := Unread(st), Unread(st2), r.text + Unread(r.next);
    assert |u| > 0 && u[0] == '#';
    assert SuffixOf(u2, u[1..]) && |u2| > 0 && IsNewline(u2[0]);
    assert forall i :: 0 <= i < |u| - 1 - |u2| ==> !IsNewline(u[1..][i]);
    CommentIgnorable(u, u2, t, r.text == []);
  }

  /** Calls GetTok until it returns EOF, as the parser's getNextToken()
      does one call at a time, and collects the lexemes before EOF. Every
      call before EOF consumes at least one character, so this ends. */
  function TokenizeFrom(st: LexState): (ls: seq<Lexeme>)
    requires Valid(st)
    ensures forall l :: l in ls ==> WellFormed(l)
    decreases |Unread(st)|
  {
    var r := GetTok(st);
    if r.tok.kind == TokEof then [] else [LexemeOf(r)] + TokenizeFrom(r.next)
  }

  /** The lexemes of a whole input, lexed from the initial state. */
  function Tokenize(s: string): seq<Lexeme> {
    TokenizeFrom(Start(s))
  }

  /** Taking off a prefix in two steps takes off the two prefixes in turn. */
  lemma {:induction false} ConsumedSplit(u: string, m: string, t: string)
    requires SuffixOf(m, u) && SuffixOf(t, m)
    ensures SuffixOf(t, u)
    ensures Consumed(u, t) == Consumed(u, m) + Consumed(m, t)
  {
  }

  /** Whitespace in front of ignorable text is ignorable. */
  lemma {:induction false} SpacesThenIgnorable(a: string, b: string, atEnd: bool)
    requires forall i :: 0 <= i < |a| ==> IsSpace(a[i])
    requires Ignorable(b, atEnd)
    ensures Ignorable(a + b, atEnd)
    decreases |a|
  {
    if a != [] {
      SpacesThenIgnorable(a[1..], b, atEnd);
      assert (a + b)[0] == a[0];
      assert (a + b)[1..] == a[1..] + b;
      assert IsSpace((a + b)[0]) && Ignorable((a + b)[1..], atEnd);
    } else {
      assert a + b == b;
    }
  }

  /** Comment text without a newline, then a newline and ignorable text. */
  lemma {:induction false} CommentBodyThen(body: string, b: string, atEnd: bool)
    requires forall i :: 0 <= i < |body| ==> !IsNewline(body[i])
    requires (b == [] && atEnd) || (b != [] && IsNewline(b[0]) && Ignorable(b[1..], atEnd))
    ensures InComment(body + b, atEnd)
    decreases |body|
  {
    if body == [] {
      assert body + b == b;
    } else {
      assert (body + b)[0] == body[0];
      assert (body + b)[1..] == body[1..] + b;
      CommentBodyThen(body[1..], b, atEnd);
    }
  }

  /** The whitespace SkipSpace dropped, followed by ignorable text. */
  lemma {:induction false} SpacesIgnorable(u: string, u1: string, t: string, atEnd: bool)
    requires SuffixOf(u1, u)
    requires forall i :: 0 <= i < |u| - |u1| ==> IsSpace(u[i])
    requires SuffixOf(t, u1) && Ignorable(Consumed(u1, t), atEnd)
    ensures SuffixOf(t, u) && Ignorable(Consumed(u, t), atEnd)
  {
    ConsumedSplit(u, u1, t);
    SpacesThenIgnorable(Consumed(u, u1), Consumed(u1, t), atEnd);
  }

  /** A comment ended by a newline, then the text the recursive call
      dropped: all of it is ignorable, and the comment is not empty. */
  lemma {:induction false} CommentIgnorable(u: string, u2: string, t: string, atEnd: bool)
    requires |u| > 0 && u[0] == '#'
    requires SuffixOf(u2, u[1..]) && |u2| > 0 && IsNewline(u2[0])
    requires forall i :: 0 <= i < |u| - 1 - |u2| ==> !IsNewline(u[1..][i])
    requires SuffixOf(t, u2) && |t| < |u2| && Ignorable(Consumed(u2, t), atEnd)
    ensures SuffixOf(t, u) && Ignorable(Consumed(u, t), atEnd)
  {
    var c2 := Consumed(u2, t);
    assert c2 != [] && c2[0] == u2[0];
    assert c2[1..] == Consumed(u2[1..], t);
    assert Ignorable(c2[1..], atEnd);
    var body := Consumed(u[1..], u2);
    CommentBodyThen(body, c2, atEnd);
    ConsumedSplit(u[1..], u2, t);
    assert u == [u[0]] + u[1..];
    ConsumedSplit(u, u[1..], t);
    assert Consumed(u, t) == "#" + (body + c2);
  }

  /** A comment that runs to end of input. */
  lemma {:induction false} CommentToEndIgnorable(u: string)
    requires |u| > 0 && u[0] == '#'
    requires forall i :: 0 <= i < |u| - 1 ==> !IsNewline(u[1..][i])
    ensures SuffixOf([], u) && Ignorable(Consumed(u, []), true)
  {
    CommentBodyThen(u[1..], [], true);
    assert Consumed(u, []) == "#" + (u[1..] + []);
  }
}

=== FILE: lexer_lemmas.dfy ===
/** Properties of the lexer that relate several calls or several inputs. */
module LexerLemmas {
  import opened Tokens
  import opened Lexer

  /** Text made of whitespace only. */
  predicate AllSpace(w: string) {
    forall i :: 0 <= i < |w| ==> IsSpace(w[i])
  }

  /** Comment text: no character that ends a comment. */
  predicate NoNewline(w: string) {
    forall i :: 0 <= i < |w| ==> !IsNewline(w[i])
  }

  lemma {:induction false} GetCharOf(u: string)
    requires u != []
    ensures GetChar(StateOf(u)) == StateOf(u[1..])
  {
  }

  lemma {:induction false} StartIsStateOf(s: string)
    ensures Start(s) == StateOf(" " + s)
  {
    assert (" " + s)[1..] == s;
  }

  /** Whitespace in front of the unread input is skipped as if it were not
      there. */
  lemma {:induction false} SkipSpaceOver(w: string, x: string)
    requires AllSpace(w)
    ensures SkipSpace(StateOf(w + x)) == SkipSpace(StateOf(x))
    decreases |w|
  {
    if w != [] {
      GetCharOf(w + x);
      assert (w + x)[1..] == w[1..] + x;
      SkipSpaceOver(w[1..], x);
    } else {
      assert w + x == x;
    }
  }

  /** The comment loop stops at the first newline, or at end of input. */
  lemma {:induction false} SkipCommentOver(body: string, x: string)
    requires NoNewline(body)
    requires x == [] || IsNewline(x[0])
    ensures SkipComment(StateOf(body + x)) == StateOf(x)
    decreases |body|
  {
    if body != [] {
      GetCharOf(body + x);
      assert (body + x)[1..] == body[1..] + x;
      SkipCommentOver(body[1..], x);
    } else {
      assert body + x == x;
    }
  }

  /** A maximal run of class `k` is read exactly, and the character after it
      becomes the lookahead. */
  lemma {:induction false} ReadRunExact(k: RunClass, t: string, after: string)
    requires |t| > 0 && forall i :: 0 <= i < |t| ==> InClass(k, t[i])
    requires after == [] || !InClass(k, after[0])
    ensures ReadRun(k, StateOf(t + after)) == (t, StateOf(after))
    decreases |t|
  {
    GetCharOf(t + after);
    assert (t + after)[1..] == t[1..] + after;
    if |t| > 1 {
      ReadRunExact(k, t[1..], after);
      assert [t[0]] + t[1..] == t;
    } else {
      assert t[1..] + after == after;
      assert [t[0]] == t;
    }
  }

  /** Leading whitespace is skipped and never becomes part of a token: the
      call returns what it returns without it. */
  lemma {:induction false} LeadingSpaceIgnored(w: string, x: string)
    requires AllSpace(w)
    ensures GetTok(StateOf(w + x)) == GetTok(StateOf(x))
  {
    SkipSpaceOver(w, x);
  }

  /** A well-formed lexeme at the lookahead, followed by end of input or by
      a character that cannot extend it, is read back exactly. */
  lemma {:induction false} LexAtWellFormed(l: Lexeme, after: string)
    requires WellFormed(l) && Maximal(l, after)
    ensures LexAt(StateOf(l.text + after)) == LexResult(l.tok, l.text, StateOf(after))
  {
    var x := l.text + after;
    assert x[0] == l.text[0];
    match l.tok.kind
    case TokDef | TokExtern | TokIdentifier =>
      ReadRunExact(AlnumRun, l.text, after);
    case TokNumber =>
      ReadRunExact(NumberRun, l.text, after);
    case TokOp =>
      GetCharOf(x);
      assert x[1..] == after;
  }

  /** A well-formed lexeme preceded by a blank and followed by end of input or
      whitespace is lexed back exactly, and the text after it stays unread. */
  lemma {:induction false} LexWellFormed(l: Lexeme, after: string)
    requires WellFormed(l)
    requires after == [] || IsSpace(after[0])
    ensures GetTok(StateOf(" " + l.text + after)) == LexResult(l.tok, l.text, StateOf(after))
  {
    SpaceIsMaximal(l, after);
    LexAfterBlanks(" ", l, after);
  }

  /** Whitespace ends every lexeme. */
  lemma {:induction false} SpaceIsMaximal(l: Lexeme, after: string)
    requires after == [] || IsSpace(after[0])
    ensures Maximal(l, after)
  {
  }

  /** Whitespace, then a well-formed lexeme that nothing after it extends:
      exactly that lexeme is returned and what follows it stays unread. */
  lemma {:induction false} LexAfterBlanks(w: string, l: Lexeme, after: string)
    requires AllSpace(w) && WellFormed(l) && Maximal(l, after)
    ensures GetTok(StateOf(w + l.text + after)) == LexResult(l.tok, l.text, StateOf(after))
  {
    var x := l.text + after;
    assert w + l.text + after == w + x;
    LeadingSpaceIgnored(w, x);
    WellFormedStart(l);
    assert x[0] == l.text[0];
    NothingToSkip(x);
    assert StateOf(x).last == Char(l.text[0]);
    LexAtWellFormed(l, after);
  }

  /** A well-formed lexeme starts with neither whitespace nor `#`. */
  lemma {:induction false} WellFormedStart(l: Lexeme)
    requires WellFormed(l)
    ensures |l.text| > 0 && !IsSpace(l.text[0]) && l.text[0] != '#'
  {
  }

  /** Tokenizing past one such lexeme. */
  lemma {:induction false} TokenizeStep(w: string, l: Lexeme, after: string)
    requires AllSpace(w) && WellFormed(l) && Maximal(l, after)
    ensures TokenizeFrom(StateOf(w + l.text + after)) == [l] + TokenizeFrom(StateOf(after))
  {
    LexAfterBlanks(w, l, after);
  }

  /** Only whitespace left: no more lexemes. */
  lemma {:induction false} TokenizeBlank(w: string)
    requires AllSpace(w)
    ensures TokenizeFrom(StateOf(w)) == []
  {
    assert w + [] == w;
    LeadingSpaceIgnored(w, []);
  }

  /** The text a lexeme sequence came from, one blank after each lexeme. */
  function Unlex(ls: seq<Lexeme>): string {
    if |ls| == 0 then [] else ls[0].text + " " + Unlex(ls[1..])
  }

  /** Lexing the text of well-formed lexemes gives the same lexemes back. */
  lemma {:induction false} TokenizeUnlex(ls: seq<Lexeme>)
    requires forall i :: 0 <= i < |ls| ==> WellFormed(ls[i])
    ensures Tokenize(Unlex(ls)) == ls
  {
    TokenizeUnlexFrom(ls);
  }

  lemma {:induction false} TokenizeUnlexFrom(ls: seq<Lexeme>)
    requires forall i :: 0 <= i < |ls| ==> WellFormed(ls[i])
    ensures TokenizeFrom(StateOf(" " + Unlex(ls))) == ls
  {
    UnlexLayout(ls);
    BlanksSeparate(ls);
    TokenizeLayout(Blanks(|ls|), ls, " ");
  }

  /** One blank before each lexeme. */
  function Blanks(n: nat): (r: seq<string>)
    ensures |r| == n && forall i :: 0 <= i < n ==> r[i] == " "
  {
    seq(n, _ => " ")
  }

  lemma {:induction false} BlanksSeparate(ls: seq<Lexeme>)
    requires forall i :: 0 <= i < |ls| ==> WellFormed(ls[i])
    ensures Separated(Blanks(|ls|), ls)
  {
  }

  lemma {:induction false} UnlexLayout(ls: seq<Lexeme>)
    ensures " " + Unlex(ls) == Layout(Blanks(|ls|), ls) + " "
    decreases |ls|
  {
    if ls != [] {
      var t, rest := ls[0].text, Layout(Blanks(|ls| - 1), ls[1..]);
      UnlexLayout(ls[1..]);
      UnlexCons(ls);
      assert Blanks(|ls|)[1..] == Blanks(|ls| - 1);
      assert Layout(Blanks(|ls|), ls) == " " + t + rest;
      ConcatAssoc(" " + t, rest, " ");
    }
  }

  lemma {:induction false} UnlexCons(ls: seq<Lexeme>)
    requires ls != []
    ensures " " + Unlex(ls) == " " + ls[0].text + (" " + Unlex(ls[1..]))
  {
  }

  lemma {:induction false} ConsSplit(ls: seq<Lexeme>)
    requires ls != []
    ensures [ls[0]] + ls[1..] == ls
  {
  }

  /** Lexeme texts, each after its own run of whitespace (possibly empty). */
  function Layout(gaps: seq<string>, ls: seq<Lexeme>): string
    requires |gaps| == |ls|
  {
    if |ls| == 0 then [] else gaps[0] + ls[0].text + Layout(gaps[1..], ls[1..])
  }

  /** The gaps are whitespace, the lexemes well formed, and where a gap is
      empty the next lexeme cannot extend the one before it. */
  predicate Separated(gaps: seq<string>, ls: seq<Lexeme>)
    requires |gaps| == |ls|
  {
    && (forall i :: 0 <= i < |ls| ==> AllSpace(gaps[i]) && WellFormed(ls[i]))
    && (forall i :: 0 < i < |ls| ==> gaps[i] != [] || Maximal(ls[i - 1], ls[i].text))
  }

  /** What follows a lexeme in a separated layout does not extend it. */
  lemma {:induction false} LayoutMaximal(gaps: seq<string>, ls: seq<Lexeme>, tail: string)
    requires |gaps| == |ls| && |ls| > 0 && Separated(gaps, ls) && AllSpace(tail)
    ensures Maximal(ls[0], Layout(gaps[1..], ls[1..]) + tail)
  {
    var after := Layout(gaps[1..], ls[1..]) + tail;
    if |ls| > 1 {
      WellFormedStart(ls[1]);
      var g := gaps[1];
      assert after == g + ls[1].text + (Layout(gaps[2..], ls[2..]) + tail) by {
        assert gaps[1..][1..] == gaps[2..] && ls[1..][1..] == ls[2..];
      }
      if g == [] {
        assert after[0] == ls[1].text[0];
      } else {
        assert after[0] == g[0];
      }
    } else {
      assert after == tail;
    }
  }

  lemma {:induction false} SeparatedTail(gaps: seq<string>, ls: seq<Lexeme>)
    requires |gaps| == |ls| && |ls| > 0 && Separated(gaps, ls)
    ensures Separated(gaps[1..], ls[1..])
  {
    forall i | 0 < i < |ls| - 1
      ensures gaps[1..][i] != [] || Maximal(ls[1..][i - 1], ls[1..][i].text)
    {
      assert gaps[1..][i] == gaps[i + 1] && ls[1..][i - 1] == ls[i] && ls[1..][i] == ls[i + 1];
    }
  }

  /** A separated layout, followed by whitespace, lexes back to exactly its
      lexemes: the gaps are dropped and no lexeme runs into the next. */
  lemma {:induction false} TokenizeLayout(gaps: seq<string>, ls: seq<Lexeme>, tail: string)
    requires |gaps| == |ls| && Separated(gaps, ls) && AllSpace(tail)
    ensures TokenizeFrom(StateOf(Layout(gaps, ls) + tail)) == ls
    decreases |ls|
  {
    if ls == [] {
      assert Layout(gaps, ls) + tail == tail;
      TokenizeBlank(tail);
    } else {
      var after := Layout(gaps[1..], ls[1..]) + tail;
      assert Layout(gaps, ls) + tail == gaps[0] + ls[0].text + after;
      LayoutMaximal(gaps, ls, tail);
      TokenizeStep(gaps[0], ls[0], after);
      SeparatedTail(gaps, ls);
      TokenizeLayout(gaps[1..], ls[1..], tail);
      ConsSplit(ls);
    }
  }

  /** The same from the start of an input. */
  lemma {:induction false} TokenizeText(s: string, gaps: seq<string>, ls: seq<Lexeme>, tail: string)
    requires |gaps| == |ls| && Separated(gaps, ls) && AllSpace(tail)
    requires s == Layout(gaps, ls) + tail
    ensures Tokenize(s) == ls
  {
    TokenizeFromBlank(s);
    if ls == [] {
      TokenizeBlankText(s, tail);
    } else {
      TokenizeWidened(s, gaps, ls, tail);
    }
  }

  lemma {:induction false} TokenizeBlankText(s: string, tail: string)
    requires AllSpace(tail) && s == tail
    ensures TokenizeFrom(StateOf(" " + s)) == []
  {
    BlankPrefix(tail);
    TokenizeBlank(" " + tail);
  }

  lemma {:induction false} TokenizeWidened(s: string, gaps: seq<string>, ls: seq<Lexeme>, tail: string)
    requires |gaps| == |ls| && |ls| > 0 && Separated(gaps, ls) && AllSpace(tail)
    requires s == Layout(gaps, ls) + tail
    ensures TokenizeFrom(StateOf(" " + s)) == ls
  {
    WidenFirstGap(s, gaps, ls, tail);
    TokenizeLayoutOf(" " + s, [" " + gaps[0]] + gaps[1..], ls, tail);
  }

  lemma {:induction false} TokenizeLayoutOf(u: string, gaps: seq<string>, ls: seq<Lexeme>, tail: string)
    requires |gaps| == |ls| && Separated(gaps, ls) && AllSpace(tail)
    requires u == Layout(gaps, ls) + tail
    ensures TokenizeFrom(StateOf(u)) == ls
  {
    TokenizeLayout(gaps, ls, tail);
  }

  /** Lexing an input starts from a blank lookahead in front of it. */
  lemma {:induction false} TokenizeFromBlank(s: string)
    ensures Tokenize(s) == TokenizeFrom(StateOf(" " + s))
  {
    StartIsStateOf(s);
  }

  lemma {:induction false} BlankPrefix(w: string)
    requires AllSpace(w)
    ensures AllSpace(" " + w)
  {
    assert forall i :: 0 < i < |" " + w| ==> (" " + w)[i] == w[i - 1];
  }

  /** The blank the lexer starts from joins the first gap. */
  lemma {:induction false} WidenFirstGap(s: string, gaps: seq<string>, ls: seq<Lexeme>, tail: string)
    requires |gaps| == |ls| && |ls| > 0 && Separated(gaps, ls)
    requires s == Layout(gaps, ls) + tail
    ensures var gaps' := [" " + gaps[0]] + gaps[1..];
      Separated(gaps', ls) && " " + s == Layout(gaps', ls) + tail
  {
    WidenedSeparated(gaps, ls);
    WidenedLayout(gaps, ls);
    ConcatAssoc(" ", Layout(gaps, ls), tail);
  }

  lemma {:induction false} ConcatAssoc(a: string, b: string, c: string)
    ensures a + (b + c) == (a + b) + c
  {
  }

  lemma {:induction false} WidenedSeparated(gaps: seq<string>, ls: seq<Lexeme>)
    requires |gaps| == |ls| && |ls| > 0 && Separated(gaps, ls)
    ensures Separated([" " + gaps[0]] + gaps[1..], ls)
  {
    var gaps' := [" " + gaps[0]] + gaps[1..];
    BlankPrefix(gaps[0]);
    assert forall i :: 0 < i < |ls| ==> gaps'[i] == gaps[i];
  }

  lemma {:induction false} WidenedLayout(gaps: seq<string>, ls: seq<Lexeme>)
    requires |gaps| == |ls| && |ls| > 0
    ensures " " + Layout(gaps, ls) == Layout([" " + gaps[0]] + gaps[1..], ls)
  {
    var gaps' := [" " + gaps[0]] + gaps[1..];
    assert gaps'[1..] == gaps[1..];
  }

  /** Re-lexing the text of the lexemes of any input gives the same lexemes:
      lexing is idempotent up to the whitespace and comments it drops. */
  lemma {:induction false} TokenizeIdempotent(s: string)
    ensures Tokenize(Unlex(Tokenize(s))) == Tokenize(s)
  {
    TokenizeUnlex(Tokenize(s));
  }

  /** The text of one well-formed lexeme, on its own, lexes to exactly that
      lexeme. */
  lemma {:induction false} TokenizeSingle(l: Lexeme)
    requires WellFormed(l)
    ensures Tokenize(l.text) == [l]
  {
    assert Start(l.text) == StateOf(" " + l.text + []);
    LexWellFormed(l, []);
    var r := GetTok(Start(l.text));
    assert r == LexResult(l.tok, l.text, StateOf([]));
    assert TokenizeFrom(StateOf([])) == [];
    assert Tokenize(l.text) == [l] + TokenizeFrom(StateOf([]));
  }

  /** An identifier run on its own is exactly one token: `def` and `extern`
      are keywords, and every other run is an identifier carrying the run. */
  lemma {:induction false} LexIdentifierRun(s: string)
    requires IsIdentText(s)
    ensures Tokenize(s) == [Lexeme(MakeToken(KeywordKind(s)), s)]
    ensures s != "def" && s != "extern" ==> Tokenize(s) == [Lexeme(MakeToken(TokIdentifier), s)]
  {
    TokenizeSingle(Lexeme(MakeToken(KeywordKind(s)), s));
  }

  /** A run of digits and dots on its own is exactly one number token that
      carries the run. */
  lemma {:induction false} LexNumberRun(s: string)
    requires IsNumberText(s)
    ensures Tokenize(s) == [Lexeme(MakeToken(TokNumber), s)]
  {
    TokenizeSingle(Lexeme(MakeToken(TokNumber), s));
  }

  /** The state reached after reading a `#`: the comment loop has run to the
      first newline or to end of input. */
  lemma {:induction false} AfterHash(body: string, rest: string)
    requires NoNewline(body)
    requires rest == [] || IsNewline(rest[0])
    ensures LexAfterSpace(StateOf("#" + body + rest)) ==
      if rest == [] then LexResult(MakeToken(TokEof), [], StateOf([])) else GetTok(StateOf(rest))
  {
    var u := "#" + body + rest;
    GetCharOf(u);
    assert u[1..] == body + rest;
    SkipCommentOver(body, rest);
  }

  /** A comment ended by a newline is transparent: the call returns what it
      would return if the comment were not there. */
  lemma {:induction false} CommentTransparent(w: string, body: string, rest: string)
    requires AllSpace(w) && NoNewline(body)
    requires rest != [] && IsNewline(rest[0])
    ensures GetTok(StateOf(w + "#" + body + rest)) == GetTok(StateOf(w + rest))
  {
    var u := "#" + body + rest;
    assert w + "#" + body + rest == w + u;
    SkipSpaceOver(w, u);
    SkipSpaceOver([], u);
    assert [] + u == u;
    assert SkipSpace(StateOf(u)) == StateOf(u);
    AfterHash(body, rest);
    LeadingSpaceIgnored(w, rest);
  }

  /** Whitespace and a comment that runs to end of input: the call returns
      EOF and nothing is left. */
  lemma {:induction false} CommentAtEndIsEof(w: string, body: string)
    requires AllSpace(w) && NoNewline(body)
    ensures GetTok(StateOf(w + "#" + body)) == LexResult(MakeToken(TokEof), [], StateOf([]))
  {
    var u := "#" + body;
    assert w + "#" + body == w + u;
    SkipSpaceOver(w, u);
    NothingToSkip(u);
    HashToEnd(body);
  }

  /** A comment that runs to end of input, at the lookahead. */
  lemma {:induction false} HashToEnd(body: string)
    requires NoNewline(body)
    ensures LexAfterSpace(StateOf("#" + body)) == LexResult(MakeToken(TokEof), [], StateOf([]))
  {
    var u := "#" + body;
    GetCharOf(u);
    assert u[1..] == body + [];
    SkipCommentOver(body, []);
  }

  /** SkipSpace does nothing when the lookahead is not whitespace. */
  lemma {:induction false} NothingToSkip(u: string)
    requires u == [] || !IsSpace(u[0])
    ensures SkipSpace(StateOf(u)) == StateOf(u)
  {
  }

  /** An input of whitespace and one comment running to its end lexes to no
      token at all: the first call already returns EOF. */
  lemma {:induction false} CommentOnlyInput(w: string, body: string)
    requires AllSpace(w) && NoNewline(body)
    ensures Tokenize(w + "#" + body) == []
  {
    var s := w + "#" + body;
    StartIsStateOf(s);
    assert " " + s == (" " + w) + "#" + body;
    assert AllSpace(" " + w);
    CommentAtEndIsEof(" " + w, body);
    var r := GetTok(Start(s));
    assert r.tok.kind == TokEof;
  }

  /** After end of input every call returns EOF again and changes nothing:
      the token after the last one is EOF, however often it is asked for. */
  lemma {:induction false} EofIsSticky(st: LexState)
    requires Valid(st) && Unread(st) == []
    ensures GetTok(st) == LexResult(MakeToken(TokEof), [], st)
  {
  }
}

=== FILE: parser.dfy ===
/** The recursive-descent parser with precedence climbing (parser.cpp).
    The static `CurTok` becomes a position in the sequence of lexemes the
    lexer returns; each production takes the position of its first token and
    returns the node it built together with the position of the token after
    it, or None when some part of it failed, in which case no node at all is
    returned. */
module Parser {
  import opened Wrappers
  import opened Tokens
  import opened Ast

  /** A production's result: the node and the position of the next token. */
  datatype Parsed<T> = Parsed(node: T, next: nat)

  /** `CurTok` at position `pos`: the lexeme there, or EOF past the end (the
      lexer returns EOF forever once its input is exhausted). */
  function Cur(toks: seq<Lexeme>, pos: nat): Lexeme {
    if pos < |toks| then toks[pos] else EofLexeme
  }

  /** The comparison `CurTok.value() == c` the parser uses for punctuation. */
  predicate Is(toks: seq<Lexeme>, pos: nat, c: char) {
    Cur(toks, pos).tok.value == c as int
  }

  /** `getNextToken()` where the current token may be EOF: past the end the
      position stays where it is. */
  function Advance(toks: seq<Lexeme>, pos: nat): (p: nat)
    requires pos <= |toks|
    ensures p <= |toks|
    ensures pos < |toks| ==> p == pos + 1
    ensures pos == |toks| ==> Cur(toks, p) == EofLexeme
  {
    if pos < |toks| then pos + 1 else pos
  }

  /** The static precedence table of GetTokPrecedence: `/` is not in it. */
  const BinopPrecedence: map<char, int> := map['<' := 10, '+' := 20, '-' := 20, '*' := 40]

  /** A payload that is the code of an operator in the table. */
  predicate IsBinop(v: int) {
    0 <= v < 128 && (v as char) in BinopPrecedence
  }

  /** GetTokPrecedence, applied to the current token: the table's entry for
      an ASCII payload in the table, and -1 for every other payload
      (including the -1 of every non-operator token, and non-ASCII codes). */
  function GetTokPrecedence(t: Token): (r: int)
    ensures r != -1 <==> IsBinop(t.value)
    ensures IsBinop(t.value) ==> r == BinopPrecedence[t.value as char] && r > 0
  {
    if !(0 <= t.value < 128) then -1
    else
      match t.value as char
      case '<' => 10
      case '+' => 20
      case '-' => 20
      case '*' => 40
      case _ => -1
  }

  /** Every binary node of the tree carries an operator of the table. */
  predicate ValidOps(e: Expr) {
    match e
    case NumberExpr(_) => true
    case VariableExpr(_) => true
    case BinaryExpr(op, lhs, rhs) => op in BinopPrecedence && ValidOps(lhs) && ValidOps(rhs)
    case CallExpr(_, args) => forall a :: a in args ==> ValidOps(a)
  }

  /** The productions ParsePrimary can choose. */
  datatype PrimaryForm = IdentifierForm | NumberForm | ParenForm | NoPrimary

  /** Which switch ParsePrimary dispatches with. As written (parser.cpp:121)
      a parenthesised expression must start with a token of kind TokLp, which
      the lexer never returns; the corrected switch also takes the operator
      token whose payload is `(`, the form in which the lexer returns `(`.
      Every production that reaches ParsePrimary carries the choice down. */
  datatype Variant = AsWritten | Corrected

  /** The switch of ParsePrimary on the current token. */
  function Dispatch(v: Variant, t: Token): (f: PrimaryForm)
    ensures f == IdentifierForm <==> t.kind == TokIdentifier
    ensures f == NumberForm <==> t.kind == TokNumber
    ensures f == ParenForm <==> t.kind == TokLp || (v == Corrected && t.kind == TokOp && t.value == '(' as int)
  {
    match t.kind
    case TokIdentifier => IdentifierForm
    case TokNumber => NumberForm
    case TokLp => ParenForm
    case TokOp => if v == Corrected && t.value == '(' as int then ParenForm else NoPrimary
    case _ => NoPrimary
  }

  /** A numeric literal, parsed when the current token is a number; the node
      keeps the literal's text. */
  function ParseNumberExpr(toks: seq<Lexeme>, pos: nat): (r: Parsed<Expr>)
    requires pos <= |toks| && Cur(toks, pos).tok.kind == TokNumber
    ensures r.next == pos + 1 <= |toks|
  {
    Parsed(NumberExpr(toks[pos].text), pos + 1)
  }

  /** A parenthesised expression: the opening token, an expression and a
      `)`. The result is the inner expression itself, with no node for the
      parentheses. */
  function ParseParenExpr(v: Variant, toks: seq<Lexeme>, pos: nat): (r: Option<Parsed<Expr>>)
    requires pos <= |toks| && Dispatch(v, Cur(toks, pos).tok) == ParenForm
    ensures r.Some? ==> pos < r.value.next <= |toks| && ValidOps(r.value.node)
    ensures r.Some? ==> Is(toks, r.value.next - 1, ')')
    ensures ParseExpression(v, toks, pos + 1) == None ==> r == None
    decreases |toks| - pos, 1
  {
    match ParseExpression(v, toks, pos + 1)
    case None => None
    case Some(Parsed(e, p)) =>
      if !Is(toks, p, ')') then None else Some(Parsed(e, p + 1))
  }

  /** A name, parsed when the current token is an identifier: without a
      following `(` it is a variable, otherwise a call, whose argument list
      is empty when `)` comes at once. */
  function ParseIdentifierExpr(v: Variant, toks: seq<Lexeme>, pos: nat): (r: Option<Parsed<Expr>>)
    requires pos <= |toks| && Cur(toks, pos).tok.kind == TokIdentifier
    ensures r.Some? ==> pos < r.value.next <= |toks| && ValidOps(r.value.node)
    ensures !Is(toks, pos + 1, '(') <==> r == Some(Parsed(VariableExpr(toks[pos].text), pos + 1))
    decreases |toks| - pos, 1
  {
    var name := toks[pos].text;
    var p := pos + 1;
    if !Is(toks, p, '(') then Some(Parsed(VariableExpr(name), p))
    else
      var q := p + 1;
      if Is(toks, q, ')') then Some(Parsed(CallExpr(name, []), q + 1))
      else
        match ParseArgs(v, toks, q)
        case None => None
        case Some(Parsed(args, e)) => Some(Parsed(CallExpr(name, args), e + 1))
  }

  /** The argument loop of ParseIdentifierExpr: an expression, then `)` ends
      the list and `,` continues it; any other token is an error. The result
      is the arguments in source order and the position of the `)`. */
  function ParseArgs(v: Variant, toks: seq<Lexeme>, pos: nat): (r: Option<Parsed<seq<Expr>>>)
    requires pos <= |toks|
    ensures r.Some? ==> pos < r.value.next < |toks| && Is(toks, r.value.next, ')')
    ensures r.Some? ==> |r.value.node| > 0 && forall a :: a in r.value.node ==> ValidOps(a)
    decreases |toks| - pos, 4
  {
    match ParseExpression(v, toks, pos)
    case None => None
    case Some(Parsed(arg, p)) =>
      if Is(toks, p, ')') then Some(Parsed([arg], p))
      else if !Is(toks, p, ',') then None
      else
        match ParseArgs(v, toks, p + 1)
        case None => None
        case Some(Parsed(args, q)) => Some(Parsed([arg] + args, q))
  }

  /** A primary expression: the current token chooses between a name, a
      number and a parenthesised expression, and any other token is an
      error. As written, an operator token never starts a primary. */
  function ParsePrimary(v: Variant, toks: seq<Lexeme>, pos: nat): (r: Option<Parsed<Expr>>)
    requires pos <= |toks|
    ensures r.Some? ==> pos < r.value.next <= |toks| && ValidOps(r.value.node)
    ensures Dispatch(v, Cur(toks, pos).tok) == NoPrimary ==> r == None
    ensures v == AsWritten && Cur(toks, pos).tok.kind == TokOp ==> r == None
    decreases |toks| - pos, 2
  {
    match Dispatch(v, Cur(toks, pos).tok)
    case IdentifierForm => ParseIdentifierExpr(v, toks, pos)
    case NumberForm => Some(ParseNumberExpr(toks, pos))
    case ParenForm => ParseParenExpr(v, toks, pos)
    case NoPrimary => None
  }

  /** An expression: a primary, then the operators and operands after it.
      A parsed expression ends where a token that is not an operator of the
      table follows it. */
  function ParseExpression(v: Variant, toks: seq<Lexeme>, pos: nat): (r: Option<Parsed<Expr>>)
    requires pos <= |toks|
    ensures r.Some? ==> pos < r.value.next <= |toks| && ValidOps(r.value.node)
    ensures r.Some? ==> GetTokPrecedence(Cur(toks, r.value.next).tok) < 0
    decreases |toks| - pos, 3
  {
    match ParsePrimary(v, toks, pos)
    case None => None
    case Some(Parsed(lhs, p)) => ParseBinOpRHS(v, toks, 0, lhs, p)
  }

  /** The operator and operand pairs after a left operand `lhs`, read by
      precedence climbing. While the
      current operator binds at least as tightly as `exprPrec`, it is
      consumed with the primary after it; when the operator after that
      primary binds more tightly still, the primary first absorbs it, with
      threshold one above the current operator. The loop stops, without
      consuming it, at the first token whose precedence is below `exprPrec`. */
  function ParseBinOpRHS(v: Variant, toks: seq<Lexeme>, exprPrec: nat, lhs: Expr, pos: nat): (r: Option<Parsed<Expr>>)
    requires pos <= |toks|
    ensures r.Some? ==> pos <= r.value.next <= |toks|
    ensures r.Some? ==> GetTokPrecedence(Cur(toks, r.value.next).tok) < exprPrec
    ensures r.Some? && ValidOps(lhs) ==> ValidOps(r.value.node)
    ensures pos < |toks| && GetTokPrecedence(toks[pos].tok) >= exprPrec && ParsePrimary(v, toks, pos + 1) == None ==> r == None
    decreases |toks| - pos, 0
  {
    var tokPrec := GetTokPrecedence(Cur(toks, pos).tok);
    if tokPrec < exprPrec then Some(Parsed(lhs, pos))
    else
      var binOp := Cur(toks, pos).tok.value as char;
      match ParsePrimary(v, toks, pos + 1)
      case None => None
      case Some(Parsed(rhs, p)) =>
        var nextPrec := GetTokPrecedence(Cur(toks, p).tok);
        if tokPrec < nextPrec then
          match ParseBinOpRHS(v, toks, tokPrec + 1, rhs, p)
          case None => None
          case Some(Parsed(rhs', q)) => ParseBinOpRHS(v, toks, exprPrec, BinaryExpr(binOp, lhs, rhs'), q)
        else
          ParseBinOpRHS(v, toks, exprPrec, BinaryExpr(binOp, lhs, rhs), p)
  }

  /** The parameter loop of ParsePrototype: the maximal run of identifier
      tokens from `pos`, their names in order, with no separators. */
  function ParseParams(toks: seq<Lexeme>, pos: nat): (r: Parsed<seq<string>>)
    requires pos <= |toks|
    ensures r.next == pos + |r.node| <= |toks|
    ensures forall i :: pos <= i < r.next ==>
              toks[i].tok.kind == TokIdentifier && toks[i].text == r.node[i - pos]
    ensures Cur(toks, r.next).tok.kind != TokIdentifier
    decreases |toks| - pos
  {
    if Cur(toks, pos).tok.kind == TokIdentifier then
      var rest := ParseParams(toks, pos + 1);
      var names := [toks[pos].text] + rest.node;
      Parsed(names, rest.next)
    else
      Parsed([], pos)
  }

  /** A prototype: the function's name, a `(`, the maximal run of
      identifiers as parameters, and a `)`; a missing piece is an error. */
  function ParsePrototype(toks: seq<Lexeme>, pos: nat): (r: Option<Parsed<Prototype>>)
    requires pos <= |toks|
    ensures r.Some? ==>
      var n := |r.value.node.args|;
      && r.value.next == pos + n + 3 <= |toks|
      && toks[pos].tok.kind == TokIdentifier && toks[pos].text == r.value.node.name
      && Is(toks, pos + 1, '(')
      && (forall i :: pos + 2 <= i < pos + 2 + n ==>
            toks[i].tok.kind == TokIdentifier && toks[i].text == r.value.node.args[i - pos - 2])
      && toks[pos + 2 + n].tok.kind != TokIdentifier && Is(toks, pos + 2 + n, ')')
  {
    if Cur(toks, pos).tok.kind != TokIdentifier then None
    else
      var name := toks[pos].text;
      var p := pos + 1;
      if !Is(toks, p, '(') then None
      else
        var params := ParseParams(toks, p + 1);
        if !Is(toks, params.next, ')') then None
        else Some(Parsed(Prototype(name, params.node), params.next + 1))
  }

  /** A definition: a prototype and the body after the `def` keyword, which
      is the current token and is consumed without being looked at. */
  function ParseDefinition(v: Variant, toks: seq<Lexeme>, pos: nat): (r: Option<Parsed<Function>>)
    requires pos <= |toks|
    ensures r.Some? <==>
      var p := ParsePrototype(toks, Advance(toks, pos));
      p.Some? && ParseExpression(v, toks, p.value.next).Some?
    ensures r.Some? ==> ValidOps(r.value.node.body) && pos < r.value.next <= |toks|
  {
    match ParsePrototype(toks, Advance(toks, pos))
    case None => None
    case Some(Parsed(proto, p)) =>
      match ParseExpression(v, toks, p)
      case None => None
      case Some(Parsed(body, q)) => Some(Parsed(Function(proto, body), q))
  }

  /** A declaration: a prototype after the `extern` keyword, which is
      consumed without being looked at. */
  function ParseExtern(toks: seq<Lexeme>, pos: nat): (r: Option<Parsed<Prototype>>)
    requires pos <= |toks|
    ensures r.Some? ==> pos < r.value.next <= |toks| && Is(toks, r.value.next - 1, ')')
  {
    ParsePrototype(toks, Advance(toks, pos))
  }

  /** An expression at top level, wrapped in a prototype with an empty name
      and no parameters. */
  function ParseTopLevelExpr(v: Variant, toks: seq<Lexeme>, pos: nat): (r: Option<Parsed<Function>>)
    requires pos <= |toks|
    ensures r.Some? ==> r.value.node.proto == Anonymous && ValidOps(r.value.node.body)
    ensures r.Some? <==> ParseExpression(v, toks, pos).Some?
  {
    match ParseExpression(v, toks, pos)
    case None => None
    case Some(Parsed(e, p)) => Some(Parsed(Function(Anonymous, e), p))
  }
}

=== FILE: parser_lemmas.dfy ===
/** Properties of the parser: it inverts a fully parenthesised printer for
    expressions, prototypes, definitions, externs and top-level expressions;
    operators of equal precedence associate to the left and tighter operators
    bind first; an unclosed call is an error. */
module ParserLemmas {
  import opened Wrappers
  import opened Tokens
  import opened Ast
  import opened Parser

  /** The lexemes the lexer returns for a number, a name and a one-character
      operator or punctuation mark. */
  function NumberLexeme(literal: string): Lexeme {
    Lexeme(MakeToken(TokNumber), literal)
  }

  function NameLexeme(name: string): Lexeme {
    Lexeme(MakeToken(TokIdentifier), name)
  }

  function Punct(c: char): Lexeme {
    Lexeme(MakeToken(TokOp, c as int), [c])
  }

  /** Prints an expression back to lexemes, with every binary node between
      parentheses and call arguments separated by commas. */
  function Unparse(e: Expr): seq<Lexeme>
    decreases e
  {
    match e
    case NumberExpr(literal) => [NumberLexeme(literal)]
    case VariableExpr(name) => [NameLexeme(name)]
    case BinaryExpr(op, lhs, rhs) =>
      [Punct('(')] + Unparse(lhs) + [Punct(op)] + Unparse(rhs) + [Punct(')')]
    case CallExpr(callee, args) =>
      [NameLexeme(callee), Punct('(')] + UnparseArgs(args) + [Punct(')')]
  }

  function UnparseArgs(args: seq<Expr>): seq<Lexeme>
    decreases args
  {
    if |args| == 0 then []
    else if |args| == 1 then Unparse(args[0])
    else Unparse(args[0]) + [Punct(',')] + UnparseArgs(args[1..])
  }

  /** A lexeme at which a complete expression ends: not an operator of the
      table, and not a `(` that would turn a trailing variable into a call. */
  predicate Closes(l: Lexeme) {
    GetTokPrecedence(l.tok) < 0 && l.tok.value != '(' as int
  }

  /** The lexemes of `toks` from `pos` on begin with `w`. */
  predicate Matches(toks: seq<Lexeme>, pos: nat, w: seq<Lexeme>) {
    pos + |w| <= |toks| && forall k :: 0 <= k < |w| ==> toks[pos + k] == w[k]
  }

  lemma {:induction false} MatchesSplit(toks: seq<Lexeme>, pos: nat, a: seq<Lexeme>, b: seq<Lexeme>)
    requires Matches(toks, pos, a + b)
    ensures Matches(toks, pos, a) && Matches(toks, pos + |a|, b)
  {
    forall k | 0 <= k < |a|
      ensures toks[pos + k] == a[k]
    {
      assert toks[pos + k] == (a + b)[k];
    }
    forall k | 0 <= k < |b|
      ensures toks[pos + |a| + k] == b[k]
    {
      assert toks[pos + (|a| + k)] == (a + b)[|a| + k];
    }
  }

  lemma {:induction false} MatchesAt(toks: seq<Lexeme>, pos: nat, w: seq<Lexeme>, k: nat)
    requires Matches(toks, pos, w) && k < |w|
    ensures toks[pos + k] == w[k]
  {
  }

  lemma {:induction false} MatchesWhole(w: seq<Lexeme>)
    ensures Matches(w, 0, w)
  {
  }

  /** A printed expression never starts with a `)` or a `,`. */
  lemma {:induction false} UnparseStart(e: Expr)
    ensures |Unparse(e)| > 0
    ensures Unparse(e)[0].tok.value != ')' as int && Unparse(e)[0].tok.value != ',' as int
  {
  }

  /** One pass of the precedence-climbing loop over `( lhs op rhs )`. */
  lemma {:induction false} ParenBinaryStep(toks: seq<Lexeme>, pos: nat, op: char, l: Expr, r: Expr, p1: nat, p2: nat)
    requires pos < |toks| && toks[pos] == Punct('(') && op in BinopPrecedence
    requires ParsePrimary(Corrected, toks, pos + 1) == Some(Parsed(l, p1))
    requires Cur(toks, p1) == Punct(op)
    requires ParsePrimary(Corrected, toks, p1 + 1) == Some(Parsed(r, p2))
    requires Cur(toks, p2) == Punct(')')
    ensures ParsePrimary(Corrected, toks, pos) == Some(Parsed(BinaryExpr(op, l, r), p2 + 1))
  {
    var e := BinaryExpr(op, l, r);
    FoldStep(Corrected, toks, 0, l, p1, r, p2);
    StopAt(Corrected, toks, 0, e, p2);
    PrimaryThenRHS(toks, pos + 1, l, p1);
    ParenStep(toks, pos, e, p2);
  }

  /** The parenthesised production, entered at a `(` operator token. */
  lemma {:induction false} ParenStep(toks: seq<Lexeme>, pos: nat, e: Expr, p: nat)
    requires pos < |toks| && toks[pos] == Punct('(')
    requires ParseExpression(Corrected, toks, pos + 1) == Some(Parsed(e, p)) && Is(toks, p, ')')
    ensures ParsePrimary(Corrected, toks, pos) == Some(Parsed(e, p + 1))
    ensures ParsePrimary(AsWritten, toks, pos) == None
  {
    assert ParseParenExpr(Corrected, toks, pos) == Some(Parsed(e, p + 1));
  }

  /** An expression that is one primary followed by a closing lexeme. */
  lemma {:induction false} PrimaryThenClose(toks: seq<Lexeme>, pos: nat, e: Expr, q: nat)
    requires pos <= |toks| && ParsePrimary(Corrected, toks, pos) == Some(Parsed(e, q))
    requires Closes(Cur(toks, q))
    ensures ParseExpression(Corrected, toks, pos) == Some(Parsed(e, q))
  {
    StopAt(Corrected, toks, 0, e, q);
  }

  /** An expression is its first primary followed by the operator loop. */
  lemma {:induction false} PrimaryThenRHS(toks: seq<Lexeme>, pos: nat, e: Expr, q: nat)
    requires pos <= |toks| && ParsePrimary(Corrected, toks, pos) == Some(Parsed(e, q))
    ensures ParseExpression(Corrected, toks, pos) == ParseBinOpRHS(Corrected, toks, 0, e, q)
  {
  }

  /** The operator loop stops at a lexeme that binds more loosely than
      `prec`, leaving its left operand as it is. */
  lemma {:induction false} StopAt(v: Variant, toks: seq<Lexeme>, prec: nat, lhs: Expr, pos: nat)
    requires pos <= |toks| && GetTokPrecedence(Cur(toks, pos).tok) < prec
    ensures ParseBinOpRHS(v, toks, prec, lhs, pos) == Some(Parsed(lhs, pos))
  {
  }

  /** One turn of the operator loop where the operator after the right
      operand binds no more tightly: the operands are combined at once. */
  lemma {:induction false} FoldStep(v: Variant, toks: seq<Lexeme>, prec: nat, lhs: Expr, pos: nat, rhs: Expr, p: nat)
    requires pos < |toks| && GetTokPrecedence(toks[pos].tok) >= prec
    requires ParsePrimary(v, toks, pos + 1) == Some(Parsed(rhs, p))
    requires GetTokPrecedence(Cur(toks, p).tok) <= GetTokPrecedence(toks[pos].tok)
    ensures ParseBinOpRHS(v, toks, prec, lhs, pos) ==
      ParseBinOpRHS(v, toks, prec, BinaryExpr(toks[pos].tok.value as char, lhs, rhs), p)
  {
  }

  /** One turn of the operator loop where the operator after the right
      operand binds more tightly: the right operand first absorbs it. */
  lemma {:induction false} ClimbStep(v: Variant, toks: seq<Lexeme>, prec: nat, lhs: Expr, pos: nat, rhs: Expr, p: nat, rhs': Expr, q: nat)
    requires pos < |toks| && GetTokPrecedence(toks[pos].tok) >= prec
    requires ParsePrimary(v, toks, pos + 1) == Some(Parsed(rhs, p))
    requires GetTokPrecedence(toks[pos].tok) < GetTokPrecedence(Cur(toks, p).tok)
    requires ParseBinOpRHS(v, toks, GetTokPrecedence(toks[pos].tok) + 1, rhs, p) == Some(Parsed(rhs', q))
    ensures ParseBinOpRHS(v, toks, prec, lhs, pos) ==
      ParseBinOpRHS(v, toks, prec, BinaryExpr(toks[pos].tok.value as char, lhs, rhs'), q)
  {
  }

  /** A turn of the operator loop whose nested loop fails fails as a whole:
      no partial tree is returned. */
  lemma {:induction false} ClimbFailStep(v: Variant, toks: seq<Lexeme>, prec: nat, lhs: Expr, pos: nat, rhs: Expr, p: nat)
    requires pos < |toks| && GetTokPrecedence(toks[pos].tok) >= prec
    requires ParsePrimary(v, toks, pos + 1) == Some(Parsed(rhs, p))
    requires GetTokPrecedence(toks[pos].tok) < GetTokPrecedence(Cur(toks, p).tok)
    requires ParseBinOpRHS(v, toks, GetTokPrecedence(toks[pos].tok) + 1, rhs, p) == None
    ensures ParseBinOpRHS(v, toks, prec, lhs, pos) == None
  {
  }

  /** A definition: the keyword, a prototype, then the body. */
  lemma {:induction false} DefinitionStep(toks: seq<Lexeme>, pos: nat, proto: Prototype, p: nat, body: Expr, q: nat)
    requires pos < |toks|
    requires ParsePrototype(toks, pos + 1) == Some(Parsed(proto, p))
    requires ParseExpression(Corrected, toks, p) == Some(Parsed(body, q))
    ensures ParseDefinition(Corrected, toks, pos) == Some(Parsed(Function(proto, body), q))
  {
  }

  /** A call: the name, `(`, then either `)` at once or an argument list. */
  lemma {:induction false} CallStep(toks: seq<Lexeme>, pos: nat, callee: string, args: seq<Expr>, q: nat)
    requires pos + 2 <= |toks| && toks[pos] == NameLexeme(callee) && toks[pos + 1] == Punct('(')
    requires args == [] ==> Cur(toks, pos + 2) == Punct(')') && q == pos + 2
    requires args != [] ==> ParseArgs(Corrected, toks, pos + 2) == Some(Parsed(args, q)) && !Is(toks, pos + 2, ')')
    ensures ParsePrimary(Corrected, toks, pos) == Some(Parsed(CallExpr(callee, args), q + 1))
  {
  }

  /** An argument followed by `,` and further arguments. */
  lemma {:induction false} ArgsStep(toks: seq<Lexeme>, pos: nat, a: Expr, p: nat, rest: seq<Expr>, q: nat)
    requires pos <= |toks|
    requires ParseExpression(Corrected, toks, pos) == Some(Parsed(a, p))
    requires Cur(toks, p) == Punct(',')
    requires ParseArgs(Corrected, toks, p + 1) == Some(Parsed(rest, q))
    ensures ParseArgs(Corrected, toks, pos) == Some(Parsed([a] + rest, q))
  {
  }

  /** ParsePrimary reads back exactly the printed form of any expression
      whose operators are in the table, wherever it stands and whatever
      follows it, short of a `(`. */
  lemma {:induction false} PrimaryRoundTrip(e: Expr, toks: seq<Lexeme>, pos: nat)
    requires ValidOps(e) && Matches(toks, pos, Unparse(e))
    requires !Is(toks, pos + |Unparse(e)|, '(')
    ensures ParsePrimary(Corrected, toks, pos) == Some(Parsed(e, pos + |Unparse(e)|))
    decreases e, 2
  {
    match e
    case NumberExpr(literal) =>
      MatchesAt(toks, pos, Unparse(e), 0);
    case VariableExpr(name) =>
      MatchesAt(toks, pos, Unparse(e), 0);
    case BinaryExpr(op, l, r) =>
      BinaryRoundTrip(op, l, r, toks, pos);
    case CallExpr(callee, args) =>
      CallRoundTrip(callee, args, toks, pos);
  }

  /** Where the pieces of a printed binary node lie. */
  lemma {:induction false} BinaryLayout(op: char, l: Expr, r: Expr, toks: seq<Lexeme>, pos: nat)
    requires Matches(toks, pos, Unparse(BinaryExpr(op, l, r)))
    ensures |Unparse(BinaryExpr(op, l, r))| == |Unparse(l)| + |Unparse(r)| + 3
    ensures toks[pos] == Punct('(') && Matches(toks, pos + 1, Unparse(l))
    ensures Cur(toks, pos + 1 + |Unparse(l)|) == Punct(op)
    ensures Matches(toks, pos + 2 + |Unparse(l)|, Unparse(r))
    ensures Cur(toks, pos + 2 + |Unparse(l)| + |Unparse(r)|) == Punct(')')
  {
    var ul, ur := Unparse(l), Unparse(r);
    BinaryShape(op, l, r);
    MatchesCons(toks, pos, Punct('('), ul, [Punct(op)] + ur + [Punct(')')]);
    MatchesCons(toks, pos + 1 + |ul|, Punct(op), ur, [Punct(')')]);
    MatchesAt(toks, pos + 2 + |ul| + |ur|, [Punct(')')], 0);
  }

  lemma {:induction false} BinaryShape(op: char, l: Expr, r: Expr)
    ensures Unparse(BinaryExpr(op, l, r)) == [Punct('(')] + Unparse(l) + ([Punct(op)] + Unparse(r) + [Punct(')')])
  {
  }

  /** A lexeme, then `u`, then the rest. */
  lemma {:induction false} MatchesCons(toks: seq<Lexeme>, pos: nat, c: Lexeme, u: seq<Lexeme>, rest: seq<Lexeme>)
    requires Matches(toks, pos, [c] + u + rest)
    ensures pos + 1 + |u| + |rest| <= |toks| && toks[pos] == c
    ensures Matches(toks, pos + 1, u) && Matches(toks, pos + 1 + |u|, rest)
  {
    assert [c] + u + rest == [c] + (u + rest);
    MatchesSplit(toks, pos, [c], u + rest);
    MatchesSplit(toks, pos + 1, u, rest);
    MatchesAt(toks, pos, [c], 0);
  }

  lemma {:induction false} BinaryRoundTrip(op: char, l: Expr, r: Expr, toks: seq<Lexeme>, pos: nat)
    requires ValidOps(BinaryExpr(op, l, r)) && Matches(toks, pos, Unparse(BinaryExpr(op, l, r)))
    ensures var e := BinaryExpr(op, l, r);
      ParsePrimary(Corrected, toks, pos) == Some(Parsed(e, pos + |Unparse(e)|))
    decreases BinaryExpr(op, l, r), 1
  {
    var p1 := pos + 1 + |Unparse(l)|;
    var p2 := p1 + 1 + |Unparse(r)|;
    BinaryOperands(op, l, r, toks, pos, p1, p2);
    ParenBinaryStep(toks, pos, op, l, r, p1, p2);
  }

  /** The operands of a printed binary node read back, each up to the
      lexeme after it. */
  lemma {:induction false} BinaryOperands(op: char, l: Expr, r: Expr, toks: seq<Lexeme>, pos: nat, p1: nat, p2: nat)
    requires ValidOps(BinaryExpr(op, l, r)) && Matches(toks, pos, Unparse(BinaryExpr(op, l, r)))
    requires p1 == pos + 1 + |Unparse(l)| && p2 == p1 + 1 + |Unparse(r)|
    ensures p2 + 1 == pos + |Unparse(BinaryExpr(op, l, r))|
    ensures pos < |toks| && toks[pos] == Punct('(') && op in BinopPrecedence
    ensures ParsePrimary(Corrected, toks, pos + 1) == Some(Parsed(l, p1))
    ensures ParsePrimary(Corrected, toks, p1 + 1) == Some(Parsed(r, p2))
    ensures Cur(toks, p1) == Punct(op) && Cur(toks, p2) == Punct(')')
    decreases BinaryExpr(op, l, r), 0
  {
    BinaryParts(op, l, r, toks, pos, p1, p2);
    PrimaryRoundTrip(l, toks, pos + 1);
    PrimaryRoundTrip(r, toks, p1 + 1);
  }

  /** The operands of a printed binary node, each followed by a lexeme
      other than `(`. */
  lemma {:induction false} BinaryParts(op: char, l: Expr, r: Expr, toks: seq<Lexeme>, pos: nat, p1: nat, p2: nat)
    requires ValidOps(BinaryExpr(op, l, r)) && Matches(toks, pos, Unparse(BinaryExpr(op, l, r)))
    requires p1 == pos + 1 + |Unparse(l)| && p2 == p1 + 1 + |Unparse(r)|
    ensures p2 + 1 == pos + |Unparse(BinaryExpr(op, l, r))|
    ensures pos < |toks| && toks[pos] == Punct('(') && op in BinopPrecedence
    ensures ValidOps(l) && Matches(toks, pos + 1, Unparse(l)) && !Is(toks, p1, '(')
    ensures ValidOps(r) && Matches(toks, p1 + 1, Unparse(r)) && !Is(toks, p2, '(')
    ensures Cur(toks, p1) == Punct(op) && Cur(toks, p2) == Punct(')')
  {
    BinaryLayout(op, l, r, toks, pos);
    OperatorNotParen(op);
  }

  /** A binary operator is neither parenthesis. */
  lemma {:induction false} OperatorNotParen(op: char)
    requires op in BinopPrecedence
    ensures op != '(' && op != ')'
  {
  }

  lemma {:induction false} CallRoundTrip(callee: string, args: seq<Expr>, toks: seq<Lexeme>, pos: nat)
    requires ValidOps(CallExpr(callee, args)) && Matches(toks, pos, Unparse(CallExpr(callee, args)))
    ensures var e := CallExpr(callee, args);
      ParsePrimary(Corrected, toks, pos) == Some(Parsed(e, pos + |Unparse(e)|))
    decreases CallExpr(callee, args), 0
  {
    CallLayout(callee, args, toks, pos);
    var q := pos + 2 + |UnparseArgs(args)|;
    if args != [] {
      ArgsRoundTrip(args, toks, pos + 2);
    }
    CallStep(toks, pos, callee, args, q);
  }

  /** Where the pieces of a printed call lie. */
  lemma {:induction false} CallLayout(callee: string, args: seq<Expr>, toks: seq<Lexeme>, pos: nat)
    requires Matches(toks, pos, Unparse(CallExpr(callee, args)))
    ensures |Unparse(CallExpr(callee, args))| == |UnparseArgs(args)| + 3
    ensures toks[pos] == NameLexeme(callee) && toks[pos + 1] == Punct('(')
    ensures Matches(toks, pos + 2, UnparseArgs(args))
    ensures toks[pos + 2 + |UnparseArgs(args)|] == Punct(')')
    ensures args == [] ==> UnparseArgs(args) == []
    ensures args != [] ==> !Is(toks, pos + 2, ')')
  {
    var ua := UnparseArgs(args);
    assert Unparse(CallExpr(callee, args)) == [NameLexeme(callee), Punct('(')] + (ua + [Punct(')')]);
    MatchesSplit(toks, pos, [NameLexeme(callee), Punct('(')], ua + [Punct(')')]);
    MatchesSplit(toks, pos + 2, ua, [Punct(')')]);
    MatchesAt(toks, pos, [NameLexeme(callee), Punct('(')], 0);
    MatchesAt(toks, pos, [NameLexeme(callee), Punct('(')], 1);
    MatchesAt(toks, pos + 2 + |ua|, [Punct(')')], 0);
    if args != [] {
      UnparseStart(args[0]);
      assert ua[0] == Unparse(args[0])[0];
      MatchesAt(toks, pos + 2, ua, 0);
    }
  }

  /** ParseExpression reads back the printed form when a closing lexeme
      follows it. */
  lemma {:induction false} ExpressionRoundTrip(e: Expr, toks: seq<Lexeme>, pos: nat)
    requires ValidOps(e) && Matches(toks, pos, Unparse(e))
    requires Closes(Cur(toks, pos + |Unparse(e)|))
    ensures ParseExpression(Corrected, toks, pos) == Some(Parsed(e, pos + |Unparse(e)|))
    decreases e, 3
  {
    PrimaryRoundTrip(e, toks, pos);
  }

  /** The argument loop reads back a non-empty printed argument list up to
      the `)` that closes it. */
  lemma {:induction false} ArgsRoundTrip(args: seq<Expr>, toks: seq<Lexeme>, pos: nat)
    requires args != [] && (forall a :: a in args ==> ValidOps(a))
    requires Matches(toks, pos, UnparseArgs(args))
    requires Cur(toks, pos + |UnparseArgs(args)|) == Punct(')')
    ensures ParseArgs(Corrected, toks, pos) == Some(Parsed(args, pos + |UnparseArgs(args)|))
    decreases args, 2
  {
    if |args| == 1 {
      ExpressionRoundTrip(args[0], toks, pos);
      assert [args[0]] == args;
    } else {
      ArgsConsRoundTrip(args, toks, pos);
    }
  }

  lemma {:induction false} ArgsConsRoundTrip(args: seq<Expr>, toks: seq<Lexeme>, pos: nat)
    requires |args| > 1 && (forall a :: a in args ==> ValidOps(a))
    requires Matches(toks, pos, UnparseArgs(args))
    requires Cur(toks, pos + |UnparseArgs(args)|) == Punct(')')
    ensures ParseArgs(Corrected, toks, pos) == Some(Parsed(args, pos + |UnparseArgs(args)|))
    decreases args, 1
  {
    var p := pos + |Unparse(args[0])|;
    ArgsHead(args, toks, pos);
    ArgsRoundTrip(args[1..], toks, p + 1);
    ArgsStep(toks, pos, args[0], p, args[1..], pos + |UnparseArgs(args)|);
    assert [args[0]] + args[1..] == args;
  }

  /** The first of two or more printed arguments, read back up to its `,`. */
  lemma {:induction false} ArgsHead(args: seq<Expr>, toks: seq<Lexeme>, pos: nat)
    requires |args| > 1 && (forall a :: a in args ==> ValidOps(a))
    requires Matches(toks, pos, UnparseArgs(args))
    ensures forall a :: a in args[1..] ==> ValidOps(a)
    ensures |UnparseArgs(args)| == |Unparse(args[0])| + 1 + |UnparseArgs(args[1..])|
    ensures ParseExpression(Corrected, toks, pos) == Some(Parsed(args[0], pos + |Unparse(args[0])|))
    ensures Cur(toks, pos + |Unparse(args[0])|) == Punct(',')
    ensures Matches(toks, pos + |Unparse(args[0])| + 1, UnparseArgs(args[1..]))
    decreases args, 0
  {
    ArgsLayout(args, toks, pos);
    ExpressionRoundTrip(args[0], toks, pos);
  }

  /** Where the pieces of a printed argument list of two or more lie: the
      first argument, a `,`, then the printed rest. */
  lemma {:induction false} ArgsLayout(args: seq<Expr>, toks: seq<Lexeme>, pos: nat)
    requires |args| > 1 && (forall a :: a in args ==> ValidOps(a))
    requires Matches(toks, pos, UnparseArgs(args))
    ensures ValidOps(args[0]) && forall a :: a in args[1..] ==> ValidOps(a)
    ensures |UnparseArgs(args)| == |Unparse(args[0])| + 1 + |UnparseArgs(args[1..])|
    ensures Matches(toks, pos, Unparse(args[0]))
    ensures Cur(toks, pos + |Unparse(args[0])|) == Punct(',')
    ensures Matches(toks, pos + |Unparse(args[0])| + 1, UnparseArgs(args[1..]))
  {
    assert args[0] in args;
    assert forall a :: a in args[1..] ==> a in args;
    CommaLayout(Unparse(args[0]), UnparseArgs(args[1..]), toks, pos);
  }

  lemma {:induction false} CommaLayout(u0: seq<Lexeme>, rest: seq<Lexeme>, toks: seq<Lexeme>, pos: nat)
    requires Matches(toks, pos, u0 + [Punct(',')] + rest)
    ensures Matches(toks, pos, u0)
    ensures Cur(toks, pos + |u0|) == Punct(',')
    ensures Matches(toks, pos + |u0| + 1, rest)
  {
    assert u0 + [Punct(',')] + rest == u0 + ([Punct(',')] + rest);
    MatchesSplit(toks, pos, u0, [Punct(',')] + rest);
    MatchesSplit(toks, pos + |u0|, [Punct(',')], rest);
    MatchesAt(toks, pos + |u0|, [Punct(',')], 0);
  }

  /** A top-level expression reads back as the anonymous function whose body
      is the expression. */
  lemma {:induction false} TopLevelRoundTrip(e: Expr, toks: seq<Lexeme>, pos: nat)
    requires ValidOps(e) && Matches(toks, pos, Unparse(e))
    requires Closes(Cur(toks, pos + |Unparse(e)|))
    ensures ParseTopLevelExpr(Corrected, toks, pos) == Some(Parsed(Function(Anonymous, e), pos + |Unparse(e)|))
  {
    ExpressionRoundTrip(e, toks, pos);
  }

  // Prototypes, definitions and externs.

  function NameLexemes(names: seq<string>): (r: seq<Lexeme>)
    ensures |r| == |names|
    ensures forall i :: 0 <= i < |names| ==> r[i] == NameLexeme(names[i])
  {
    seq(|names|, i requires 0 <= i < |names| => NameLexeme(names[i]))
  }

  /** A prototype printed as its name, `(`, the parameter names and `)`. */
  function UnparsePrototype(p: Prototype): seq<Lexeme> {
    [NameLexeme(p.name), Punct('(')] + NameLexemes(p.args) + [Punct(')')]
  }

  function KeywordLexeme(kind: TokenType, text: string): Lexeme {
    Lexeme(MakeToken(kind), text)
  }

  function UnparseDefinition(f: Function): seq<Lexeme> {
    [KeywordLexeme(TokDef, "def")] + UnparsePrototype(f.proto) + Unparse(f.body)
  }

  function UnparseExtern(p: Prototype): seq<Lexeme> {
    [KeywordLexeme(TokExtern, "extern")] + UnparsePrototype(p)
  }

  /** The parameter loop reads back a printed run of names that a
      non-identifier ends. */
  lemma {:induction false} ParamsRoundTrip(names: seq<string>, toks: seq<Lexeme>, pos: nat)
    requires Matches(toks, pos, NameLexemes(names))
    requires Cur(toks, pos + |names|).tok.kind != TokIdentifier
    ensures ParseParams(toks, pos) == Parsed(names, pos + |names|)
    decreases |names|
  {
    if names != [] {
      MatchesAt(toks, pos, NameLexemes(names), 0);
      assert NameLexemes(names) == [NameLexeme(names[0])] + NameLexemes(names[1..]);
      MatchesSplit(toks, pos, [NameLexeme(names[0])], NameLexemes(names[1..]));
      ParamsRoundTrip(names[1..], toks, pos + 1);
      assert [names[0]] + names[1..] == names;
    }
  }

  lemma {:induction false} PrototypeLayout(p: Prototype, toks: seq<Lexeme>, pos: nat)
    requires Matches(toks, pos, UnparsePrototype(p))
    ensures |UnparsePrototype(p)| == |p.args| + 3
    ensures toks[pos] == NameLexeme(p.name) && toks[pos + 1] == Punct('(')
    ensures Matches(toks, pos + 2, NameLexemes(p.args))
    ensures toks[pos + 2 + |p.args|] == Punct(')')
  {
    var head, names := [NameLexeme(p.name), Punct('(')], NameLexemes(p.args);
    assert UnparsePrototype(p) == head + (names + [Punct(')')]);
    MatchesSplit(toks, pos, head, names + [Punct(')')]);
    MatchesSplit(toks, pos + 2, names, [Punct(')')]);
    MatchesAt(toks, pos, head, 0);
    MatchesAt(toks, pos, head, 1);
    MatchesAt(toks, pos + 2 + |names|, [Punct(')')], 0);
  }

  /** ParsePrototype reads back any printed prototype. */
  lemma {:induction false} PrototypeRoundTrip(p: Prototype, toks: seq<Lexeme>, pos: nat)
    requires Matches(toks, pos, UnparsePrototype(p))
    ensures ParsePrototype(toks, pos) == Some(Parsed(p, pos + |UnparsePrototype(p)|))
  {
    PrototypeLayout(p, toks, pos);
    ParamsRoundTrip(p.args, toks, pos + 2);
  }

  /** ParseDefinition reads back a printed definition that a closing lexeme
      follows. */
  lemma {:induction false} DefinitionRoundTrip(f: Function, toks: seq<Lexeme>, pos: nat)
    requires ValidOps(f.body) && Matches(toks, pos, UnparseDefinition(f))
    requires Closes(Cur(toks, pos + |UnparseDefinition(f)|))
    ensures ParseDefinition(Corrected, toks, pos) == Some(Parsed(f, pos + |UnparseDefinition(f)|))
  {
    var p := pos + 1 + |UnparsePrototype(f.proto)|;
    var q := pos + |UnparseDefinition(f)|;
    DefinitionLayout(f, toks, pos);
    assert p + |Unparse(f.body)| == q;
    PrototypeRoundTrip(f.proto, toks, pos + 1);
    ExpressionRoundTrip(f.body, toks, p);
    DefinitionStep(toks, pos, f.proto, p, f.body, q);
  }

  lemma {:induction false} DefinitionLayout(f: Function, toks: seq<Lexeme>, pos: nat)
    requires Matches(toks, pos, UnparseDefinition(f))
    ensures |UnparseDefinition(f)| == 1 + |UnparsePrototype(f.proto)| + |Unparse(f.body)|
    ensures Matches(toks, pos + 1, UnparsePrototype(f.proto))
    ensures Matches(toks, pos + 1 + |UnparsePrototype(f.proto)|, Unparse(f.body))
  {
    var up := UnparsePrototype(f.proto);
    assert UnparseDefinition(f) == [KeywordLexeme(TokDef, "def")] + (up + Unparse(f.body));
    MatchesSplit(toks, pos, [KeywordLexeme(TokDef, "def")], up + Unparse(f.body));
    MatchesSplit(toks, pos + 1, up, Unparse(f.body));
  }

  /** ParseExtern reads back a printed extern declaration. */
  lemma {:induction false} ExternRoundTrip(p: Prototype, toks: seq<Lexeme>, pos: nat)
    requires Matches(toks, pos, UnparseExtern(p))
    ensures ParseExtern(toks, pos) == Some(Parsed(p, pos + |UnparseExtern(p)|))
  {
    MatchesSplit(toks, pos, [KeywordLexeme(TokExtern, "extern")], UnparsePrototype(p));
    PrototypeRoundTrip(p, toks, pos + 1);
  }

  // Precedence and associativity.

  /** One link of a chain: an operator and the number after it. */
  datatype Link = Link(op: char, operand: string)

  /** `x0 o1 x1 o2 x2 ...` as lexemes, numbers only, after the first number. */
  function ChainLexemes(tail: seq<Link>): seq<Lexeme> {
    if |tail| == 0 then []
    else [Punct(tail[0].op), NumberLexeme(tail[0].operand)] + ChainLexemes(tail[1..])
  }

  /** The left-nested tree of a chain: `((x0 o1 x1) o2 x2) ...`. */
  function FoldLeft(acc: Expr, tail: seq<Link>): Expr
    decreases |tail|
  {
    if |tail| == 0 then acc
    else FoldLeft(BinaryExpr(tail[0].op, acc, NumberExpr(tail[0].operand)), tail[1..])
  }

  /** Every operator of the chain has precedence `prec`. */
  predicate SamePrecedence(tail: seq<Link>, prec: int) {
    forall i :: 0 <= i < |tail| ==> tail[i].op in BinopPrecedence && BinopPrecedence[tail[i].op] == prec
  }

  /** One turn of the loop: an operator and a number, with no tighter
      operator after it, are folded into the left operand. */
  lemma {:induction false} ChainStep(toks: seq<Lexeme>, acc: Expr, pos: nat, op: char, x: string)
    requires pos + 2 <= |toks| && toks[pos] == Punct(op) && toks[pos + 1] == NumberLexeme(x)
    requires op in BinopPrecedence
    requires GetTokPrecedence(Cur(toks, pos + 2).tok) <= BinopPrecedence[op]
    ensures ParseBinOpRHS(Corrected, toks, 0, acc, pos) == ParseBinOpRHS(Corrected, toks, 0, BinaryExpr(op, acc, NumberExpr(x)), pos + 2)
  {
  }

  lemma {:induction false} ChainRoundTrip(acc: Expr, tail: seq<Link>, prec: int, toks: seq<Lexeme>, pos: nat)
    requires SamePrecedence(tail, prec)
    requires Matches(toks, pos, ChainLexemes(tail)) && |ChainLexemes(tail)| == 2 * |tail|
    requires GetTokPrecedence(Cur(toks, pos + 2 * |tail|).tok) < 0
    ensures ParseBinOpRHS(Corrected, toks, 0, acc, pos) == Some(Parsed(FoldLeft(acc, tail), pos + 2 * |tail|))
    decreases |tail|
  {
    if |tail| > 0 {
      var op, x := tail[0].op, tail[0].operand;
      ChainLayout(tail, prec, toks, pos);
      ChainStep(toks, acc, pos, op, x);
      ChainRoundTrip(BinaryExpr(op, acc, NumberExpr(x)), tail[1..], prec, toks, pos + 2);
    }
  }

  /** Where the pieces of a chain lie: an operator, a number, the rest. */
  lemma {:induction false} ChainLayout(tail: seq<Link>, prec: int, toks: seq<Lexeme>, pos: nat)
    requires |tail| > 0 && SamePrecedence(tail, prec)
    requires Matches(toks, pos, ChainLexemes(tail)) && |ChainLexemes(tail)| == 2 * |tail|
    requires GetTokPrecedence(Cur(toks, pos + 2 * |tail|).tok) < 0
    ensures toks[pos] == Punct(tail[0].op) && toks[pos + 1] == NumberLexeme(tail[0].operand)
    ensures tail[0].op in BinopPrecedence
    ensures GetTokPrecedence(Cur(toks, pos + 2).tok) <= BinopPrecedence[tail[0].op]
    ensures SamePrecedence(tail[1..], prec)
    ensures Matches(toks, pos + 2, ChainLexemes(tail[1..])) && |ChainLexemes(tail[1..])| == 2 * |tail[1..]|
  {
    var op, x := tail[0].op, tail[0].operand;
    var rest := ChainLexemes(tail[1..]);
    assert ChainLexemes(tail) == [Punct(op), NumberLexeme(x)] + rest;
    MatchesSplit(toks, pos, [Punct(op), NumberLexeme(x)], rest);
    MatchesAt(toks, pos, [Punct(op), NumberLexeme(x)], 0);
    MatchesAt(toks, pos, [Punct(op), NumberLexeme(x)], 1);
    assert SamePrecedence(tail[1..], prec) by {
      forall i | 0 <= i < |tail[1..]| ensures tail[1..][i].op in BinopPrecedence && BinopPrecedence[tail[1..][i].op] == prec {
        assert tail[1..][i] == tail[i + 1];
      }
    }
    if |tail| > 1 {
      MatchesAt(toks, pos + 2, rest, 0);
      assert rest[0] == Punct(tail[1..][0].op);
    }
  }

  lemma {:induction false} ChainLength(tail: seq<Link>)
    ensures |ChainLexemes(tail)| == 2 * |tail|
  {
    if |tail| > 0 {
      ChainLength(tail[1..]);
    }
  }

  /** Operators of equal precedence associate to the left: a chain of
      numbers joined by them parses as the left-nested tree. */
  lemma {:induction false} LeftAssociative(x0: string, tail: seq<Link>, prec: int, toks: seq<Lexeme>, pos: nat)
    requires SamePrecedence(tail, prec)
    requires Matches(toks, pos, [NumberLexeme(x0)] + ChainLexemes(tail))
    requires GetTokPrecedence(Cur(toks, pos + 1 + 2 * |tail|).tok) < 0
    ensures ParseExpression(Corrected, toks, pos) == Some(Parsed(FoldLeft(NumberExpr(x0), tail), pos + 1 + 2 * |tail|))
  {
    ChainStart(x0, tail, toks, pos);
    PrimaryThenRHS(toks, pos, NumberExpr(x0), pos + 1);
    ChainRoundTrip(NumberExpr(x0), tail, prec, toks, pos + 1);
  }

  /** The first number of a chain, then its links. */
  lemma {:induction false} ChainStart(x0: string, tail: seq<Link>, toks: seq<Lexeme>, pos: nat)
    requires Matches(toks, pos, [NumberLexeme(x0)] + ChainLexemes(tail))
    ensures ParsePrimary(Corrected, toks, pos) == Some(Parsed(NumberExpr(x0), pos + 1))
    ensures Matches(toks, pos + 1, ChainLexemes(tail)) && |ChainLexemes(tail)| == 2 * |tail|
  {
    ChainLength(tail);
    MatchesSplit(toks, pos, [NumberLexeme(x0)], ChainLexemes(tail));
    MatchesAt(toks, pos, [NumberLexeme(x0)], 0);
  }

  /** Three numbers and two operators: the first operator takes the middle
      number exactly when it binds at least as tightly as the second. */
  lemma {:induction false} ThreeOperands(x: string, o1: char, y: string, o2: char, z: string, toks: seq<Lexeme>, pos: nat)
    requires o1 in BinopPrecedence && o2 in BinopPrecedence
    requires Matches(toks, pos, [NumberLexeme(x), Punct(o1), NumberLexeme(y), Punct(o2), NumberLexeme(z)])
    requires GetTokPrecedence(Cur(toks, pos + 5).tok) < 0
    ensures ParseExpression(Corrected, toks, pos) == Some(Parsed(
      if BinopPrecedence[o1] >= BinopPrecedence[o2]
      then BinaryExpr(o2, BinaryExpr(o1, NumberExpr(x), NumberExpr(y)), NumberExpr(z))
      else BinaryExpr(o1, NumberExpr(x), BinaryExpr(o2, NumberExpr(y), NumberExpr(z))),
      pos + 5))
  {
    ThreeLayout(x, o1, y, o2, z, toks, pos);
    if BinopPrecedence[o1] < BinopPrecedence[o2] {
      ThreeClimb(x, o1, y, o2, z, toks, pos);
    } else {
      ThreeFold(x, o1, y, o2, z, toks, pos);
    }
  }

  /** The three numbers parse as primaries between the two operators. */
  lemma {:induction false} ThreeLayout(x: string, o1: char, y: string, o2: char, z: string, toks: seq<Lexeme>, pos: nat)
    requires o1 in BinopPrecedence && o2 in BinopPrecedence
    requires Matches(toks, pos, [NumberLexeme(x), Punct(o1), NumberLexeme(y), Punct(o2), NumberLexeme(z)])
    ensures pos + 5 <= |toks|
    ensures ParsePrimary(Corrected, toks, pos) == Some(Parsed(NumberExpr(x), pos + 1))
    ensures ParsePrimary(Corrected, toks, pos + 2) == Some(Parsed(NumberExpr(y), pos + 3))
    ensures ParsePrimary(Corrected, toks, pos + 4) == Some(Parsed(NumberExpr(z), pos + 5))
    ensures toks[pos + 1] == Punct(o1) && Cur(toks, pos + 1) == Punct(o1)
    ensures toks[pos + 3] == Punct(o2) && Cur(toks, pos + 3) == Punct(o2)
    ensures GetTokPrecedence(Punct(o1).tok) == BinopPrecedence[o1] && Punct(o1).tok.value as char == o1
    ensures GetTokPrecedence(Punct(o2).tok) == BinopPrecedence[o2] && Punct(o2).tok.value as char == o2
  {
    var w := [NumberLexeme(x), Punct(o1), NumberLexeme(y), Punct(o2), NumberLexeme(z)];
    MatchesAt(toks, pos, w, 0);
    MatchesAt(toks, pos, w, 1);
    MatchesAt(toks, pos, w, 2);
    MatchesAt(toks, pos, w, 3);
    MatchesAt(toks, pos, w, 4);
  }

  /** `x o1 y o2 z` with `o2` binding more tightly: `y o2 z` is grouped first. */
  lemma {:induction false} ThreeClimb(x: string, o1: char, y: string, o2: char, z: string, toks: seq<Lexeme>, pos: nat)
    requires o1 in BinopPrecedence && o2 in BinopPrecedence && BinopPrecedence[o1] < BinopPrecedence[o2]
    requires pos + 5 <= |toks|
    requires ParsePrimary(Corrected, toks, pos) == Some(Parsed(NumberExpr(x), pos + 1))
    requires ParsePrimary(Corrected, toks, pos + 2) == Some(Parsed(NumberExpr(y), pos + 3))
    requires ParsePrimary(Corrected, toks, pos + 4) == Some(Parsed(NumberExpr(z), pos + 5))
    requires toks[pos + 1] == Punct(o1) && Cur(toks, pos + 1) == Punct(o1)
    requires toks[pos + 3] == Punct(o2) && Cur(toks, pos + 3) == Punct(o2)
    requires GetTokPrecedence(Punct(o1).tok) == BinopPrecedence[o1] && Punct(o1).tok.value as char == o1
    requires GetTokPrecedence(Punct(o2).tok) == BinopPrecedence[o2] && Punct(o2).tok.value as char == o2
    requires GetTokPrecedence(Cur(toks, pos + 5).tok) < 0
    ensures ParseExpression(Corrected, toks, pos) ==
      Some(Parsed(BinaryExpr(o1, NumberExpr(x), BinaryExpr(o2, NumberExpr(y), NumberExpr(z))), pos + 5))
  {
    var X, Y, Z := NumberExpr(x), NumberExpr(y), NumberExpr(z);
    var p2 := BinopPrecedence[o1] + 1;
    PrimaryThenRHS(toks, pos, X, pos + 1);
    FoldStep(Corrected, toks, p2, Y, pos + 3, Z, pos + 5);
    StopAt(Corrected, toks, p2, BinaryExpr(o2, Y, Z), pos + 5);
    ClimbStep(Corrected, toks, 0, X, pos + 1, Y, pos + 3, BinaryExpr(o2, Y, Z), pos + 5);
    StopAt(Corrected, toks, 0, BinaryExpr(o1, X, BinaryExpr(o2, Y, Z)), pos + 5);
  }

  /** `x o1 y o2 z` with `o1` binding at least as tightly: `x o1 y` is grouped first. */
  lemma {:induction false} ThreeFold(x: string, o1: char, y: string, o2: char, z: string, toks: seq<Lexeme>, pos: nat)
    requires o1 in BinopPrecedence && o2 in BinopPrecedence && BinopPrecedence[o1] >= BinopPrecedence[o2]
    requires pos + 5 <= |toks|
    requires ParsePrimary(Corrected, toks, pos) == Some(Parsed(NumberExpr(x), pos + 1))
    requires ParsePrimary(Corrected, toks, pos + 2) == Some(Parsed(NumberExpr(y), pos + 3))
    requires ParsePrimary(Corrected, toks, pos + 4) == Some(Parsed(NumberExpr(z), pos + 5))
    requires toks[pos + 1] == Punct(o1) && Cur(toks, pos + 1) == Punct(o1)
    requires toks[pos + 3] == Punct(o2) && Cur(toks, pos + 3) == Punct(o2)
    requires GetTokPrecedence(Punct(o1).tok) == BinopPrecedence[o1] && Punct(o1).tok.value as char == o1
    requires GetTokPrecedence(Punct(o2).tok) == BinopPrecedence[o2] && Punct(o2).tok.value as char == o2
    requires GetTokPrecedence(Cur(toks, pos + 5).tok) < 0
    ensures ParseExpression(Corrected, toks, pos) ==
      Some(Parsed(BinaryExpr(o2, BinaryExpr(o1, NumberExpr(x), NumberExpr(y)), NumberExpr(z)), pos + 5))
  {
    var X, Y, Z := NumberExpr(x), NumberExpr(y), NumberExpr(z);
    PrimaryThenRHS(toks, pos, X, pos + 1);
    FoldStep(Corrected, toks, 0, X, pos + 1, Y, pos + 3);
    FoldStep(Corrected, toks, 0, BinaryExpr(o1, X, Y), pos + 3, Z, pos + 5);
    StopAt(Corrected, toks, 0, BinaryExpr(o2, BinaryExpr(o1, X, Y), Z), pos + 5);
  }

  // Errors.

  /** A lexeme that ends an expression but neither closes nor continues an
      argument list: a number, a name, a `;`, an operator outside the table,
      or the end of input. */
  predicate BadSeparator(l: Lexeme) {
    Closes(l) && l.tok.value != ')' as int && l.tok.value != ',' as int
  }

  /** A printed argument list followed by a lexeme that is neither `,` nor
      `)` is an error, whether the input stops there (`foo(1, 2`) or goes on
      with something else (`foo(1 2)`, `foo(1;`). */
  lemma {:induction false} BrokenArgs(args: seq<Expr>, toks: seq<Lexeme>, pos: nat)
    requires args != [] && (forall a :: a in args ==> ValidOps(a))
    requires Matches(toks, pos, UnparseArgs(args)) && BadSeparator(Cur(toks, pos + |UnparseArgs(args)|))
    ensures ParseArgs(Corrected, toks, pos) == None
    decreases args, 1
  {
    if |args| == 1 {
      BrokenLastArg(args[0], toks, pos);
    } else {
      BrokenNextArgs(args, toks, pos);
    }
  }

  /** The last argument is followed by neither `,` nor `)`. */
  lemma {:induction false} BrokenLastArg(a: Expr, toks: seq<Lexeme>, pos: nat)
    requires ValidOps(a) && Matches(toks, pos, Unparse(a)) && BadSeparator(Cur(toks, pos + |Unparse(a)|))
    ensures ParseArgs(Corrected, toks, pos) == None
  {
    ExpressionRoundTrip(a, toks, pos);
  }

  /** An argument, `,`, then an argument list that goes wrong. */
  lemma {:induction false} BrokenNextArgs(args: seq<Expr>, toks: seq<Lexeme>, pos: nat)
    requires |args| > 1 && (forall a :: a in args ==> ValidOps(a))
    requires Matches(toks, pos, UnparseArgs(args)) && BadSeparator(Cur(toks, pos + |UnparseArgs(args)|))
    ensures ParseArgs(Corrected, toks, pos) == None
    decreases args, 0
  {
    var p := pos + |Unparse(args[0])|;
    ArgsLayout(args, toks, pos);
    ExpressionRoundTrip(args[0], toks, pos);
    BrokenArgs(args[1..], toks, p + 1);
    ArgsFailStep(toks, pos, args[0], p);
  }

  /** An argument followed by `,` and an argument list that fails. */
  lemma {:induction false} ArgsFailStep(toks: seq<Lexeme>, pos: nat, a: Expr, p: nat)
    requires pos <= |toks|
    requires ParseExpression(Corrected, toks, pos) == Some(Parsed(a, p))
    requires Cur(toks, p) == Punct(',')
    requires ParseArgs(Corrected, toks, p + 1) == None
    ensures ParseArgs(Corrected, toks, pos) == None
  {
  }

  /** So a call whose printed arguments are followed by neither `,` nor `)`
      is an error: the expression that starts at the callee fails. */
  lemma {:induction false} BrokenCall(callee: string, args: seq<Expr>, toks: seq<Lexeme>, pos: nat)
    requires args != [] && (forall a :: a in args ==> ValidOps(a))
    requires Matches(toks, pos, [NameLexeme(callee), Punct('(')] + UnparseArgs(args))
    requires BadSeparator(Cur(toks, pos + 2 + |UnparseArgs(args)|))
    ensures ParseExpression(Corrected, toks, pos) == None
  {
    var head, ua := [NameLexeme(callee), Punct('(')], UnparseArgs(args);
    MatchesSplit(toks, pos, head, ua);
    MatchesAt(toks, pos, head, 0);
    MatchesAt(toks, pos, head, 1);
    UnparseStart(args[0]);
    assert ua[0] == Unparse(args[0])[0];
    MatchesAt(toks, pos + 2, ua, 0);
    BrokenArgs(args, toks, pos + 2);
    assert ParseIdentifierExpr(Corrected, toks, pos) == None;
  }

  /** In particular a call whose `)` never comes before the input ends, such
      as `foo(1, 2`, is an error. */
  lemma {:induction false} UnclosedCall(callee: string, args: seq<Expr>, toks: seq<Lexeme>, pos: nat)
    requires args != [] && (forall a :: a in args ==> ValidOps(a))
    requires Matches(toks, pos, [NameLexeme(callee), Punct('(')] + UnparseArgs(args))
    requires pos + 2 + |UnparseArgs(args)| == |toks|
    ensures ParseExpression(Corrected, toks, pos) == None
  {
    BrokenCall(callee, args, toks, pos);
  }

  /** A `(` and a printed expression followed by a lexeme that neither
      continues the expression nor is `)`, such as `(1 + 2;` or an input that
      ends after `(1`, is an error under the corrected switch; as written
      the `(` never starts a primary at all. */
  lemma {:induction false} UnclosedParen(e: Expr, toks: seq<Lexeme>, pos: nat)
    requires ValidOps(e) && Matches(toks, pos, [Punct('(')] + Unparse(e))
    requires Closes(Cur(toks, pos + 1 + |Unparse(e)|)) && !Is(toks, pos + 1 + |Unparse(e)|, ')')
    ensures ParsePrimary(Corrected, toks, pos) == None
    ensures ParsePrimary(AsWritten, toks, pos) == None
    ensures ParseExpression(Corrected, toks, pos) == None
    ensures ParseExpression(AsWritten, toks, pos) == None
  {
    MatchesSplit(toks, pos, [Punct('(')], Unparse(e));
    MatchesAt(toks, pos, [Punct('(')], 0);
    ExpressionRoundTrip(e, toks, pos + 1);
    assert ParseParenExpr(Corrected, toks, pos) == None;
  }

  /** A call whose first argument is not an expression, such as `f(+)` or
      `f(;`, is an error: the argument loop fails and so does the call. */
  lemma {:induction false} BadArgument(v: Variant, callee: string, toks: seq<Lexeme>, pos: nat)
    requires pos + 2 <= |toks| && toks[pos] == NameLexeme(callee) && toks[pos + 1] == Punct('(')
    requires ParseExpression(v, toks, pos + 2) == None && !Is(toks, pos + 2, ')')
    ensures ParseArgs(v, toks, pos + 2) == None
    ensures ParsePrimary(v, toks, pos) == None
    ensures ParseExpression(v, toks, pos) == None
  {
    assert ParseIdentifierExpr(v, toks, pos) == None;
  }

  /** A later argument that is not an expression, such as the `+` of
      `f(1, +)`, is an error too. */
  lemma {:induction false} BadNextArgument(v: Variant, toks: seq<Lexeme>, pos: nat, a: Expr, p: nat)
    requires pos <= |toks|
    requires ParseExpression(v, toks, pos) == Some(Parsed(a, p)) && Cur(toks, p) == Punct(',')
    requires ParseExpression(v, toks, p + 1) == None
    ensures ParseArgs(v, toks, pos) == None
  {
    assert ParseArgs(v, toks, p + 1) == None;
  }

  /** The instance `f(+)`: an operator other than `(` starts no operand. */
  lemma {:induction false} CallOfOperator(v: Variant, f: string)
    ensures ParseExpression(v, [NameLexeme(f), Punct('('), Punct('+'), Punct(')')], 0) == None
  {
    var toks := [NameLexeme(f), Punct('('), Punct('+'), Punct(')')];
    assert Dispatch(v, Cur(toks, 2).tok) == NoPrimary;
    BadArgument(v, f, toks, 0);
  }
}

=== FILE: tokens.dfy ===
/** Tokens as produced by the lexer and consumed by the parser (lexer.h). */
module Tokens {

  /** The token kinds, in the order lexer.h declares them. */
  datatype TokenType =
    | TokEof
    | TokDef
    | TokExtern
    | TokIdentifier
    | TokNumber
    | TokOp
    | TokUndef
    | TokLp
    | TokSc

  /** A token is a kind plus an int payload. The lexer puts the character
      code of an operator in the payload and leaves -1 everywhere else. */
  datatype Token = Token(kind: TokenType, value: int)

  /** The Token constructor, with its default arguments (undefined kind, -1). */
  function MakeToken(t: TokenType := TokUndef, v: int := -1): (r: Token)
    ensures r.kind == t && r.value == v
  {
    Token(t, v)
  }

  /** The setter `type(t)`: replaces the kind and nothing else. */
  function SetType(tok: Token, t: TokenType): (r: Token)
    ensures r.kind == t
    ensures r.value == tok.value
  {
    tok.(kind := t)
  }

  /** The setter `value(v)`: replaces the payload and nothing else. */
  function SetValue(tok: Token, v: int): (r: Token)
    ensures r.value == v
    ensures r.kind == tok.kind
  {
    tok.(value := v)
  }

  /** A default-constructed token is undefined with payload -1, and setting
      both fields of any token, in either order, gives the token constructed
      from the two new values: the two fields are independent. */
  lemma {:induction false} SettersBuildToken(tok: Token, t: TokenType, v: int)
    ensures MakeToken().kind == TokUndef && MakeToken().value == -1
    ensures SetValue(SetType(tok, t), v) == MakeToken(t, v)
    ensures SetType(SetValue(tok, v), t) == MakeToken(t, v)
  {
  }

  /** What the parser reads at one position: the token and the text the
      lexer left in its identifier buffer or numeric buffer for it (the
      globals IdentifierStr and NumVal, read through getIdentifierStr and
      getNumVal while that token is the current one). */
  datatype Lexeme = Lexeme(tok: Token, text: string)

  /** The token the lexer returns at end of input, forever after. */
  const EofLexeme: Lexeme := Lexeme(MakeToken(TokEof), [])
}

=== FILE: variants.dfy ===
/** The parser as written against the parser with the corrected switch of
    ParsePrimary. The two differ only at an operator token `(` in primary
    position, where the one as written reports an error. So wherever the
    parser as written succeeds, the corrected one returns the same node; and
    on input whose only parentheses are those of calls, the two agree. */
module Variants {
  import opened Wrappers
  import opened Tokens
  import opened Ast
  import opened Parser

  // Wherever the parser as written succeeds, the corrected one agrees.

  lemma {:induction false} PrimaryRefines(toks: seq<Lexeme>, pos: nat)
    requires pos <= |toks|
    ensures ParsePrimary(AsWritten, toks, pos).Some? ==>
              ParsePrimary(AsWritten, toks, pos) == ParsePrimary(Corrected, toks, pos)
    decreases |toks| - pos, 2
  {
    match Cur(toks, pos).tok.kind
    case TokIdentifier => IdentifierRefines(toks, pos);
    case TokLp => ParenRefines(toks, pos);
    case _ =>
  }

  lemma {:induction false} ParenRefines(toks: seq<Lexeme>, pos: nat)
    requires pos <= |toks| && Cur(toks, pos).tok.kind == TokLp
    ensures ParseParenExpr(AsWritten, toks, pos).Some? ==>
              ParseParenExpr(AsWritten, toks, pos) == ParseParenExpr(Corrected, toks, pos)
    decreases |toks| - pos, 1
  {
    ExpressionRefines(toks, pos + 1);
  }

  lemma {:induction false} IdentifierRefines(toks: seq<Lexeme>, pos: nat)
    requires pos <= |toks| && Cur(toks, pos).tok.kind == TokIdentifier
    ensures ParseIdentifierExpr(AsWritten, toks, pos).Some? ==>
              ParseIdentifierExpr(AsWritten, toks, pos) == ParseIdentifierExpr(Corrected, toks, pos)
    decreases |toks| - pos, 1
  {
    if Is(toks, pos + 1, '(') && !Is(toks, pos + 2, ')') {
      ArgsRefines(toks, pos + 2);
    }
  }

  lemma {:induction false} ArgsRefines(toks: seq<Lexeme>, pos: nat)
    requires pos <= |toks|
    ensures ParseArgs(AsWritten, toks, pos).Some? ==>
              ParseArgs(AsWritten, toks, pos) == ParseArgs(Corrected, toks, pos)
    decreases |toks| - pos, 4
  {
    ExpressionRefines(toks, pos);
    if ParseExpression(AsWritten, toks, pos).Some? {
      var Parsed(arg, p) := ParseExpression(AsWritten, toks, pos).value;
      assert ParseExpression(Corrected, toks, pos) == Some(Parsed(arg, p));
      if !Is(toks, p, ')') && Is(toks, p, ',') {
        ArgsRefines(toks, p + 1);
        if ParseArgs(AsWritten, toks, p + 1).Some? {
          var Parsed(args, q) := ParseArgs(AsWritten, toks, p + 1).value;
          assert ParseArgs(Corrected, toks, p + 1) == Some(Parsed(args, q));
          assert ParseArgs(AsWritten, toks, pos) == Some(Parsed([arg] + args, q));
          assert ParseArgs(Corrected, toks, pos) == Some(Parsed([arg] + args, q));
        }
      }
    }
  }

  lemma {:induction false} ExpressionRefines(toks: seq<Lexeme>, pos: nat)
    requires pos <= |toks|
    ensures ParseExpression(AsWritten, toks, pos).Some? ==>
              ParseExpression(AsWritten, toks, pos) == ParseExpression(Corrected, toks, pos)
    decreases |toks| - pos, 3
  {
    PrimaryRefines(toks, pos);
    match ParsePrimary(AsWritten, toks, pos)
    case None =>
    case Some(Parsed(lhs, p)) => BinOpRHSRefines(toks, 0, lhs, p);
  }

  lemma {:induction false} BinOpRHSRefines(toks: seq<Lexeme>, exprPrec: nat, lhs: Expr, pos: nat)
    requires pos <= |toks|
    ensures ParseBinOpRHS(AsWritten, toks, exprPrec, lhs, pos).Some? ==>
              ParseBinOpRHS(AsWritten, toks, exprPrec, lhs, pos) == ParseBinOpRHS(Corrected, toks, exprPrec, lhs, pos)
    decreases |toks| - pos, 0
  {
    var tokPrec := GetTokPrecedence(Cur(toks, pos).tok);
    if tokPrec >= exprPrec && ParsePrimary(AsWritten, toks, pos + 1).Some? {
      var binOp := Cur(toks, pos).tok.value as char;
      PrimaryRefines(toks, pos + 1);
      var Parsed(rhs, p) := ParsePrimary(AsWritten, toks, pos + 1).value;
      assert ParsePrimary(Corrected, toks, pos + 1) == Some(Parsed(rhs, p));
      if tokPrec < GetTokPrecedence(Cur(toks, p).tok) {
        BinOpRHSRefines(toks, tokPrec + 1, rhs, p);
        if ParseBinOpRHS(AsWritten, toks, tokPrec + 1, rhs, p).Some? {
          var Parsed(rhs', q) := ParseBinOpRHS(AsWritten, toks, tokPrec + 1, rhs, p).value;
          assert ParseBinOpRHS(Corrected, toks, tokPrec + 1, rhs, p) == Some(Parsed(rhs', q));
          BinOpRHSRefines(toks, exprPrec, BinaryExpr(binOp, lhs, rhs'), q);
        }
      } else {
        BinOpRHSRefines(toks, exprPrec, BinaryExpr(binOp, lhs, rhs), p);
      }
    }
  }

  /** A definition or a top-level expression the parser as written accepts is
      read the same way by the corrected parser. */
  lemma {:induction false} DefinitionRefines(toks: seq<Lexeme>, pos: nat)
    requires pos <= |toks|
    ensures ParseDefinition(AsWritten, toks, pos).Some? ==>
              ParseDefinition(AsWritten, toks, pos) == ParseDefinition(Corrected, toks, pos)
  {
    match ParsePrototype(toks, Advance(toks, pos))
    case None =>
    case Some(Parsed(_, p)) => ExpressionRefines(toks, p);
  }

  lemma {:induction false} TopLevelRefines(toks: seq<Lexeme>, pos: nat)
    requires pos <= |toks|
    ensures ParseTopLevelExpr(AsWritten, toks, pos).Some? ==>
              ParseTopLevelExpr(AsWritten, toks, pos) == ParseTopLevelExpr(Corrected, toks, pos)
  {
    ExpressionRefines(toks, pos);
  }

  // Where the only parentheses are those of calls, the two agree.

  /** An operator token `(`. */
  predicate OpensParen(l: Lexeme) {
    l.tok.kind == TokOp && l.tok.value == '(' as int
  }

  /** Every operator token `(` from `pos` on directly follows a name token as
      the lexer makes it (an identifier with no payload), so it opens the
      arguments of a call and never a parenthesised expression. */
  predicate CallParensOnly(toks: seq<Lexeme>, pos: nat) {
    forall i {:trigger CallParenAt(toks, i)} :: pos <= i < |toks| ==> CallParenAt(toks, i)
  }

  /** The lexeme at `i` is not an operator `(`, or it follows a name token. */
  predicate CallParenAt(toks: seq<Lexeme>, i: nat)
    requires i < |toks|
  {
    OpensParen(toks[i]) ==> 0 < i && toks[i - 1].tok == MakeToken(TokIdentifier)
  }

  /** The token at `p` follows one with a payload, so under CallParensOnly it
      is not an operator `(`. */
  lemma {:induction false} AfterPayload(toks: seq<Lexeme>, pos: nat, p: nat)
    requires CallParensOnly(toks, pos) && pos < p <= |toks|
    requires toks[p - 1].tok.value != -1
    ensures !OpensParen(Cur(toks, p))
  {
    if p < |toks| {
      assert CallParenAt(toks, p);
    }
  }

  lemma {:induction false} PrimaryAgrees(toks: seq<Lexeme>, pos: nat)
    requires pos <= |toks| && CallParensOnly(toks, pos) && !OpensParen(Cur(toks, pos))
    ensures ParsePrimary(AsWritten, toks, pos) == ParsePrimary(Corrected, toks, pos)
    decreases |toks| - pos, 2
  {
    match Cur(toks, pos).tok.kind
    case TokIdentifier => IdentifierAgrees(toks, pos);
    case TokLp => ParenAgrees(toks, pos);
    case _ =>
  }

  lemma {:induction false} ParenAgrees(toks: seq<Lexeme>, pos: nat)
    requires pos <= |toks| && Cur(toks, pos).tok.kind == TokLp && CallParensOnly(toks, pos)
    ensures ParseParenExpr(AsWritten, toks, pos) == ParseParenExpr(Corrected, toks, pos)
    decreases |toks| - pos, 1
  {
    if pos + 1 < |toks| {
      assert CallParenAt(toks, pos + 1);
    }
    ExpressionAgrees(toks, pos + 1);
  }

  lemma {:induction false} IdentifierAgrees(toks: seq<Lexeme>, pos: nat)
    requires pos <= |toks| && Cur(toks, pos).tok.kind == TokIdentifier && CallParensOnly(toks, pos)
    ensures ParseIdentifierExpr(AsWritten, toks, pos) == ParseIdentifierExpr(Corrected, toks, pos)
    decreases |toks| - pos, 1
  {
    if Is(toks, pos + 1, '(') && !Is(toks, pos + 2, ')') {
      AfterPayload(toks, pos, pos + 2);
      ArgsAgrees(toks, pos + 2);
    }
  }

  lemma {:induction false} ArgsAgrees(toks: seq<Lexeme>, pos: nat)
    requires pos <= |toks| && CallParensOnly(toks, pos) && !OpensParen(Cur(toks, pos))
    ensures ParseArgs(AsWritten, toks, pos) == ParseArgs(Corrected, toks, pos)
    decreases |toks| - pos, 4
  {
    ExpressionAgrees(toks, pos);
    match ParseExpression(AsWritten, toks, pos)
    case None =>
    case Some(Parsed(_, p)) =>
      if !Is(toks, p, ')') && Is(toks, p, ',') {
        AfterPayload(toks, pos, p + 1);
        ArgsAgrees(toks, p + 1);
      }
  }

  lemma {:induction false} ExpressionAgrees(toks: seq<Lexeme>, pos: nat)
    requires pos <= |toks| && CallParensOnly(toks, pos) && !OpensParen(Cur(toks, pos))
    ensures ParseExpression(AsWritten, toks, pos) == ParseExpression(Corrected, toks, pos)
    decreases |toks| - pos, 3
  {
    PrimaryAgrees(toks, pos);
    match ParsePrimary(AsWritten, toks, pos)
    case None =>
    case Some(Parsed(lhs, p)) => BinOpRHSAgrees(toks, 0, lhs, p);
  }

  lemma {:induction false} BinOpRHSAgrees(toks: seq<Lexeme>, exprPrec: nat, lhs: Expr, pos: nat)
    requires pos <= |toks| && CallParensOnly(toks, pos)
    ensures ParseBinOpRHS(AsWritten, toks, exprPrec, lhs, pos) == ParseBinOpRHS(Corrected, toks, exprPrec, lhs, pos)
    decreases |toks| - pos, 0
  {
    var tokPrec := GetTokPrecedence(Cur(toks, pos).tok);
    if tokPrec >= exprPrec {
      AfterPayload(toks, pos, pos + 1);
      PrimaryAgrees(toks, pos + 1);
      if ParsePrimary(Corrected, toks, pos + 1).Some? {
        var binOp := Cur(toks, pos).tok.value as char;
        var Parsed(rhs, p) := ParsePrimary(Corrected, toks, pos + 1).value;
        if tokPrec < GetTokPrecedence(Cur(toks, p).tok) {
          BinOpRHSAgrees(toks, tokPrec + 1, rhs, p);
          if ParseBinOpRHS(Corrected, toks, tokPrec + 1, rhs, p).Some? {
            var Parsed(rhs', q) := ParseBinOpRHS(Corrected, toks, tokPrec + 1, rhs, p).value;
            BinOpRHSAgrees(toks, exprPrec, BinaryExpr(binOp, lhs, rhs'), q);
          }
        } else {
          BinOpRHSAgrees(toks, exprPrec, BinaryExpr(binOp, lhs, rhs), p);
        }
      }
    }
  }

  lemma {:induction false} DefinitionAgrees(toks: seq<Lexeme>, pos: nat)
    requires pos <= |toks| && CallParensOnly(toks, pos)
    ensures ParseDefinition(AsWritten, toks, pos) == ParseDefinition(Corrected, toks, pos)
  {
    match ParsePrototype(toks, Advance(toks, pos))
    case None =>
    case Some(Parsed(_, p)) =>
      AfterPayload(toks, pos, p);
      ExpressionAgrees(toks, p);
  }

  /** A top-level expression may start anywhere in the stream, so long as
      no operator `(` stands there. */
  lemma {:induction false} TopLevelAgrees(toks: seq<Lexeme>, pos: nat)
    requires pos <= |toks| && CallParensOnly(toks, pos) && !OpensParen(Cur(toks, pos))
    ensures ParseTopLevelExpr(AsWritten, toks, pos) == ParseTopLevelExpr(Corrected, toks, pos)
  {
    ExpressionAgrees(toks, pos);
  }
}

=== FILE: wrappers.dfy ===
/** The failure-carrying result used by every parsing production: a failed
    production yields no node at all (the source returns `nullptr`). */
module Wrappers {

  datatype Option<+T> = None | Some(value: T)
}
